=== FILE: README.md ===
# rsc3 synth-graph compiler, modelled in Dafny

rsc3 builds SuperCollider synthesis graphs in Rust. A graph is written as a
tree of unit generators (`Ugen`): constants, controls, primitives (a named
unit generator with inputs and output rates), multichannel bundles (`Mce`),
merges (`Mrg`) and proxies (one output of a multi-output primitive). The
core of the library, in `src/sc3.rs` and `src/osc.rs`, does four things,
and this project models each of them.

1. **Multichannel expansion.** A primitive with a bundle among its inputs
   becomes a bundle of copies of the primitive, one per channel.
   - `mce_extend`, `mce_transform` and `mce_expand` do the expansion.
   - `proxify` turns a primitive with several outputs into a bundle of
     proxies.
   - `mk_ugen` runs both.
2. **The graph compiler.** `synth` flattens a tree into three tables:
   constants, controls and unit generators.
   - Every entry gets a fresh id.
   - A constant or control that is already present is looked up rather
     than added again.
   - The unit generator table is finally put in evaluation order, behind an
     implicit `Control` node that stands for the controls.
3. **The SynthDef encoder.** `encode_graphdef` writes a compiled graph as a
   SynthDef file. Every reference to a node becomes the node's position in
   its table.
4. **The byte codecs of `src/osc.rs`.** They are big-endian integers,
   IEEE 754 single-precision words and length-prefixed strings.

The unit generator constructors (`mk_oscillator`, `mk_filter`,
`mk_operator` and the unary and binary operators) are modelled on top of
`mk_ugen`.

## How the model represents the source

- **Panics become `None`.** Every place the source panics returns an
  `Option`, with `None` for the panic. This covers:
  - an index out of range;
  - a `match` arm that calls `panic!`;
  - a failed downcast.
- **Non-termination becomes a precondition.** Two source loops never end,
  so the model requires the inputs that avoid them:
  - `extend` on an empty list;
  - `mce_extend` through an empty bundle.
- **Floats are bit patterns.**
  - An `f32` is its 32-bit pattern (`Float32.F32`).
  - `==` on floats is IEEE equality: NaN is unequal to itself, and +0
    equals -0.
  - `i32 as f32` rounds to nearest, with ties to even.
- **`f64` stays abstract.** It appears only in the operator constructors.
  There it is a type parameter `D`. A `Doubles<D>` value carries the three
  conversions the source uses:
  - `f64 as f32`;
  - `i32 as f64`;
  - `f32 as f64`.
- **Operands are a three-way choice.** An operator's `Any` operand is an
  `Operand<D>`: an `f64` literal, a `Ugen`, or a value of any other type.
  A value of any other type panics.
- **Strings are their UTF-8 bytes** (`Name = seq<uint8>`).
- **Integers are unbounded, with wrap-around written out.** Byte
  truncation (`as u8`) and the 16- and 32-bit reinterpretations are
  written out explicitly.
- **`Reader` is a partner of the encoder, not a model of the source.** The
  source only writes SynthDef files. The `Reader` module is this model's
  own reader of the format. It makes the encoder's round trip statable:
  reading what `synthdef` wrote gives back the graph's view.
- **`find_u_p` is modelled as written.** `mk_node_u` passes the
  primitive's `index` where `find_u_p` expects a node id, and `find_u_p`
  compares it with the stored node's graph id. An existing unit generator
  is therefore reused only when its graph id happens to equal the
  primitive's index. Graph ids are positive, so a shared primitive (index
  0) is never reused: the same primitive written twice is compiled twice.
  `Compiler.DuplicatePrimitiveCompiledTwice` shows this.

## Model

| member | source | states |
|---|---|---|
| Osc.EncodeI8 | src/osc.rs:1-4 | the single byte is the number modulo 256 |
| Osc.EncodeI16 | src/osc.rs:6-10 | two bytes, high byte first, whose big-endian value is the number modulo 2^16 |
| Osc.EncodeI32 | src/osc.rs:12-18 | four bytes, most significant first, whose big-endian value is the number modulo 2^32 |
| Osc.EncodeWord | src/osc.rs:20-27 | an f32's bit pattern as four bytes whose big-endian value is exactly that pattern |
| Osc.EncodeWordIsEncodeI32 | src/osc.rs:12-27 | encode_f32 of a pattern equals encode_i32 of the same 32 bits read as a signed integer |
| Osc.DecodeI16 | src/osc.rs:29-33 | decodes when there are at least two bytes (otherwise the indexing panics); the value is unsigned, below 2^16 |
| Osc.DecodeEncodeI16 | src/osc.rs:29-33 | decode_i16 of encode_i16(x) gives x modulo 2^16, so x itself for 0 <= x < 2^16 |
| Osc.DecodeI32 | src/osc.rs:35-41 | decodes when there are at least four bytes; the result is a signed 32-bit value |
| Osc.DecodeI32RoundTripIff | src/osc.rs:35-41 | decode_i32 as written inverts encode_i32 exactly when the number's bytes 1 and 3 are equal |
| Osc.DecodeI32Of256 | src/osc.rs:35-41 | encode_i32(256) is [0,0,1,0]; decode_i32 reads it as 2^24, and the big-endian decoder reads it as 256 |
| Osc.DecodeI32BigEndian | src/osc.rs:35-41 | the corrected decoder: defined on at least four bytes, giving a signed 32-bit value |
| Osc.DecodeI32BigEndianRoundTrip | src/osc.rs:12-18 | the corrected decoder inverts encode_i32 on every i32 |
| Osc.DecodersReadPrefixOnly | src/osc.rs:29-41 | the decoders look only at the first two or four bytes of the buffer |
| Osc.EncodeStr | src/osc.rs:43-46 | the string's bytes, unchanged |
| Osc.StrPstr | src/osc.rs:48-53 | one length byte (the length modulo 256) followed by the string's bytes |
| Float32.FloatEqReflexive | src/sc3.rs:225-231 | f32 `==` holds between a value and itself exactly when it is not NaN |
| Float32.FloatEqSymmetric | src/sc3.rs:225-231 | f32 `==` is symmetric |
| Float32.FloatEqTransitive | src/sc3.rs:225-231 | f32 `==` is transitive |
| Float32.IntToF32 | src/sc3.rs:734-746 | `i32 as f32` never gives NaN, gives zero exactly for 0, and keeps the sign |
| Float32.IntToF32Of320 | src/sc3.rs:1402-1406 | 320 as f32 has the bit pattern 0x43A00000 |
| Ugens.RateId | src/sc3.rs:353-355 | a rate's code is one of 0..3 |
| Ugens.RateIdInjective | src/sc3.rs:4-9 | distinct rates have distinct codes, and each code reads back as its rate |
| Ugens.CompareUgen | src/sc3.rs:215-320 | integer constants, controls and input references compare equal only when identical; primitives and proxies only when everything but their inputs is identical; bundles only with bundles of the same width |
| Ugens.ComparePrim | src/sc3.rs:242-262 | two primitives it accepts have the same number of inputs and agree on name, rate, outputs, special value and index |
| Ugens.CompareReflexive | src/sc3.rs:215-320 | compare_ugen relates a tree to itself exactly when it contains no IntNum, no FloatNum and no NaN constant |
| Ugens.CompareSymmetric | src/sc3.rs:215-320 | compare_ugen(a, b) equals compare_ugen(b, a) for all trees |
| Ugens.CompareTransitive | src/sc3.rs:215-320 | compare_ugen is transitive |
| Ugens.CompareSameVariant | src/sc3.rs:215-320 | trees that compare equal have the same constructor, and IntNum or FloatNum never compares equal |
| Ugens.CompareOrderSensitive | src/sc3.rs:263-271 | bundles compare in order: swapping two channels that differ makes the bundles differ |
| Ugens.MaxNum | src/sc3.rs:388-396 | the result bounds the start and every number, and is the start or one of the numbers |
| Ugens.MaxRate | src/sc3.rs:398-406 | the fastest rate by code, starting from the given rate; it is the start or one of the rates |
| Ugens.RateOf | src/sc3.rs:408-423 | a bundle's rate is the fastest of its channels' rates, at least Kr |
| Ugens.IsSink | src/sc3.rs:357-386 | a bundle is a sink exactly when one of its channels is |
| Ugens.AnySink | src/sc3.rs:359-368 | a list holds a sink exactly when one of its elements is a sink |
| Ugens.SinkWithoutInputs | src/sc3.rs:1446-1448 | a primitive without inputs (P2 of the tests) is a sink with its own rate, and max_num([13,23,38,11], 21) is 38 |
| Expansion.Iota | src/sc3.rs:329-338 | n terms, the i-th being init + i*step |
| Expansion.IotaExample | src/sc3.rs:1444 | iota(4, 1, 2) is [1, 3, 5, 7] |
| Expansion.Extend | src/sc3.rs:340-351 | exactly n elements, the list repeated cyclically (element i is s[i mod len]) |
| Expansion.ExtendExample | src/sc3.rs:1445 | extending a two-element list to five cycles it |
| Expansion.MceDegree | src/sc3.rs:425-431 | defined exactly when the tree, followed down the left sides of merges, ends in a bundle; then it is that bundle's width |
| Expansion.MceChannel | src/sc3.rs:568-573 | defined exactly on a bundle and an in-range index, giving one of its channels |
| Expansion.MceChannels | src/sc3.rs:575-596 | defined except on a merge whose spine does not end in a bundle of two or more; for a merge the first channel is rewrapped in the merge |
| Expansion.ChannelsMatchDegree | src/sc3.rs:568-596 | mce_channels has mce_degree elements, and mce_channel picks the n-th of them |
| Expansion.ChannelsOfMerge | src/sc3.rs:1360-1374 | the channels of a merge of a two-channel bundle are the merged first channel and the plain second |
| Expansion.MceExtend | src/sc3.rs:433-455 | panics exactly for a merge extended to width 0; otherwise has n elements (1 for a plain tree at n = 0), each being the tree's channel at that position |
| Expansion.MceExtendExample | src/sc3.rs:1450 | extending a merge of a two-channel bundle to 3 cycles the bundle's channels, the first kept inside the merge |
| Expansion.Transposer | src/sc3.rs:464-482 | defined exactly when the first row is no longer than any other; then the result is the transpose up to the first row's length |
| Expansion.TransposeInvolution | src/sc3.rs:464-482 | transposing a rectangular matrix twice gives it back |
| Expansion.TransposerExample | src/sc3.rs:1451 | a 3 by 2 matrix transposes to 2 by 3 |
| Expansion.UpperDegree | src/sc3.rs:487-498 | the widest bundle among the inputs, or 0 when there is none |
| Expansion.ExtendAll | src/sc3.rs:499-502 | every input extended to width n; panics only at width 0 with a merge input |
| Expansion.ExtensionGrid | src/sc3.rs:484-525 | transposing the extended inputs gives the grid of channel columns, one per output channel |
| Expansion.MceTransform | src/sc3.rs:484-525 | defined exactly on a primitive whose transform does not panic; the result is a bundle of copies of the primitive, the k-th taking the k-th channel of each input |
| Expansion.TransformExample | src/sc3.rs:1343-1359 | the transform of P3 has three channels; the third takes channel 2 of each input |
| Expansion.TransformShrinks | src/sc3.rs:484-525 | each copy the transform makes is strictly smaller by the expansion measure, so mce_expand terminates |
| Expansion.MceExpand | src/sc3.rs:527-566 | no primitive reachable through bundles and merge left sides has a bundle input; a bundle expands channel by channel into a bundle of the same width; a merge expands its left side and keeps its right side; a primitive with a bundle input expands to a family of copies of itself; every other node is unchanged |
| Expansion.ExpandIsExpandOfTransform | src/sc3.rs:527-566 | expanding a primitive with a bundle input equals expanding its transform |
| Expansion.ExpandFixesExpanded | src/sc3.rs:527-566 | a tree without bundle inputs is left as it is |
| Expansion.MceExpandIdempotent | src/sc3.rs:527-566 | expanding twice is expanding once |
| Expansion.WellFormedExpandable | src/sc3.rs:433-566 | trees without empty bundles meet the expansion's preconditions |
| Expansion.Proxify | src/sc3.rs:598-632 | defined exactly on bundles and merges of primitives; a primitive with two or more outputs becomes one proxy per output, in order, and one with fewer is returned unchanged; a bundle is proxified channel by channel and a merge on its left side, the right side kept |
| Expansion.ProxifyInverse | src/sc3.rs:598-632 | collapsing the proxy bundles back gives the original tree |
| Expansion.ProxifyFamily | src/sc3.rs:598-632 | proxify never panics on an expanded primitive family |
| Expansion.ProxifyExample | src/sc3.rs:1375-1389 | a bundle of a two-output and a no-output primitive proxifies to a bundle of two proxies and the plain primitive |
| Expansion.MkUgen | src/sc3.rs:634-652 | the result is built only from the given header (bundles of copies or proxies of it); removing proxies gives the expansion of the primitive |
| Expansion.MkUgenPlain | src/sc3.rs:634-652 | with no bundle input and fewer than two outputs, mk_ugen gives the primitive itself |
| Compiler.Reverse | src/sc3.rs:961-981 | the elements in reverse order |
| Compiler.First | src/sc3.rs:734-802 | the position of the first element that satisfies the test, or None when none does |
| Compiler.AsFromPort | src/sc3.rs:699-712 | the reference for each kind of node; that on a graph synth produces every such reference resolves to an entry at an earlier position is stated by Encoder.SortedInputResolves |
| Compiler.MkNodeC | src/sc3.rs:714-746 | the graph is unchanged exactly when an equal constant is stored, and then the first such constant is returned; otherwise a new constant with id nextId+1 is put in front |
| Compiler.MkNodeK | src/sc3.rs:748-782 | the graph is unchanged exactly when a control of that name is stored, and then the first one is returned; otherwise a new control is put in front |
| Compiler.MkNodeP | src/sc3.rs:869-882 | a port of the node with a fresh id; only the counter changes |
| Compiler.PushC | src/sc3.rs:718-732 | the new constant holds the value and takes the next id; it goes in front of the constants and nothing else changes |
| Compiler.PushK | src/sc3.rs:752-768 | the new control keeps name and rate, its default is the index, it takes the next id and goes in front of the controls; nothing else changes |
| Compiler.PushU | src/sc3.rs:804-823 | the new unit generator copies the primitive's fields, takes the next id and goes in front of the unit generators; nothing else changes |
| Compiler.PushCValid | src/sc3.rs:718-732 | adding a constant keeps the graph invariant (positive, distinct, descending ids; wired inputs) |
| Compiler.PushKValid | src/sc3.rs:752-768 | adding a control keeps the graph invariant |
| Compiler.PushUValid | src/sc3.rs:804-823 | adding a unit generator whose inputs are present keeps the graph invariant |
| Compiler.MkNode | src/sc3.rs:884-900 | constants compile to constant nodes, controls to control nodes, primitives to unit generators, proxies to a port of a unit generator; bundles, untyped numbers and input references never compile (that it succeeds exactly on Compilable trees is Compiler.MkNodeDefined) |
| Compiler.MkNodeU | src/sc3.rs:838-867 | the result is a unit generator node (its reuse rule is Compiler.MkNodeUReuse) |
| Compiler.MkNodeStep | src/sc3.rs:884-900 | compiling a tree only adds to the graph, yields a node present in it, and keeps the invariant |
| Compiler.MkNodeUStep | src/sc3.rs:838-867 | the same for a primitive |
| Compiler.AccStep | src/sc3.rs:825-836 | compiling a list only adds to the graph, keeps the invariant, and every new node is present |
| Compiler.AccOrder | src/sc3.rs:825-836 | acc puts the accumulated nodes first, in reverse |
| Compiler.Acc | src/sc3.rs:825-836 | the result has one node per accumulated node and per input |
| Compiler.MkNodeDefined | src/sc3.rs:884-900 | mk_node panics exactly on trees reaching a bundle, a bare number or an input reference |
| Compiler.MkNodeUDefined | src/sc3.rs:838-867 | mk_node_u succeeds exactly when every input compiles |
| Compiler.AccDefined | src/sc3.rs:825-836 | acc succeeds exactly when every input compiles |
| Compiler.AccIsCompileAll | src/sc3.rs:825-836 | acc equals a left-to-right compilation of the list behind the reversed accumulator |
| Compiler.CompileAllAppend | src/sc3.rs:825-836 | compiling a concatenation compiles the first part and then the second from the resulting graph |
| Compiler.MkNodeUReuseByIndex | src/sc3.rs:784-802 | a leaf primitive reuses a stored node exactly when find_u_p matches one, and the reused node's graph id then equals the primitive's index |
| Compiler.MkNodeUReuse | src/sc3.rs:838-867 | for any primitive, after its inputs are compiled, the graph is returned unchanged exactly when find_u_p accepts a stored node against the input references; the node is then the first such one and its graph id is the primitive's index; otherwise a new node with the next id, the input references and the index is put in front |
| Compiler.FindUP | src/sc3.rs:784-802 | a node it accepts has the same output rates, rate, name and special value, as many inputs, and a graph id equal to the `id` argument, which mk_node_u fills with the primitive's index |
| Compiler.MkNodeUFreshWhenIndexNonPositive | src/sc3.rs:838-867 | with index 0 or below on a valid graph, mk_node_u always adds a new node with the next id |
| Compiler.LeafAddsOne | src/sc3.rs:838-867 | compiling a leaf primitive with index 0 or below adds one unit generator and keeps the invariant |
| Compiler.DuplicatePrimitiveCompiledTwice | src/sc3.rs:784-802 | merging a shared primitive with itself compiles it twice, giving two unit generators |
| Compiler.SampleConstantLookup | src/sc3.rs:1458 | on the sample graph the constant 320 finds the stored 320.0, whose id is 20 |
| Compiler.SampleControlLookup | src/sc3.rs:1459 | on the sample graph control "ndk1" finds the stored control with id 30 |
| Compiler.MrgN | src/sc3.rs:919-936 | the shape of the chain; what it means for compilation is stated by Compiler.MrgNCompilesReversed, and that it keeps the list by Compiler.UnchainMrgN |
| Compiler.UnchainMrgN | src/sc3.rs:919-936 | reading the left sides along the right spine of the chain gives back the list, in order |
| Compiler.MrgNCompilesReversed | src/sc3.rs:919-936 | compiling a merge chain compiles its elements from last to first |
| Compiler.PrepareRoot | src/sc3.rs:938-950 | panics exactly when it reaches an empty bundle; a bundle becomes a merge chain whose left sides, read along the right spine, are its channels in order; a merge is rebuilt from its two prepared sides; every other tree is kept |
| Compiler.Implicit | src/sc3.rs:902-917 | id -1, no inputs, one Kr output per control |
| Compiler.Finish | src/sc3.rs:964-980 | constants and controls are kept; the unit generators are reversed, behind the implicit control node when there are controls; the counter becomes -1 |
| Compiler.Synth | src/sc3.rs:961-981 | defined exactly when prepare_root succeeds and the prepared root compiles; the counter of the result is -1 |
| Compiler.SynthDefined | src/sc3.rs:961-981 | synth succeeds exactly when prepare_root does and the prepared root compiles |
| Compiler.SynthOfBundle | src/sc3.rs:938-981 | for a bundle root, synth compiles the channels from the last to the first |
| Compiler.SynthSorted | src/sc3.rs:961-981 | in the graph synth produces, every unit generator input refers to an earlier unit generator or a stored constant or control |
| Compiler.SynthImplicit | src/sc3.rs:961-981 | the implicit control node is present exactly when there are controls and comes first; the other ids strictly increase |
| Compiler.SynthTablesNewestFirst | src/sc3.rs:718-768 | constants and controls stay newest first |
| Encoder.MkMap | src/sc3.rs:661-680 | one id per table entry |
| Encoder.SampleMap | src/sc3.rs:1454-1456 | the sample graph's id lists are [20,21], [30,31] and [40,41] |
| Encoder.Fetch | src/sc3.rs:682-689 | the position of the first occurrence, or -1 exactly when the value is absent |
| Encoder.FetchDistinct | src/sc3.rs:682-689 | in a list without repeats each element is found at its own position |
| Encoder.MkInput | src/sc3.rs:996-1012 | defined exactly on port references |
| Encoder.EncodeInput | src/sc3.rs:990-994 | four bytes |
| Encoder.EncodeNodeK | src/sc3.rs:983-988 | the name's length modulo 256, the name, then two bytes that decode to the position fetch finds modulo 2^16; for a control in the map of fewer than 2^16 entries, that position holds the control's id |
| Encoder.EncodeNodeU | src/sc3.rs:1014-1029 | defined exactly when every input is a port reference; the length counts name, header, inputs and outputs |
| Encoder.EncodeRates | src/sc3.rs:1025-1027 | one byte per output, its rate's code |
| Encoder.EncodeInputs | src/sc3.rs:1022-1024 | defined exactly when every input is a port reference; four bytes per input, the k-th four being that input's encoding |
| Encoder.EncodeConstants | src/sc3.rs:1039-1047 | four bytes per constant, the k-th four being the k-th constant's f32 word |
| Encoder.EncodeDefaults | src/sc3.rs:1049-1057 | four bytes per control, the k-th four being the word of the k-th control's `def` converted to f32 |
| Encoder.EncodeParams | src/sc3.rs:1059-1061 | at least three bytes per control; the per-control layout is stated by Reader.ParamsWritten |
| Encoder.EncodeUgens | src/sc3.rs:1063-1065 | defined exactly when every input of every unit generator is a port reference; at least eight bytes per unit generator |
| Encoder.EncodeGraphdef | src/sc3.rs:1031-1067 | defined exactly when every input is a port reference |
| Encoder.Synthdef | src/sc3.rs:1069-1072 | defined only when synth is |
| Encoder.SynthdefDefined | src/sc3.rs:1069-1072 | synthdef panics exactly when synth does: every graph synth produces can be encoded |
| Encoder.SortedInputResolves | src/sc3.rs:996-1012 | on a graph in evaluation order each input translates to the position of its constant, its control or an earlier unit generator |
| Encoder.SynthParamPositions | src/sc3.rs:983-988 | the position written after each control's name is that control's own position |
| Encoder.SynthInputPositions | src/sc3.rs:996-1029 | every input written refers backwards: -1 for a constant or an earlier unit generator; a control input points at the implicit node with a port within its outputs |
| Reader.ReadInputWrite | src/sc3.rs:990-994 | reading the four bytes encode_input wrote gives the input back, when both fields fit in 16 bits |
| Reader.ConstantsWritten | src/sc3.rs:1038-1047 | the constants are written as their f32 words, in table order |
| Reader.DefaultsWritten | src/sc3.rs:1048-1057 | each control's default is its `def` converted with `as f32`, in table order |
| Reader.ParamsWritten | src/sc3.rs:1058-1061 | each control is written as its name followed by the position fetch finds for its id |
| Reader.InputsWritten | src/sc3.rs:1022-1024 | the inputs are written as the sequence of their translated references |
| Reader.UgensWritten | src/sc3.rs:1063-1065 | the unit generators are written one after another, each as its name, rate, counts, special value, inputs and output rates |
| Reader.NodeUWritten | src/sc3.rs:1014-1029 | encode_node_u writes the format's unit generator entry, inputs translated by mk_input and outputs as rate codes |
| Reader.ReadDefWrite | src/sc3.rs:1031-1067 | reading a written definition whose fields fit the format gives it back |
| Reader.EncodeGraphdefWritesView | src/sc3.rs:1031-1067 | encode_graphdef writes exactly the SynthDef layout of the graph's view |
| Reader.EncodeGraphdefRoundTrip | src/sc3.rs:1031-1067 | reading what encode_graphdef wrote gives back the graph's view, when the tables fit the format |
| Reader.SynthdefRoundTrip | src/sc3.rs:1069-1072 | when the name and tables fit the format (`GraphFits`), reading what synthdef wrote gives back the view of the compiled graph |
| Reader.ReadDefIff | src/sc3.rs:1031-1067 | a buffer reads as a definition exactly when it is that definition's encoding and the definition fits the format (`DefFits`) |
| Reader.ReadI32 | src/osc.rs:35-41 | reads the corrected big-endian decoding; encode_i32 of the value, followed by the rest, is the buffer |
| Reader.ReadI32Write | src/osc.rs:12-18 | reading an encoded i32 gives it back with the rest of the buffer |
| Reader.ReadPstrWrite | src/osc.rs:48-53 | reading a length-prefixed string of fewer than 256 bytes gives it back |
| Reader.ReadWordWrite | src/osc.rs:20-27 | reading an encoded f32 gives its bit pattern back |
| Reader.ReadUgensWrite | src/sc3.rs:1014-1029 | when every entry fits the format (`UgenFits`), reading the encoded unit generators gives them back |
| Operators.Replicate | src/sc3.rs:1096-1099 | the rate repeated ou times, none when ou is not positive |
| Operators.MkOscillator | src/sc3.rs:1095-1102 | built by mk_ugen from a shared header at the given rate with ou outputs of that rate |
| Operators.FilterRate | src/sc3.rs:1105-1106 | the fastest input rate, at least Kr, and one of the input rates unless Kr |
| Operators.MkFilter | src/sc3.rs:1104-1112 | built by mk_ugen at the fastest input rate, all outputs at that rate |
| Operators.FilterIsOscillatorAtInputRate | src/sc3.rs:1095-1112 | mk_filter is mk_oscillator at the filter rate |
| Operators.OscillatorPlain | src/sc3.rs:1095-1102 | without bundle inputs and with at most one output, the oscillator is the plain primitive |
| Operators.MkOperator | src/sc3.rs:1132-1137 | one output at the fastest input rate, carrying the operator code |
| Operators.OperatorPlain | src/sc3.rs:1132-1137 | without bundle inputs, the operator is the plain primitive at the filter rate |
| Operators.MkUnaryOperator | src/sc3.rs:1141-1168 | panics exactly on an operand of another type |
| Operators.UnaryFoldsConstants | src/sc3.rs:1152-1158 | the result is a constant exactly when the operand is a constant unit generator |
| Operators.UnaryOfLiteral | src/sc3.rs:1145-1150 | an f64 literal becomes a Kr "UnaryOpUgen" over the narrowed constant, not folded |
| Operators.MkBinaryOperator | src/sc3.rs:1170-1241 | panics exactly when either operand has another type |
| Operators.BinaryFoldsConstants | src/sc3.rs:1199-1217 | the result is a constant exactly when both operands are constant unit generators |
| Operators.BinaryLiteralFirst | src/sc3.rs:1226-1232 | a unit generator with an f64 literal second gives the same node as the literal first: the literal is always the first input |
| Operators.BinaryKeepsOrder | src/sc3.rs:1218-1223 | two unit generators, not both constants, become a "BinaryOpUGen" with the inputs in order |

## Left out

- I/O is not modelled: `print_ugen`, `print_ugens` and `print_bytes`.
- `next_uid`, `mk_osc_me`, `mk_osc_id`, `mk_filter_id` and `mk_filter_mce`
  are not modelled. `next_uid` is a global mutable counter, and the other
  four only combine it, or `mce_channels`, with the constructors modelled
  here.
- `src/ugens.rs` (the unit generator catalogue), `src/gui.rs` and
  `src/main.rs` are not part of this model.
- Ids, counts and positions are unbounded integers. The source's `i32`
  counter could overflow after 2^31 allocations; the model does not
  overflow.
- Expansion.Extend: requires a nonempty list, because `extend` loops
  forever on an empty one.
- Expansion.MceExtend: requires that every bundle in the tree (through
  channels and merge left sides) is nonempty (`InputOk`), because `mce_extend` on an empty bundle recurses through
  `extend` without end.
- Compiler.MrgN: requires a nonempty list. Its one caller,
  `prepare_root`, returns `None` on an empty bundle, which is where the
  source's `drain(0..1)` panics.
- Operators.MkUnaryOperator: requires a unit generator operand to meet
  `InputOk`, for the same reason as Expansion.MceExtend.
- Operators.MkBinaryOperator: requires each unit generator operand to meet
  `InputOk`, for the same reason as Expansion.MceExtend.
- `f64` arithmetic is not modelled. The operator's own function and the
  conversions are parameters (`Doubles`).
- Encoder.EncodeParams: its own contract gives only a length bound,
  because each control's bytes depend on its name's length; the layout is
  stated by Reader.ParamsWritten.
- Compiler.MkNodeU: its own contract only says the node is a unit
  generator; the reuse rule is stated by Compiler.MkNodeUReuse.
- Reader.EncodeGraphdefRoundTrip: requires GraphFits (names below 256
  bytes, fewer than 2^15 entries per table, 16-bit counts and fields).
  Larger graphs wrap around in `encode_i16` and `str_pstr`, so they do not
  read back.

## Findings

| source | as written | input that shows it | evidently intended | confidence | as-written member | corrected member |
|---|---|---|---|---|---|---|
| src/osc.rs:35-41 | `decode_i32` shifts byte 0 by 8, byte 1 by 16 and byte 2 by 24, so it is not the inverse of the big-endian `encode_i32` | `encode_i32(256)` is `[0,0,1,0]`; `decode_i32` gives 16777216 | byte 0 shifted by 24, byte 1 by 16, byte 2 by 8, as `encode_i32` writes them | not executed | Osc.DecodeI32RoundTripIff | Osc.DecodeI32BigEndianRoundTrip |

=== FILE: arith.dfy ===
/** Facts about Euclidean division and multiplication shared by the byte
    codecs and the float conversion. */
module Arith {

  lemma {:induction false} MulMono(x: nat, y: nat, b: nat)
    requires x <= y
    ensures x * b <= y * b
  {
    assert y * b == x * b + (y - x) * b;
  }

  lemma MulAtLeast(t: int, d: int)
    requires t >= 1 && d > 0
    ensures t * d >= d
    decreases t
  {
    if t > 1 {
      MulAtLeast(t - 1, d);
      assert t * d == (t - 1) * d + d;
    }
  }

  /** Euclidean division is determined by quotient and remainder. */
  lemma DivModUnique(x: int, d: int, q: int, r: int)
    requires d > 0 && 0 <= r < d && x == q * d + r
    ensures x / d == q && x % d == r
  {
    var q0, r0 := x / d, x % d;
    assert x == q0 * d + r0;
    assert q * d - q0 * d == r0 - r;
    if q > q0 {
      assert (q - q0) * d == q * d - q0 * d;
      MulAtLeast(q - q0, d);
    } else if q < q0 {
      assert (q0 - q) * d == q0 * d - q * d;
      MulAtLeast(q0 - q, d);
    }
  }
}

=== FILE: compiler.dfy ===
/** The graph compiler of src/sc3.rs: a ugen tree is flattened into three
    tables (constants, controls and unit generators), each kept newest
    first, threading a `Graph` value through the compile functions. A
    constant or control that is already present is looked up rather than
    added again; everything new gets the id `nextId + 1`. The functions
    that panic in the source return `None` here. */
module Compiler {
  import opened Osc
  import opened Float32
  import opened Ugens

  datatype NodeC = NodeC(id: int, value: F32)

  /** A control; `def` is what the encoder writes as its default value. */
  datatype NodeK = NodeK(id: int, name: Name, rate: Rate, def: int)

  datatype NodeU = NodeU(id: int, name: Name, rate: Rate, inputs: seq<Ugen>, outputs: seq<Rate>, special: int, ugenId: int)

  /** A compiled node; `NP` is one output port of a multi-output node. */
  datatype Node =
    | NC(c: NodeC)
    | NK(k: NodeK)
    | NU(u: NodeU)
    | NP(pid: int, target: Node, pIdx: int)

  datatype Graph = Graph(nextId: int, constants: seq<NodeC>, controls: seq<NodeK>, ugens: seq<NodeU>)

  /** A compile step's result: the node for the ugen and the new graph. */
  datatype Compiled = Compiled(node: Node, graph: Graph)

  function EmptyGraph(): Graph
  {
    Graph(0, [], [], [])
  }

  // ---------------------------------------------------------------------
  // Sequence helpers
  // ---------------------------------------------------------------------

  function Reverse<T>(s: seq<T>): (r: seq<T>)
    ensures |r| == |s|
    ensures forall i :: 0 <= i < |s| ==> r[i] == s[|s| - 1 - i]
  {
    if |s| == 0 then [] else Reverse(s[1..]) + [s[0]]
  }

  /** The position of the first element satisfying `f`, if any: the
      front-to-back search loops of the compiler. */
  function First<T>(s: seq<T>, f: T -> bool): (r: Option<nat>)
    ensures r.Some? ==> r.value < |s| && f(s[r.value])
    ensures r.Some? ==> forall i :: 0 <= i < r.value ==> !f(s[i])
    ensures r.None? ==> forall i :: 0 <= i < |s| ==> !f(s[i])
  {
    if |s| == 0 then None
    else if f(s[0]) then Some(0)
    else
      match First(s[1..], f)
      case None => None
      case Some(j) => Some(j + 1)
  }

  /** `a` is what remains of `b` after dropping some newest entries. */
  ghost predicate Suffix<T>(a: seq<T>, b: seq<T>)
  {
    |a| <= |b| && b[|b| - |a|..] == a
  }

  lemma SuffixTransitive<T>(a: seq<T>, b: seq<T>, c: seq<T>)
    requires Suffix(a, b) && Suffix(b, c)
    ensures Suffix(a, c)
  {
    assert c[|c| - |a|..] == c[|c| - |b|..][|b| - |a|..];
  }

  lemma SuffixIn<T>(a: seq<T>, b: seq<T>, x: T)
    requires Suffix(a, b) && x in a
    ensures x in b
  {
    var i :| 0 <= i < |a| && a[i] == x;
    assert b[|b| - |a| + i] == x;
  }

  // ---------------------------------------------------------------------
  // Nodes
  // ---------------------------------------------------------------------

  function NodeId(n: Node): int
  {
    match n
    case NC(c) => c.id
    case NK(k) => k.id
    case NU(u) => u.id
    case NP(id, _, _) => id
  }

  /** as_from_port: the input reference that stands for a compiled node; a
      port of a multi-output node refers to the node it is a port of. */
  function AsFromPort(n: Node): (r: Ugen)
    ensures n.NC? ==> r == FromPortC(n.c.id)
    ensures n.NK? ==> r == FromPortK(n.k.id)
    ensures n.NU? ==> r == FromPortU(n.u.id, 0)
    ensures n.NP? ==> r == FromPortU(NodeId(n.target), n.pIdx)
  {
    match n
    case NC(c) => FromPortC(c.id)
    case NK(k) => FromPortK(k.id)
    case NU(u) => FromPortU(u.id, 0)
    case NP(_, t, i) => FromPortU(NodeId(t), i)
  }

  // ---------------------------------------------------------------------
  // Tables
  // ---------------------------------------------------------------------

  /** push_c: a new constant with id `nextId + 1` at the front. */
  function PushC(v: F32, g: Graph): (r: Compiled)
    ensures r.node.NC? && r.node.c.value == v && NodeId(r.node) == r.graph.nextId == g.nextId + 1
    ensures r.graph.constants == [r.node.c] + g.constants
    ensures r.graph.controls == g.controls && r.graph.ugens == g.ugens
  {
    var c := NodeC(g.nextId + 1, v);
    Compiled(NC(c), g.(nextId := g.nextId + 1, constants := [c] + g.constants))
  }

  /** push_k: a new control; its `def` is the control's index. */
  function PushK(name: Name, index: int, rate: Rate, g: Graph): (r: Compiled)
    ensures r.node.NK? && NodeId(r.node) == r.graph.nextId == g.nextId + 1
    ensures r.node.k.name == name && r.node.k.rate == rate && r.node.k.def == index
    ensures r.graph.controls == [r.node.k] + g.controls
    ensures r.graph.constants == g.constants && r.graph.ugens == g.ugens
  {
    var k := NodeK(g.nextId + 1, name, rate, index);
    Compiled(NK(k), g.(nextId := g.nextId + 1, controls := [k] + g.controls))
  }

  /** push_u: a new unit generator; `ugenId` is the primitive's index. */
  function PushU(p: Prim, g: Graph): (r: Compiled)
    ensures r.node.NU? && NodeId(r.node) == r.graph.nextId == g.nextId + 1
    ensures var u := r.node.u;
      && u.name == p.name && u.rate == p.rate && u.inputs == p.inputs && u.outputs == p.outputs
      && u.special == p.special && u.ugenId == p.index
    ensures r.graph.ugens == [r.node.u] + g.ugens
    ensures r.graph.constants == g.constants && r.graph.controls == g.controls
  {
    var u := NodeU(g.nextId + 1, p.name, p.rate, p.inputs, p.outputs, p.special, p.index);
    Compiled(NU(u), g.(nextId := g.nextId + 1, ugens := [u] + g.ugens))
  }

  /** The value a constant ugen compiles to: an integer is promoted with
      `as f32`. */
  function ConstValue(u: Ugen): (v: Option<F32>)
    ensures v.Some? <==> u.IConst? || u.FConst?
  {
    match u
    case IConst(i) => Some(IntToF32(i))
    case FConst(f) => Some(f)
    case _ => None
  }

  predicate SameValue(v: F32, c: NodeC)
  {
    FloatEq(v, c.value)
  }

  predicate SameName(name: Name, k: NodeK)
  {
    name == k.name
  }

  /** mk_node_c: the first stored constant equal to the value, with the
      graph unchanged, or else a new constant. */
  function MkNodeC(u: Ugen, g: Graph): (r: Option<Compiled>)
    ensures r.Some? <==> u.IConst? || u.FConst?
    ensures r.Some? ==> r.value.node.NC? && r.value.node.c in r.value.graph.constants
    ensures r.Some? ==> r.value.graph.controls == g.controls && r.value.graph.ugens == g.ugens
    ensures r.Some? ==> var v := ConstValue(u).value;
      (r.value.graph == g <==> exists i :: 0 <= i < |g.constants| && FloatEq(v, g.constants[i].value))
    ensures r.Some? && r.value.graph == g ==>
      exists i :: 0 <= i < |g.constants| && r.value.node == NC(g.constants[i])
        && FloatEq(ConstValue(u).value, g.constants[i].value)
        && forall j :: 0 <= j < i ==> !FloatEq(ConstValue(u).value, g.constants[j].value)
    ensures r.Some? && r.value.graph != g ==>
      && r.value.node == NC(NodeC(g.nextId + 1, ConstValue(u).value))
      && r.value.graph.constants == [r.value.node.c] + g.constants
      && r.value.graph.nextId == g.nextId + 1
  {
    match ConstValue(u)
    case None => None
    case Some(v) =>
      match First(g.constants, c => SameValue(v, c))
      case Some(i) => Some(Compiled(NC(g.constants[i]), g))
      case None => Some(PushC(v, g))
  }

  /** mk_node_k: the first stored control with the same name (index and
      rate are not compared), with the graph unchanged, or else a new
      control. */
  function MkNodeK(u: Ugen, g: Graph): (r: Option<Compiled>)
    ensures r.Some? <==> u.Control?
    ensures r.Some? ==> r.value.node.NK? && r.value.node.k in r.value.graph.controls
    ensures r.Some? ==> r.value.graph.constants == g.constants && r.value.graph.ugens == g.ugens
    ensures r.Some? ==> (r.value.graph == g <==> exists i :: 0 <= i < |g.controls| && g.controls[i].name == u.cname)
    ensures r.Some? && r.value.graph == g ==>
      exists i :: 0 <= i < |g.controls| && r.value.node == NK(g.controls[i])
        && g.controls[i].name == u.cname
        && forall j :: 0 <= j < i ==> g.controls[j].name != u.cname
    ensures r.Some? && r.value.graph != g ==>
      && r.value.node == NK(NodeK(g.nextId + 1, u.cname, u.crate, u.cindex))
      && r.value.graph.controls == [r.value.node.k] + g.controls
      && r.value.graph.nextId == g.nextId + 1
  {
    match u
    case Control(name, index, rate) =>
      (match First(g.controls, k => SameName(name, k))
       case Some(i) => Some(Compiled(NK(g.controls[i]), g))
       case None => Some(PushK(name, index, rate, g)))
    case _ => None
  }

  /** find_u_p AS WRITTEN: equal input and output counts, output rates and
      inputs equal pairwise, and equal rate, name and special; the stored
      node's graph id is compared with the primitive's `index`, which the
      caller passes where an id is expected. */
  predicate FindUP(rate: Rate, name: Name, inputs: seq<Ugen>, outputs: seq<Rate>, id: int, sp: int, node: NodeU): (r: bool)
    ensures r ==> node.outputs == outputs && node.rate == rate && node.name == name && node.id == id && node.special == sp
    ensures r ==> |node.inputs| == |inputs|
  {
    && |inputs| == |node.inputs|
    && |outputs| == |node.outputs|
    && (forall i :: 0 <= i < |outputs| ==> RateId(outputs[i]) == RateId(node.outputs[i]))
    && (forall i :: 0 <= i < |inputs| ==> CompareUgen(inputs[i], node.inputs[i]))
    && node.rate == rate && node.name == name && node.id == id && node.special == sp
  }

  /** mk_node_p: a port node with a fresh id; no table changes. */
  function MkNodeP(n: Node, pIdx: int, g: Graph): (r: Compiled)
    ensures r.graph == g.(nextId := g.nextId + 1)
    ensures r.node.NP? && r.node.target == n && r.node.pIdx == pIdx
    ensures NodeId(r.node) == r.graph.nextId
  {
    Compiled(NP(g.nextId + 1, n, pIdx), g.(nextId := g.nextId + 1))
  }

  // ---------------------------------------------------------------------
  // Compiling trees
  // ---------------------------------------------------------------------

  /** The trees mk_node compiles without panicking: constants, controls,
      and primitives, proxies and merges built from them. A bundle, an
      untyped number or an input reference anywhere mk_node reaches makes
      it panic. */
  predicate Compilable(u: Ugen)
    decreases u
  {
    match u
    case IConst(_) => true
    case FConst(_) => true
    case Control(_, _, _) => true
    case Primitive(p) => forall i :: 0 <= i < |p.inputs| ==> Compilable(p.inputs[i])
    case Proxy(p, _) => forall i :: 0 <= i < |p.inputs| ==> Compilable(p.inputs[i])
    case Mrg(l, r) => Compilable(l) && Compilable(r)
    case _ => false
  }

  /** The graph only gains entries: each table keeps its old entries, in
      order, behind the new ones, and the id counter does not go back. */
  ghost predicate Grows(g: Graph, h: Graph)
  {
    && g.nextId <= h.nextId
    && Suffix(g.constants, h.constants)
    && Suffix(g.controls, h.controls)
    && Suffix(g.ugens, h.ugens)
  }

  lemma GrowsTransitive(g: Graph, h: Graph, k: Graph)
    requires Grows(g, h) && Grows(h, k)
    ensures Grows(g, k)
  {
    SuffixTransitive(g.constants, h.constants, k.constants);
    SuffixTransitive(g.controls, h.controls, k.controls);
    SuffixTransitive(g.ugens, h.ugens, k.ugens);
  }

  /** A compiled node is present in the graph: a constant, control or unit
      generator in its table, a port in the table of the node it is a port
      of. */
  predicate Resolves(n: Node, g: Graph)
  {
    match n
    case NC(c) => c in g.constants
    case NK(k) => k in g.controls
    case NU(u) => u in g.ugens
    case NP(_, t, _) => t.NU? && t.u in g.ugens
  }

  lemma ResolvesGrows(n: Node, g: Graph, h: Graph)
    requires Resolves(n, g) && Grows(g, h)
    ensures Resolves(n, h)
  {
    match n
    case NC(c) => SuffixIn(g.constants, h.constants, c);
    case NK(k) => SuffixIn(g.controls, h.controls, k);
    case NU(u) => SuffixIn(g.ugens, h.ugens, u);
    case NP(_, t, _) => SuffixIn(g.ugens, h.ugens, t.u);
  }

  /** mk_node: constants and controls are looked up or added; a primitive
      is compiled by mk_node_u; a merge compiles its right side first and
      then its left side against the resulting graph, returning the left
      side's node; a proxy compiles its primitive and then takes a port of
      it. */
  function MkNode(u: Ugen, g: Graph): (r: Option<Compiled>)
    ensures r.Some? && (u.IConst? || u.FConst?) ==> r.value.node.NC?
    ensures r.Some? && u.Control? ==> r.value.node.NK?
    ensures r.Some? && u.Primitive? ==> r.value.node.NU?
    ensures r.Some? && u.Proxy? ==> r.value.node.NP? && r.value.node.target.NU? && r.value.node.pIdx == u.port
    ensures r.Some? ==> !u.Mce? && !u.IntNum? && !u.FloatNum? && !u.FromPortC? && !u.FromPortK? && !u.FromPortU?
    decreases Height(u), 2, 0
  {
    match u
    case IConst(_) => MkNodeC(u, g)
    case FConst(_) => MkNodeC(u, g)
    case Control(_, _, _) => MkNodeK(u, g)
    case Primitive(p) => MkNodeU(p, g)
    case Mrg(l, right) =>
      (match MkNode(right, g)
       case None => None
       case Some(c) => MkNode(l, c.graph))
    case Proxy(p, i) =>
      (match MkNodeU(p, g)
       case None => None
       case Some(c) => Some(MkNodeP(c.node, i, c.graph)))
    case _ => None
  }

  /** mk_node_u: the inputs are compiled left to right and replaced by
      references to their nodes; a stored unit generator accepted by
      find_u_p is reused, else a new one is added. */
  function MkNodeU(p: Prim, g: Graph): (r: Option<Compiled>)
    ensures r.Some? ==> r.value.node.NU?
    decreases Height(Primitive(p)), 1, 0
  {
    match Acc(p.inputs, [], g)
    case None => None
    case Some((nodes, gnew)) =>
      var inputs := Ports(nodes);
      match First(gnew.ugens, nd => FindUP(p.rate, p.name, inputs, p.outputs, p.index, p.special, nd))
      case Some(j) => Some(Compiled(NU(gnew.ugens[j]), gnew))
      case None => Some(PushU(p.(inputs := inputs), gnew))
  }

  /** The input references of compiled nodes, in order. */
  function Ports(nodes: seq<Node>): (r: seq<Ugen>)
    ensures |r| == |nodes|
    ensures forall i :: 0 <= i < |nodes| ==> r[i] == AsFromPort(nodes[i])
  {
    seq(|nodes|, i requires 0 <= i < |nodes| => AsFromPort(nodes[i]))
  }

  /** acc: the inputs compiled left to right, each against the graph the
      previous one produced; `nn` collects the nodes newest first and is
      reversed at the end. */
  function Acc(ll: seq<Ugen>, nn: seq<Node>, g: Graph): (r: Option<(seq<Node>, Graph)>)
    ensures r.Some? ==> |r.value.0| == |nn| + |ll|
    decreases MaxHeight(ll) + 1, 0, |ll|
  {
    if |ll| == 0 then Some((Reverse(nn), g))
    else
      TailHeight(ll);
      match MkNode(ll[0], g)
      case None => None
      case Some(c) => Acc(ll[1..], [c.node] + nn, c.graph)
  }

  lemma TailHeight(ll: seq<Ugen>)
    requires |ll| > 0
    ensures MaxHeight(ll[1..]) <= MaxHeight(ll)
    ensures Height(ll[0]) <= MaxHeight(ll)
    ensures forall i :: 1 <= i < |ll| ==> ll[i] == ll[1..][i - 1]
  {
    if |ll| > 1 {
      var j :| 0 <= j < |ll[1..]| && Height(ll[1..][j]) == MaxHeight(ll[1..]);
      assert ll[1..][j] == ll[j + 1];
    }
  }

  // ---------------------------------------------------------------------
  // The graph invariant
  // ---------------------------------------------------------------------

  function CIds(g: Graph): (r: seq<int>)
    ensures |r| == |g.constants| && forall i :: 0 <= i < |r| ==> r[i] == g.constants[i].id
  {
    seq(|g.constants|, i requires 0 <= i < |g.constants| => g.constants[i].id)
  }

  function KIds(g: Graph): (r: seq<int>)
    ensures |r| == |g.controls| && forall i :: 0 <= i < |r| ==> r[i] == g.controls[i].id
  {
    seq(|g.controls|, i requires 0 <= i < |g.controls| => g.controls[i].id)
  }

  function UIds(g: Graph): (r: seq<int>)
    ensures |r| == |g.ugens| && forall i :: 0 <= i < |r| ==> r[i] == g.ugens[i].id
  {
    seq(|g.ugens|, i requires 0 <= i < |g.ugens| => g.ugens[i].id)
  }

  /** Ids that are positive, at most `top`, and strictly decreasing from
      the newest entry to the oldest. */
  ghost predicate Descending(ids: seq<int>, top: int)
  {
    && (forall i :: 0 <= i < |ids| ==> 0 < ids[i] <= top)
    && (forall i, j :: 0 <= i < j < |ids| ==> ids[j] < ids[i])
  }

  ghost predicate Disjoint(a: seq<int>, b: seq<int>)
  {
    forall i, j :: 0 <= i < |a| && 0 <= j < |b| ==> a[i] != b[j]
  }

  /** An input reference that names an entry of the graph. */
  ghost predicate PortIn(x: Ugen, g: Graph)
  {
    match x
    case FromPortC(id) => id in CIds(g)
    case FromPortK(id) => id in KIds(g)
    case FromPortU(id, _) => id in UIds(g)
    case _ => false
  }

  /** Every input of `u` names an entry of the graph, and a unit generator
      input names one with a smaller id. */
  ghost predicate Wired(u: NodeU, g: Graph)
  {
    forall k :: 0 <= k < |u.inputs| ==>
      PortIn(u.inputs[k], g) && (u.inputs[k].FromPortU? ==> u.inputs[k].uNid < u.id)
  }

  /** Ids that are positive, at most the counter, strictly decreasing
      within each table and never shared between tables. */
  ghost predicate IdsOk(top: int, a: seq<int>, b: seq<int>, c: seq<int>)
  {
    && top >= 0
    && Descending(a, top) && Descending(b, top) && Descending(c, top)
    && Disjoint(a, b) && Disjoint(a, c) && Disjoint(b, c)
  }

  ghost predicate AllWired(g: Graph)
  {
    forall j :: 0 <= j < |g.ugens| ==> Wired(g.ugens[j], g)
  }

  /** The invariant of graphs grown from the empty graph: ids are positive,
      at most the counter, newest first within a table and never shared
      between tables, and every unit generator is wired to entries of the
      graph. */
  ghost predicate Valid(g: Graph)
  {
    IdsOk(g.nextId, CIds(g), KIds(g), UIds(g)) && AllWired(g)
  }

  lemma EmptyGraphValid()
    ensures Valid(EmptyGraph())
  {
  }

  lemma IdsOkWiden(top: int, a: seq<int>, b: seq<int>, c: seq<int>)
    requires IdsOk(top, a, b, c)
    ensures IdsOk(top + 1, a, b, c)
  {
  }

  lemma IdsOkPushFirst(top: int, a: seq<int>, b: seq<int>, c: seq<int>)
    requires IdsOk(top, a, b, c)
    ensures IdsOk(top + 1, [top + 1] + a, b, c)
  {
    assert forall j :: 0 <= j < |b| ==> b[j] != top + 1;
    assert forall j :: 0 <= j < |c| ==> c[j] != top + 1;
  }

  lemma IdsOkPushSecond(top: int, a: seq<int>, b: seq<int>, c: seq<int>)
    requires IdsOk(top, a, b, c)
    ensures IdsOk(top + 1, a, [top + 1] + b, c)
  {
    assert forall j :: 0 <= j < |a| ==> a[j] != top + 1;
    assert forall j :: 0 <= j < |c| ==> c[j] != top + 1;
  }

  lemma IdsOkPushThird(top: int, a: seq<int>, b: seq<int>, c: seq<int>)
    requires IdsOk(top, a, b, c)
    ensures IdsOk(top + 1, a, b, [top + 1] + c)
  {
    assert forall j :: 0 <= j < |a| ==> a[j] != top + 1;
    assert forall j :: 0 <= j < |b| ==> b[j] != top + 1;
  }

  lemma IdsGrow(g: Graph, h: Graph)
    requires Grows(g, h)
    ensures forall id :: id in CIds(g) ==> id in CIds(h)
    ensures forall id :: id in KIds(g) ==> id in KIds(h)
    ensures forall id :: id in UIds(g) ==> id in UIds(h)
  {
    var dc, dk, du := |h.constants| - |g.constants|, |h.controls| - |g.controls|, |h.ugens| - |g.ugens|;
    assert forall i :: 0 <= i < |g.constants| ==> h.constants[dc + i] == g.constants[i];
    assert forall i :: 0 <= i < |g.controls| ==> h.controls[dk + i] == g.controls[i];
    assert forall i :: 0 <= i < |g.ugens| ==> h.ugens[du + i] == g.ugens[i];
    forall id | id in CIds(g) ensures id in CIds(h) {
      var i :| 0 <= i < |g.constants| && CIds(g)[i] == id;
      assert CIds(h)[dc + i] == id;
    }
    forall id | id in KIds(g) ensures id in KIds(h) {
      var i :| 0 <= i < |g.controls| && KIds(g)[i] == id;
      assert KIds(h)[dk + i] == id;
    }
    forall id | id in UIds(g) ensures id in UIds(h) {
      var i :| 0 <= i < |g.ugens| && UIds(g)[i] == id;
      assert UIds(h)[du + i] == id;
    }
  }

  lemma WiredGrows(u: NodeU, g: Graph, h: Graph)
    requires Wired(u, g) && Grows(g, h)
    ensures Wired(u, h)
  {
    IdsGrow(g, h);
  }

  /** Growing a valid graph keeps the old unit generators wired. */
  lemma AllWiredGrows(g: Graph, h: Graph, d: nat)
    requires AllWired(g)
    requires Grows(g, h) && d == |h.ugens| - |g.ugens|
    ensures forall j :: d <= j < |h.ugens| ==> Wired(h.ugens[j], h)
    ensures d == 0 ==> AllWired(h)
  {
    forall j | d <= j < |h.ugens|
      ensures Wired(h.ugens[j], h)
    {
      assert h.ugens[j] == h.ugens[d..][j - d] == g.ugens[j - d];
      WiredGrows(g.ugens[j - d], g, h);
    }
  }

  lemma PushCValid(v: F32, g: Graph)
    requires Valid(g)
    ensures Valid(PushC(v, g).graph)
  {
    var h := PushC(v, g).graph;
    assert h.constants[1..] == g.constants;
    CIdsPush(g, h);
    IdsOkPushFirst(g.nextId, CIds(g), KIds(g), UIds(g));
    AllWiredGrows(g, h, 0);
  }

  /** The ids of a graph that gained one constant in front. */
  lemma CIdsPush(g: Graph, h: Graph)
    requires |h.constants| == |g.constants| + 1 && h.constants[1..] == g.constants
    requires h.controls == g.controls && h.ugens == g.ugens
    ensures CIds(h) == [h.constants[0].id] + CIds(g)
    ensures KIds(h) == KIds(g) && UIds(h) == UIds(g)
  {
    assert forall i :: 1 <= i < |h.constants| ==> h.constants[i] == g.constants[i - 1];
  }

  lemma PushKValid(name: Name, index: int, rate: Rate, g: Graph)
    requires Valid(g)
    ensures Valid(PushK(name, index, rate, g).graph)
  {
    var h := PushK(name, index, rate, g).graph;
    assert h.controls[1..] == g.controls;
    KIdsPush(g, h);
    IdsOkPushSecond(g.nextId, CIds(g), KIds(g), UIds(g));
    AllWiredGrows(g, h, 0);
  }

  /** The ids of a graph that gained one control in front. */
  lemma KIdsPush(g: Graph, h: Graph)
    requires |h.controls| == |g.controls| + 1 && h.controls[1..] == g.controls
    requires h.constants == g.constants && h.ugens == g.ugens
    ensures KIds(h) == [h.controls[0].id] + KIds(g)
    ensures CIds(h) == CIds(g) && UIds(h) == UIds(g)
  {
    assert forall i :: 1 <= i < |h.controls| ==> h.controls[i] == g.controls[i - 1];
  }

  /** A new unit generator whose inputs name entries of a valid graph, each
      with an id at most the counter, keeps the graph valid. */
  lemma PushUValid(p: Prim, g: Graph)
    requires Valid(g)
    requires forall k :: 0 <= k < |p.inputs| ==>
      PortIn(p.inputs[k], g) && (p.inputs[k].FromPortU? ==> p.inputs[k].uNid <= g.nextId)
    ensures Valid(PushU(p, g).graph)
  {
    var h := PushU(p, g).graph;
    assert h.ugens[1..] == g.ugens;
    UIdsPush(g, h);
    IdsOkPushThird(g.nextId, CIds(g), KIds(g), UIds(g));
    PushUGrows(p, g);
    AllWiredGrows(g, h, 1);
    PushUWired(p, g);
  }

  /** The ids of a graph that gained one unit generator in front. */
  lemma UIdsPush(g: Graph, h: Graph)
    requires |h.ugens| == |g.ugens| + 1 && h.ugens[1..] == g.ugens
    requires h.constants == g.constants && h.controls == g.controls
    ensures UIds(h) == [h.ugens[0].id] + UIds(g)
    ensures CIds(h) == CIds(g) && KIds(h) == KIds(g)
  {
    assert forall i :: 1 <= i < |h.ugens| ==> h.ugens[i] == g.ugens[i - 1];
  }

  /** The new unit generator is wired to the entries its inputs name. */
  lemma PushUWired(p: Prim, g: Graph)
    requires forall k :: 0 <= k < |p.inputs| ==>
      PortIn(p.inputs[k], g) && (p.inputs[k].FromPortU? ==> p.inputs[k].uNid <= g.nextId)
    ensures Wired(PushU(p, g).graph.ugens[0], PushU(p, g).graph)
  {
    var h := PushU(p, g).graph;
    PushUGrows(p, g);
    IdsGrow(g, h);
  }

  lemma PushUGrows(p: Prim, g: Graph)
    ensures Grows(g, PushU(p, g).graph) && Resolves(PushU(p, g).node, PushU(p, g).graph)
  {
    assert PushU(p, g).graph.ugens[1..] == g.ugens;
  }

  /** The reference to a node present in a valid graph names an entry of
      the graph, with an id at most the counter. */
  lemma PortOfResolved(n: Node, g: Graph)
    requires Valid(g) && Resolves(n, g)
    ensures PortIn(AsFromPort(n), g)
    ensures AsFromPort(n).FromPortU? ==> AsFromPort(n).uNid <= g.nextId
  {
    match n
    case NC(c) =>
      var i :| 0 <= i < |g.constants| && g.constants[i] == c;
      assert CIds(g)[i] == c.id;
    case NK(k) =>
      var i :| 0 <= i < |g.controls| && g.controls[i] == k;
      assert KIds(g)[i] == k.id;
    case NU(u) =>
      var i :| 0 <= i < |g.ugens| && g.ugens[i] == u;
      assert UIds(g)[i] == u.id;
    case NP(_, t, _) =>
      var i :| 0 <= i < |g.ugens| && g.ugens[i] == t.u;
      assert UIds(g)[i] == t.u.id;
  }

  /** What one compile step guarantees: the graph grows, the node is in
      it, and a valid graph stays valid. */
  ghost predicate Step(g: Graph, c: Compiled)
  {
    Grows(g, c.graph) && Resolves(c.node, c.graph) && (Valid(g) ==> Valid(c.graph))
  }

  lemma StepTransitive(g: Graph, c: Compiled, d: Compiled)
    requires Step(g, c) && Grows(c.graph, d.graph) && (Valid(c.graph) ==> Valid(d.graph))
    requires Resolves(d.node, d.graph)
    ensures Step(g, d)
  {
    GrowsTransitive(g, c.graph, d.graph);
  }

  lemma MkNodeCStep(u: Ugen, g: Graph)
    requires u.IConst? || u.FConst?
    ensures Step(g, MkNodeC(u, g).value)
  {
    var v := ConstValue(u).value;
    if First(g.constants, c => SameValue(v, c)).None? {
      assert PushC(v, g).graph.constants[1..] == g.constants;
      if Valid(g) {
        PushCValid(v, g);
      }
    }
  }

  lemma MkNodeKStep(u: Ugen, g: Graph)
    requires u.Control?
    ensures Step(g, MkNodeK(u, g).value)
  {
    if First(g.controls, k => SameName(u.cname, k)).None? {
      assert PushK(u.cname, u.cindex, u.crate, g).graph.controls[1..] == g.controls;
      if Valid(g) {
        PushKValid(u.cname, u.cindex, u.crate, g);
      }
    }
  }

  /** mk_node keeps the graph invariant: the graph only grows, the node it
      returns is in the result, and a valid graph stays valid. */
  lemma {:induction false} MkNodeStep(u: Ugen, g: Graph)
    requires MkNode(u, g).Some?
    ensures Step(g, MkNode(u, g).value)
    decreases Height(u), 2, 0
  {
    match u
    case IConst(_) => MkNodeCStep(u, g);
    case FConst(_) => MkNodeCStep(u, g);
    case Control(_, _, _) => MkNodeKStep(u, g);
    case Primitive(p) => MkNodeUStep(p, g);
    case Mrg(l, right) =>
      MkNodeStep(right, g);
      var c := MkNode(right, g).value;
      assert MkNode(u, g) == MkNode(l, c.graph);
      MkNodeStep(l, c.graph);
      StepTransitive(g, c, MkNode(l, c.graph).value);
    case Proxy(p, i) =>
      MkNodeUStep(p, g);
      var c := MkNodeU(p, g).value;
      assert MkNode(u, g).value == MkNodeP(c.node, i, c.graph);
      MkNodePStep(c.node, i, c.graph);
      StepTransitive(g, c, MkNodeP(c.node, i, c.graph));
  }

  /** mk_node_p only advances the counter. */
  lemma MkNodePStep(n: Node, i: int, g: Graph)
    requires n.NU? && n.u in g.ugens
    ensures Step(g, MkNodeP(n, i, g))
  {
    var h := MkNodeP(n, i, g).graph;
    assert CIds(h) == CIds(g) && KIds(h) == KIds(g) && UIds(h) == UIds(g);
    assert Grows(g, h);
    if Valid(g) {
      IdsOkWiden(g.nextId, CIds(g), KIds(g), UIds(g));
      AllWiredGrows(g, h, 0);
    }
  }

  lemma {:induction false} MkNodeUStep(p: Prim, g: Graph)
    requires MkNodeU(p, g).Some?
    ensures Step(g, MkNodeU(p, g).value)
    decreases Height(Primitive(p)), 1, 0
  {
    AccStep(p.inputs, [], g);
    var (nodes, gnew) := Acc(p.inputs, [], g).value;
    var inputs := Ports(nodes);
    match First(gnew.ugens, nd => FindUP(p.rate, p.name, inputs, p.outputs, p.index, p.special, nd))
    case Some(j) =>
    case None =>
      var q := p.(inputs := inputs);
      PushUGrows(q, gnew);
      GrowsTransitive(g, gnew, PushU(q, gnew).graph);
      if Valid(g) {
        forall k | 0 <= k < |inputs|
          ensures PortIn(inputs[k], gnew) && (inputs[k].FromPortU? ==> inputs[k].uNid <= gnew.nextId)
        {
          PortOfResolved(nodes[k], gnew);
        }
        PushUValid(q, gnew);
      }
  }

  /** acc returns the accumulated nodes, oldest first, ahead of one node
      per input. */
  lemma {:induction false} AccOrder(ll: seq<Ugen>, nn: seq<Node>, g: Graph)
    requires Acc(ll, nn, g).Some?
    ensures forall i :: 0 <= i < |nn| ==> Acc(ll, nn, g).value.0[i] == nn[|nn| - 1 - i]
    decreases |ll|
  {
    if |ll| > 0 {
      TailHeight(ll);
      var c := MkNode(ll[0], g).value;
      var nn2 := [c.node] + nn;
      AccOrder(ll[1..], nn2, c.graph);
      var r := Acc(ll[1..], nn2, c.graph).value;
      forall i | 0 <= i < |nn|
        ensures r.0[i] == nn[|nn| - 1 - i]
      {
        assert r.0[i] == nn2[|nn2| - 1 - i];
      }
    }
  }

  /** acc keeps the graph invariant, and each node it adds for an input is
      in the final graph. */
  lemma {:induction false} AccStep(ll: seq<Ugen>, nn: seq<Node>, g: Graph)
    requires Acc(ll, nn, g).Some?
    ensures Grows(g, Acc(ll, nn, g).value.1)
    ensures Valid(g) ==> Valid(Acc(ll, nn, g).value.1)
    ensures forall i :: |nn| <= i < |Acc(ll, nn, g).value.0| ==> Resolves(Acc(ll, nn, g).value.0[i], Acc(ll, nn, g).value.1)
    decreases MaxHeight(ll) + 1, 0, |ll|
  {
    if |ll| > 0 {
      TailHeight(ll);
      MkNodeStep(ll[0], g);
      var c := MkNode(ll[0], g).value;
      var nn2 := [c.node] + nn;
      AccStep(ll[1..], nn2, c.graph);
      AccOrder(ll[1..], nn2, c.graph);
      var r := Acc(ll[1..], nn2, c.graph).value;
      assert r == Acc(ll, nn, g).value;
      AccLink(g, c, nn, nn2, r);
    }
  }

  /** One step of acc: what holds for the rest of the inputs, compiled
      from the graph the first input produced, holds for the whole list. */
  lemma AccLink(g: Graph, c: Compiled, nn: seq<Node>, nn2: seq<Node>, r: (seq<Node>, Graph))
    requires Step(g, c) && nn2 == [c.node] + nn && |r.0| >= |nn2|
    requires r.0[|nn|] == nn2[0]
    requires Grows(c.graph, r.1) && (Valid(c.graph) ==> Valid(r.1))
    requires forall i :: |nn2| <= i < |r.0| ==> Resolves(r.0[i], r.1)
    ensures Grows(g, r.1) && (Valid(g) ==> Valid(r.1))
    ensures forall i :: |nn| <= i < |r.0| ==> Resolves(r.0[i], r.1)
  {
    GrowsTransitive(g, c.graph, r.1);
    ResolvesGrows(c.node, c.graph, r.1);
  }

  /** mk_node succeeds exactly on the compilable trees, whatever the
      graph. */
  lemma {:induction false} MkNodeDefined(u: Ugen, g: Graph)
    ensures MkNode(u, g).Some? <==> Compilable(u)
    decreases Height(u), 2, 0
  {
    match u
    case Primitive(p) => MkNodeUDefined(p, g);
    case Proxy(p, _) => MkNodeUDefined(p, g);
    case Mrg(l, right) =>
      MkNodeDefined(right, g);
      if MkNode(right, g).Some? {
        MkNodeDefined(l, MkNode(right, g).value.graph);
      }
    case _ =>
  }

  lemma {:induction false} MkNodeUDefined(p: Prim, g: Graph)
    ensures MkNodeU(p, g).Some? <==> forall i :: 0 <= i < |p.inputs| ==> Compilable(p.inputs[i])
    decreases Height(Primitive(p)), 1, 0
  {
    AccDefined(p.inputs, [], g);
  }

  lemma {:induction false} AccDefined(ll: seq<Ugen>, nn: seq<Node>, g: Graph)
    ensures Acc(ll, nn, g).Some? <==> forall i :: 0 <= i < |ll| ==> Compilable(ll[i])
    decreases MaxHeight(ll) + 1, 0, |ll|
  {
    if |ll| > 0 {
      TailHeight(ll);
      MkNodeDefined(ll[0], g);
      AllCompilableCons(ll);
      if MkNode(ll[0], g).Some? {
        var c := MkNode(ll[0], g).value;
        AccDefined(ll[1..], [c.node] + nn, c.graph);
      }
    }
  }

  lemma AllCompilableCons(ll: seq<Ugen>)
    requires |ll| > 0
    ensures (forall i :: 0 <= i < |ll| ==> Compilable(ll[i]))
      <==> Compilable(ll[0]) && forall i :: 0 <= i < |ll[1..]| ==> Compilable(ll[1..][i])
  {
    assert forall i :: 0 <= i < |ll[1..]| ==> ll[1..][i] == ll[i + 1];
  }

  // ---------------------------------------------------------------------
  // Reuse of unit generators
  // ---------------------------------------------------------------------

  /** A primitive without inputs is reused exactly when a stored unit
      generator passes find_u_p, which requires the stored node's graph id
      to equal the primitive's index. */
  lemma MkNodeUReuseByIndex(p: Prim, g: Graph)
    requires p.inputs == []
    ensures MkNodeU(p, g).Some?
    ensures MkNodeU(p, g).value.graph == g <==>
      exists j :: 0 <= j < |g.ugens| && FindUP(p.rate, p.name, [], p.outputs, p.index, p.special, g.ugens[j])
    ensures MkNodeU(p, g).value.graph == g ==> MkNodeU(p, g).value.node.u.id == p.index
  {
    assert Acc(p.inputs, [], g) == Some((Reverse([]), g));
    assert Ports(Reverse([])) == [];
    var f := nd => FindUP(p.rate, p.name, [], p.outputs, p.index, p.special, nd);
    var r := First(g.ugens, f);
    if r.None? {
      assert |PushU(p.(inputs := []), g).graph.ugens| == |g.ugens| + 1;
    } else {
      assert f(g.ugens[r.value]);
    }
  }

  /** mk_node_u on any primitive: after the inputs are compiled into the
      graph `h`, the first stored unit generator that find_u_p accepts
      against the input references is reused and `h` is returned
      unchanged; there is one exactly when some stored node passes, and
      the reused node's graph id is then the primitive's index. Otherwise
      a new unit generator with the next id is put in front. */
  lemma MkNodeUReuse(p: Prim, g: Graph)
    requires MkNodeU(p, g).Some?
    ensures Acc(p.inputs, [], g).Some?
    ensures var (nodes, h) := Acc(p.inputs, [], g).value;
      var ins := Ports(nodes);
      var r := MkNodeU(p, g).value;
      && (r.graph == h <==>
            exists j :: 0 <= j < |h.ugens| && FindUP(p.rate, p.name, ins, p.outputs, p.index, p.special, h.ugens[j]))
      && (r.graph == h ==>
            && r.node.u.id == p.index
            && exists j :: 0 <= j < |h.ugens| && r.node.u == h.ugens[j]
                 && FindUP(p.rate, p.name, ins, p.outputs, p.index, p.special, h.ugens[j])
                 && forall i :: 0 <= i < j ==> !FindUP(p.rate, p.name, ins, p.outputs, p.index, p.special, h.ugens[i]))
      && (r.graph != h ==>
            && r.graph.ugens == [r.node.u] + h.ugens
            && r.node.u.id == h.nextId + 1
            && r.node.u.inputs == ins && r.node.u.ugenId == p.index)
  {
    var (nodes, h) := Acc(p.inputs, [], g).value;
    var ins := Ports(nodes);
    var f := nd => FindUP(p.rate, p.name, ins, p.outputs, p.index, p.special, nd);
    var k := First(h.ugens, f);
    if k.None? {
      assert |PushU(p.(inputs := ins), h).graph.ugens| == |h.ugens| + 1;
    } else {
      assert f(h.ugens[k.value]);
    }
  }

  /** On a valid graph every id is positive, so a primitive whose index is
      zero or negative (the usual case) is never reused: mk_node_u always
      adds a new unit generator after compiling the inputs. */
  lemma MkNodeUFreshWhenIndexNonPositive(p: Prim, g: Graph)
    requires Valid(g) && p.index <= 0 && MkNodeU(p, g).Some?
    ensures var h := Acc(p.inputs, [], g).value.1;
      var r := MkNodeU(p, g).value;
      && r.graph.ugens == [r.node.u] + h.ugens
      && r.node.u.id == h.nextId + 1
      && r.node.u.ugenId == p.index
  {
    AccStep(p.inputs, [], g);
    var (nodes, h) := Acc(p.inputs, [], g).value;
    var inputs := Ports(nodes);
    var f := nd => FindUP(p.rate, p.name, inputs, p.outputs, p.index, p.special, nd);
    forall k | 0 <= k < |h.ugens|
      ensures !f(h.ugens[k])
    {
      assert UIds(h)[k] > 0;
    }
    assert First(h.ugens, f).None?;
  }

  /** A leaf primitive with a non-positive index adds exactly one unit
      generator to a valid graph, which stays valid. */
  lemma LeafAddsOne(p: Prim, g: Graph)
    requires Valid(g) && p.inputs == [] && p.index <= 0
    ensures MkNodeU(p, g).Some?
    ensures |MkNodeU(p, g).value.graph.ugens| == |g.ugens| + 1
    ensures Valid(MkNodeU(p, g).value.graph)
  {
    MkNodeUReuseByIndex(p, g);
    MkNodeUFreshWhenIndexNonPositive(p, g);
    MkNodeUStep(p, g);
    assert Acc(p.inputs, [], g).value.1 == g;
  }

  /** Hence the same primitive merged with itself is compiled twice. */
  lemma DuplicatePrimitiveCompiledTwice(p: Prim)
    requires p.inputs == [] && p.index <= 0
    ensures MkNode(Mrg(Primitive(p), Primitive(p)), EmptyGraph()).Some?
    ensures |MkNode(Mrg(Primitive(p), Primitive(p)), EmptyGraph()).value.graph.ugens| == 2
  {
    var e := EmptyGraph();
    assert MkNodeU(p, e).Some? && Valid(MkNodeU(p, e).value.graph) && |MkNodeU(p, e).value.graph.ugens| == 1 by {
      EmptyGraphValid();
      LeafAddsOne(p, e);
    }
    var c := MkNodeU(p, e).value;
    assert MkNodeU(p, c.graph).Some? && |MkNodeU(p, c.graph).value.graph.ugens| == 2 by {
      LeafAddsOne(p, c.graph);
    }
    assert MkNode(Primitive(p), e) == Some(c);
    assert MkNode(Mrg(Primitive(p), Primitive(p)), e) == MkNode(Primitive(p), c.graph);
    assert MkNode(Primitive(p), c.graph) == MkNodeU(p, c.graph);
  }

  // ---------------------------------------------------------------------
  // A hand-built graph
  // ---------------------------------------------------------------------

  const NDK1: Name := [110, 100, 107, 49]  // "ndk1"
  const NDK2: Name := [110, 100, 107, 50]  // "ndk2"
  const NDU1: Name := [110, 100, 117, 49]  // "ndu1"
  const NDU2: Name := [110, 100, 117, 50]  // "ndu2"

  /** Two constants (320.0 and 321.0), two controls and two unit
      generators, with ids chosen by hand. */
  const SAMPLE_GRAPH: Graph := Graph(
    11,
    [NodeC(20, F32(0x43A0_0000)), NodeC(21, F32(0x43A0_8000))],
    [NodeK(30, NDK1, Kr, 5), NodeK(31, NDK2, Kr, 5)],
    [NodeU(40, NDU1, Dr, [], [], 11, 2), NodeU(41, NDU2, Kr, [], [], 0, 0)])

  /** The integer constant 320 finds the stored 320.0 (id 20) without
      changing the graph. */
  lemma SampleConstantLookup()
    ensures MkNodeC(IConst(320), SAMPLE_GRAPH) == Some(Compiled(NC(SAMPLE_GRAPH.constants[0]), SAMPLE_GRAPH))
    ensures NodeId(MkNodeC(IConst(320), SAMPLE_GRAPH).value.node) == 20
  {
    IntToF32Of320();
    assert SameValue(F32(0x43A0_0000), SAMPLE_GRAPH.constants[0]);
  }

  /** A control named "ndk1" finds the stored control of that name (id 30)
      although its index differs, without changing the graph. */
  lemma SampleControlLookup()
    ensures MkNodeK(Control(NDK1, 3, Kr), SAMPLE_GRAPH) == Some(Compiled(NK(SAMPLE_GRAPH.controls[0]), SAMPLE_GRAPH))
    ensures NodeId(MkNodeK(Control(NDK1, 3, Kr), SAMPLE_GRAPH).value.node) == 30
  {
    assert SameName(NDK1, SAMPLE_GRAPH.controls[0]);
  }

  // ---------------------------------------------------------------------
  // Compile order
  // ---------------------------------------------------------------------

  /** A list compiled left to right, each element against the graph the
      previous one produced, without an accumulator: the reference
      definition acc is compared with. */
  function CompileAll(ll: seq<Ugen>, g: Graph): (r: Option<(seq<Node>, Graph)>)
    ensures r.Some? ==> |r.value.0| == |ll|
    decreases |ll|
  {
    if |ll| == 0 then Some(([], g))
    else
      match MkNode(ll[0], g)
      case None => None
      case Some(c) =>
        match CompileAll(ll[1..], c.graph)
        case None => None
        case Some((ns, h)) => Some(([c.node] + ns, h))
  }

  lemma ReverseCons<T>(x: T, s: seq<T>)
    ensures Reverse([x] + s) == Reverse(s) + [x]
  {
    assert ([x] + s)[1..] == s;
  }

  /** CompileAll on a list of at least one element, stated without
      slices. */
  lemma CompileAllCons(ll: seq<Ugen>, g: Graph)
    requires |ll| > 0
    ensures MkNode(ll[0], g).None? ==> CompileAll(ll, g).None?
    ensures MkNode(ll[0], g).Some? ==>
      var c := MkNode(ll[0], g).value;
      CompileAll(ll, g) ==
        match CompileAll(ll[1..], c.graph)
        case None => None
        case Some((ns, h)) => Some(([c.node] + ns, h))
  {
  }

  /** acc is the left-to-right compilation of its list, with the
      accumulated nodes, reversed, in front. */
  lemma {:induction false} AccIsCompileAll(ll: seq<Ugen>, nn: seq<Node>, g: Graph)
    ensures Acc(ll, nn, g).Some? <==> CompileAll(ll, g).Some?
    ensures Acc(ll, nn, g).Some? ==>
      Acc(ll, nn, g).value == (Reverse(nn) + CompileAll(ll, g).value.0, CompileAll(ll, g).value.1)
    decreases |ll|
  {
    if |ll| == 0 {
      assert Reverse(nn) + [] == Reverse(nn);
    } else {
      CompileAllCons(ll, g);
      if MkNode(ll[0], g).Some? {
        var c := MkNode(ll[0], g).value;
        var nn2 := [c.node] + nn;
        assert Acc(ll, nn, g) == Acc(ll[1..], nn2, c.graph);
        AccIsCompileAll(ll[1..], nn2, c.graph);
        ReverseCons(c.node, nn);
        var rest := CompileAll(ll[1..], c.graph);
        if rest.Some? {
          var (ns, h) := rest.value;
          assert Reverse(nn) + [c.node] + ns == Reverse(nn) + ([c.node] + ns);
        }
      }
    }
  }

  /** Compiling a concatenation is compiling the first part and then the
      second against the graph the first produced. */
  lemma {:induction false} CompileAllAppend(a: seq<Ugen>, b: seq<Ugen>, g: Graph)
    ensures CompileAll(a + b, g) ==
      match CompileAll(a, g)
      case None => None
      case Some((ns, h)) =>
        match CompileAll(b, h)
        case None => None
        case Some((ms, k)) => Some((ns + ms, k))
    decreases |a|
  {
    if |a| == 0 {
      assert a + b == b;
      match CompileAll(b, g)
      case None =>
      case Some((ms, k)) => assert [] + ms == ms;
    } else {
      assert (a + b)[0] == a[0] && (a + b)[1..] == a[1..] + b;
      match MkNode(a[0], g)
      case None =>
      case Some(c) =>
        CompileAllAppend(a[1..], b, c.graph);
        match CompileAll(a[1..], c.graph)
        case None =>
        case Some((ns, h)) =>
          match CompileAll(b, h)
          case None =>
          case Some((ms, k)) => assert [c.node] + ns + ms == [c.node] + (ns + ms);
    }
  }

  /** mrg_n: a list folded into a right-nested chain of merges whose left
      sides are the list's elements in order; a single element is itself.
      The source panics on an empty list. */
  function MrgN(lst: seq<Ugen>): (r: Ugen)
    requires |lst| > 0
    ensures |lst| == 1 ==> r == lst[0]
    ensures |lst| > 1 ==> r.Mrg? && r.left == lst[0]
    ensures |lst| == 2 ==> r.right == lst[1]
    ensures |lst| > 2 ==> r.right == MrgN(lst[1..])
    decreases |lst|
  {
    if |lst| == 1 then lst[0]
    else if |lst| == 2 then Mrg(lst[0], lst[1])
    else Mrg(lst[0], MrgN(lst[1..]))
  }

  /** The first `n` elements of a right-nested merge chain: the left sides
      along the right spine, then the node the spine ends on. */
  function Unchain(u: Ugen, n: nat): (r: seq<Ugen>)
    decreases n
  {
    if n <= 1 || !u.Mrg? then [u] else [u.left] + Unchain(u.right, n - 1)
  }

  /** Reading the chain mrg_n builds gives the list back. */
  lemma {:induction false} UnchainMrgN(lst: seq<Ugen>)
    requires |lst| > 0
    ensures Unchain(MrgN(lst), |lst|) == lst
    decreases |lst|
  {
    if |lst| == 2 {
      assert Unchain(MrgN(lst), 2) == [lst[0]] + [lst[1]];
    } else if |lst| > 2 {
      UnchainMrgN(lst[1..]);
      assert lst == [lst[0]] + lst[1..];
    }
  }

  /** The node of the last element compiled, with the final graph. */
  function LastOf(r: Option<(seq<Node>, Graph)>): Option<Compiled>
  {
    match r
    case None => None
    case Some((ns, h)) => if |ns| == 0 then None else Some(Compiled(ns[|ns| - 1], h))
  }

  /** Compiling the chain mrg_n builds compiles the list from its last
      element to its first and returns the first element's node: merges
      compile their right side first. */
  lemma {:induction false} MrgNCompilesReversed(lst: seq<Ugen>, g: Graph)
    requires |lst| > 0
    ensures MkNode(MrgN(lst), g) == LastOf(CompileAll(Reverse(lst), g))
    decreases |lst|
  {
    var rev := Reverse(lst);
    if |lst| == 1 {
      assert rev == [lst[0]];
      CompileAllSingle(lst[0], g);
    } else {
      var tail := lst[1..];
      assert MrgN(lst) == Mrg(lst[0], MrgN(tail));
      MrgNCompilesReversed(tail, g);
      assert rev == Reverse(tail) + [lst[0]] by {
        assert lst[1..] == tail;
      }
      CompileAllAppend(Reverse(tail), [lst[0]], g);
      match CompileAll(Reverse(tail), g)
      case None =>
      case Some((ns, h)) =>
        assert |ns| == |tail| > 0;
        assert MkNode(MrgN(tail), g) == Some(Compiled(ns[|ns| - 1], h));
        CompileAllSingle(lst[0], h);
        match MkNode(lst[0], h)
        case None =>
        case Some(c) =>
          assert (ns + [c.node])[|ns|] == c.node;
    }
  }

  lemma CompileAllSingle(x: Ugen, g: Graph)
    ensures CompileAll([x], g) ==
      match MkNode(x, g)
      case None => None
      case Some(c) => Some(([c.node], c.graph))
  {
    assert [x][1..] == [];
    assert CompileAll([], g) == Some(([], g));
    if MkNode(x, g).Some? {
      assert [MkNode(x, g).value.node] + [] == [MkNode(x, g).value.node];
    }
  }

  // ---------------------------------------------------------------------
  // synth
  // ---------------------------------------------------------------------

  /** The bundles prepare_root reaches (the root and, through merges, both
      sides) are nonempty. */
  predicate RootOk(u: Ugen)
  {
    match u
    case Mce(s) => |s| > 0
    case Mrg(l, r) => RootOk(l) && RootOk(r)
    case _ => true
  }

  /** prepare_root: a bundle at the root, or reached through merges,
      becomes the merge chain of its channels; everything else is kept.
      An empty bundle makes mrg_n panic. */
  function PrepareRoot(u: Ugen): (r: Option<Ugen>)
    ensures r.Some? <==> RootOk(u)
    ensures r.Some? && !u.Mce? && !u.Mrg? ==> r.value == u
    ensures r.Some? && u.Mrg? ==> r.value.Mrg?
    ensures r.Some? && u.Mrg? ==>
      r.value.left == PrepareRoot(u.left).value && r.value.right == PrepareRoot(u.right).value
    ensures r.Some? && u.Mce? ==> Unchain(r.value, |u.channels|) == u.channels
  {
    match u
    case Mce(s) =>
      if |s| == 0 then None
      else
        UnchainMrgN(s);
        Some(MrgN(s))
    case Mrg(l, right) =>
      (match (PrepareRoot(l), PrepareRoot(right))
       case (Some(a), Some(b)) => Some(Mrg(a, b))
       case _ => None)
    case _ => Some(u)
  }

  const CONTROL_NAME: Name := [67, 111, 110, 116, 114, 111, 108]  // "Control"

  /** implicit: the unit generator that stands for the controls: id -1,
      control rate, no inputs, one control-rate output per control. */
  function Implicit(num: int): (n: NodeU)
    ensures |n.outputs| == (if num > 0 then num else 0)
    ensures forall i :: 0 <= i < |n.outputs| ==> n.outputs[i] == Kr
    ensures n.id == -1 && n.inputs == []
  {
    var count := if num > 0 then num else 0;
    NodeU(-1, CONTROL_NAME, Kr, [], seq(count, _ => Kr), 0, 0)
  }

  /** The last part of synth: unit generators oldest first, with the
      implicit control node in front when there are controls; constants
      and controls stay newest first. */
  function Finish(gr: Graph): (r: Graph)
    ensures r.nextId == -1 && r.constants == gr.constants && r.controls == gr.controls
    ensures |r.ugens| == Offset(r) + |gr.ugens|
    ensures forall j :: Offset(r) <= j < |r.ugens| ==> r.ugens[j] == gr.ugens[|gr.ugens| - 1 - (j - Offset(r))]
    ensures |gr.controls| != 0 ==> r.ugens[0] == Implicit(|gr.controls|)
  {
    var us := Reverse(gr.ugens);
    Graph(-1, gr.constants, gr.controls, if |gr.controls| != 0 then [Implicit(|gr.controls|)] + us else us)
  }

  /** synth: prepare the root, compile it from the empty graph and finish
      the tables. */
  function Synth(u: Ugen): (r: Option<Graph>)
    ensures r.Some? <==> RootOk(u) && Compilable(PrepareRoot(u).value)
    ensures r.Some? ==> r.value.nextId == -1
  {
    assert RootOk(u) ==> (MkNode(PrepareRoot(u).value, EmptyGraph()).Some? <==> Compilable(PrepareRoot(u).value)) by {
      if RootOk(u) {
        MkNodeDefined(PrepareRoot(u).value, EmptyGraph());
      }
    }
    match PrepareRoot(u)
    case None => None
    case Some(root) =>
      match MkNode(root, EmptyGraph())
      case None => None
      case Some(c) => Some(Finish(c.graph))
  }

  /** synth succeeds exactly when prepare_root does and the prepared root
      compiles. */
  lemma SynthDefined(u: Ugen)
    ensures Synth(u).Some? <==> RootOk(u) && Compilable(PrepareRoot(u).value)
  {
    if RootOk(u) {
      MkNodeDefined(PrepareRoot(u).value, EmptyGraph());
    }
  }

  /** The graph synth finishes: a bundle root's channels are compiled from
      the last to the first. */
  lemma SynthOfBundle(s: seq<Ugen>)
    requires |s| > 0
    ensures Synth(Mce(s)) ==
      match CompileAll(Reverse(s), EmptyGraph())
      case None => None
      case Some((_, h)) => Some(Finish(h))
  {
    var root := MrgN(s);
    assert PrepareRoot(Mce(s)) == Some(root);
    assert Synth(Mce(s)) == (match MkNode(root, EmptyGraph()) case None => None case Some(c) => Some(Finish(c.graph)));
    MrgNCompilesReversed(s, EmptyGraph());
    var all := CompileAll(Reverse(s), EmptyGraph());
    if all.Some? {
      assert |all.value.0| == |s|;
    }
  }

  // ---------------------------------------------------------------------
  // What synth guarantees
  // ---------------------------------------------------------------------

  /** The position after the implicit control node, if there is one. */
  function Offset(g: Graph): nat
  {
    if |g.controls| != 0 then 1 else 0
  }

  /** An input the encoder can resolve when it belongs to the unit
      generator at position `j`: a constant or a control present in the
      graph, or a unit generator at an earlier position. */
  ghost predicate InputBefore(x: Ugen, g: Graph, j: int)
  {
    match x
    case FromPortC(id) => id in CIds(g)
    case FromPortK(id) => id in KIds(g)
    case FromPortU(id, _) => exists m :: 0 <= m < j && m < |g.ugens| && g.ugens[m].id == id
    case _ => false
  }

  /** Every unit generator's inputs resolve, each unit generator input to
      an earlier entry: the table is in evaluation order. */
  ghost predicate Sorted(g: Graph)
  {
    forall j, k :: 0 <= j < |g.ugens| && 0 <= k < |g.ugens[j].inputs| ==>
      InputBefore(g.ugens[j].inputs[k], g, j)
  }

  /** In a valid graph an older unit generator has a smaller id, so a unit
      generator input names one that comes later in the newest-first
      table. */
  lemma OlderIsLater(gr: Graph, m: int, id: int)
    requires Valid(gr) && 0 <= m < |gr.ugens|
    requires id in UIds(gr) && id < gr.ugens[m].id
    ensures exists m' :: m < m' < |gr.ugens| && gr.ugens[m'].id == id
  {
    var m' :| 0 <= m' < |gr.ugens| && UIds(gr)[m'] == id;
    assert Descending(UIds(gr), gr.nextId);
    assert UIds(gr)[m] == gr.ugens[m].id;
    assert m < m';
  }

  /** An input of a unit generator of `gr`, placed at position `j` of a
      table holding `gr`'s unit generators in reverse after `off` others. */
  lemma ReversedInput(gr: Graph, g: Graph, off: nat, j: int, k: int)
    requires Valid(gr)
    requires CIds(g) == CIds(gr) && KIds(g) == KIds(gr) && |g.ugens| == off + |gr.ugens|
    requires forall i :: off <= i < |g.ugens| ==> g.ugens[i] == gr.ugens[|gr.ugens| - 1 - (i - off)]
    requires off <= j < |g.ugens| && 0 <= k < |g.ugens[j].inputs|
    ensures InputBefore(g.ugens[j].inputs[k], g, j)
  {
    var n := |gr.ugens|;
    var m := n - 1 - (j - off);
    var nd := gr.ugens[m];
    assert g.ugens[j] == nd;
    assert Wired(nd, gr);
    var x := nd.inputs[k];
    assert PortIn(x, gr);
    if x.FromPortU? {
      OlderIsLater(gr, m, x.uNid);
      var m' :| m < m' < n && gr.ugens[m'].id == x.uNid;
      assert g.ugens[off + n - 1 - m'] == gr.ugens[m'];
    }
  }

  /** finish keeps a valid graph's references resolvable: constants and
      controls anywhere, unit generators at an earlier position. */
  lemma FinishSorted(gr: Graph)
    requires Valid(gr)
    ensures Sorted(Finish(gr))
  {
    var g := Finish(gr);
    forall j, k | 0 <= j < |g.ugens| && 0 <= k < |g.ugens[j].inputs|
      ensures InputBefore(g.ugens[j].inputs[k], g, j)
    {
      FinishInputBefore(gr, j, k);
    }
  }

  lemma FinishInputBefore(gr: Graph, j: int, k: int)
    requires Valid(gr)
    requires 0 <= j < |Finish(gr).ugens| && 0 <= k < |Finish(gr).ugens[j].inputs|
    ensures InputBefore(Finish(gr).ugens[j].inputs[k], Finish(gr), j)
  {
    var g := Finish(gr);
    if j < Offset(g) {
      assert false;
    }
    assert CIds(g) == CIds(gr) && KIds(g) == KIds(gr);
    ReversedInput(gr, g, Offset(g), j, k);
  }

  /** The implicit node is the only one with id -1, and it is there exactly
      when there are controls. */
  lemma FinishImplicit(gr: Graph)
    requires Descending(UIds(gr), gr.nextId)
    ensures (exists j :: 0 <= j < |Finish(gr).ugens| && Finish(gr).ugens[j].id == -1) <==> |gr.controls| > 0
    ensures forall j :: Offset(Finish(gr)) <= j < |Finish(gr).ugens| ==> Finish(gr).ugens[j].id > 0
  {
    var g := Finish(gr);
    FinishPositive(gr);
    if |gr.controls| > 0 {
        assert g.ugens[0].id == -1;
    }
  }

  /** After the implicit node every id is positive. */
  lemma FinishPositive(gr: Graph)
    requires Descending(UIds(gr), gr.nextId)
    ensures forall j :: Offset(Finish(gr)) <= j < |Finish(gr).ugens| ==> Finish(gr).ugens[j].id > 0
  {
    var g, off, n := Finish(gr), Offset(Finish(gr)), |gr.ugens|;
    forall j | off <= j < |g.ugens|
      ensures g.ugens[j].id > 0
    {
      assert g.ugens[j] == gr.ugens[n - 1 - (j - off)];
      assert UIds(gr)[n - 1 - (j - off)] > 0;
    }
  }

  /** A valid graph's unit generators, listed in reverse after `off`
      others, have increasing ids. */
  lemma ReversedAscending(gr: Graph, g: Graph, off: nat)
    requires Descending(UIds(gr), gr.nextId) && |g.ugens| == off + |gr.ugens|
    requires forall i :: off <= i < |g.ugens| ==> g.ugens[i] == gr.ugens[|gr.ugens| - 1 - (i - off)]
    ensures forall i, j :: off <= i < j < |g.ugens| ==> g.ugens[i].id < g.ugens[j].id
  {
    var n := |gr.ugens|;
    assert Descending(UIds(gr), gr.nextId);
    forall i, j | off <= i < j < |g.ugens|
      ensures g.ugens[i].id < g.ugens[j].id
    {
      assert g.ugens[i] == gr.ugens[n - 1 - (i - off)] && g.ugens[j] == gr.ugens[n - 1 - (j - off)];
      assert UIds(gr)[n - 1 - (i - off)] < UIds(gr)[n - 1 - (j - off)];
    }
  }

  /** A valid graph's constants and controls are newest first. */
  lemma TablesDescending(gr: Graph)
    requires Valid(gr)
    ensures forall i, j :: 0 <= i < j < |gr.constants| ==> gr.constants[i].id > gr.constants[j].id
    ensures forall i, j :: 0 <= i < j < |gr.controls| ==> gr.controls[i].id > gr.controls[j].id
  {
    assert Descending(CIds(gr), gr.nextId) && Descending(KIds(gr), gr.nextId);
    forall i, j | 0 <= i < j < |gr.constants|
      ensures gr.constants[i].id > gr.constants[j].id
    {
      assert CIds(gr)[j] < CIds(gr)[i];
    }
    forall i, j | 0 <= i < j < |gr.controls|
      ensures gr.controls[i].id > gr.controls[j].id
    {
      assert KIds(gr)[j] < KIds(gr)[i];
    }
  }

  /** synth's graph is in evaluation order: every input of every unit
      generator resolves, a unit generator input to an earlier one. */
  lemma SynthSorted(u: Ugen)
    requires Synth(u).Some?
    ensures Sorted(Synth(u).value)
  {
    var root := PrepareRoot(u).value;
    MkNodeStep(root, EmptyGraph());
    EmptyGraphValid();
    FinishSorted(MkNode(root, EmptyGraph()).value.graph);
  }

  /** What finish does to a valid graph: the implicit node is first
      exactly when there are controls, and the rest are oldest first. */
  lemma FinishShape(gr: Graph)
    requires Valid(gr)
    ensures var g := Finish(gr);
      && ((exists j :: 0 <= j < |g.ugens| && g.ugens[j].id == -1) <==> |g.controls| > 0)
      && (|g.controls| > 0 ==> g.ugens[0] == Implicit(|g.controls|) && |g.ugens[0].outputs| == |g.controls|)
      && (forall i, j :: Offset(g) <= i < j < |g.ugens| ==> 0 < g.ugens[i].id < g.ugens[j].id)
  {
    var g := Finish(gr);
    assert Descending(UIds(gr), gr.nextId);
    FinishImplicit(gr);
    ReversedAscending(gr, g, Offset(g));
  }

  /** synth puts the implicit control node first exactly when there are
      controls; every other unit generator has a positive id, and they
      are listed oldest first. */
  lemma SynthImplicit(u: Ugen)
    requires Synth(u).Some?
    ensures var g := Synth(u).value;
      && ((exists j :: 0 <= j < |g.ugens| && g.ugens[j].id == -1) <==> |g.controls| > 0)
      && (|g.controls| > 0 ==> g.ugens[0] == Implicit(|g.controls|) && |g.ugens[0].outputs| == |g.controls|)
      && (forall i, j :: Offset(g) <= i < j < |g.ugens| ==> 0 < g.ugens[i].id < g.ugens[j].id)
  {
    var gr := SynthFinishes(u);
    FinishShape(gr);
  }

  /** synth's graph is the finish of a valid graph. */
  lemma SynthFinishes(u: Ugen) returns (gr: Graph)
    requires Synth(u).Some?
    ensures Valid(gr) && Synth(u).value == Finish(gr)
  {
    var root := PrepareRoot(u).value;
    MkNodeStep(root, EmptyGraph());
    EmptyGraphValid();
    gr := MkNode(root, EmptyGraph()).value.graph;
  }

  /** synth keeps constants and controls newest first. */
  lemma SynthTablesNewestFirst(u: Ugen)
    requires Synth(u).Some?
    ensures var g := Synth(u).value;
      && (forall i, j :: 0 <= i < j < |g.constants| ==> g.constants[i].id > g.constants[j].id)
      && (forall i, j :: 0 <= i < j < |g.controls| ==> g.controls[i].id > g.controls[j].id)
  {
    var root := PrepareRoot(u).value;
    MkNodeStep(root, EmptyGraph());
    EmptyGraphValid();
    var gr := MkNode(root, EmptyGraph()).value.graph;
    TablesDescending(gr);
  }
}

=== FILE: expansion.dfy ===
/** Multichannel expansion (src/sc3.rs): a primitive with a bundle among its
    inputs becomes a bundle of primitives, one per channel of the widest
    bundle, with the narrower bundles repeated cyclically; a primitive with
    several outputs becomes a bundle of proxies, one per output. The helper
    functions that panic in the source return `None` here; the ones that
    recurse forever on an empty bundle require that every bundle they
    reach is nonempty. */
module Expansion {
  import opened Osc
  import opened Arith
  import opened Ugens

  // ---------------------------------------------------------------------
  // iota and extend
  // ---------------------------------------------------------------------

  /** iota: `n` numbers starting at `init`, `step` apart. */
  function Iota(n: nat, init: int, step: int): (r: seq<int>)
    ensures |r| == n
    ensures forall i :: 0 <= i < n ==> r[i] == init + i * step
    decreases n
  {
    if n == 0 then []
    else
      var rest := Iota(n - 1, init + step, step);
      assert forall i :: 1 <= i < n ==> ([init] + rest)[i] == init + step + (i - 1) * step;
      assert forall i :: 1 <= i < n ==> init + step + (i - 1) * step == init + i * step by {
        forall i | 1 <= i < n ensures init + step + (i - 1) * step == init + i * step {
          assert (i - 1) * step == i * step - step;
        }
      }
      [init] + rest
  }

  lemma IotaExample()
    ensures Iota(4, 1, 2) == [1, 3, 5, 7]
  {
  }

  /** extend: the list repeated cyclically and cut to length `n`. The list
      is doubled until it is longer than `n`, so an empty list never
      finishes. */
  function Extend<T>(s: seq<T>, n: nat): (r: seq<T>)
    requires |s| > 0
    ensures |r| == n
    ensures forall i :: 0 <= i < n ==> r[i] == s[i % |s|]
    decreases if |s| > n then 0 else n - |s| + 1
  {
    if |s| > n then
      forall i | 0 <= i < n
        ensures s[..n][i] == s[i % |s|]
      {
        DivModUnique(i, |s|, 0, i);
      }
      s[..n]
    else
      var r := Extend(s + s, n);
      forall i | 0 <= i < n
        ensures r[i] == s[i % |s|]
      {
        assert r[i] == (s + s)[i % |s + s|];
        DoubledIndex(s, i);
      }
      r
  }

  /** Indexing the doubled list cyclically is indexing the list cyclically. */
  lemma DoubledIndex<T>(s: seq<T>, i: nat)
    requires |s| > 0
    ensures (s + s)[i % (2 * |s|)] == s[i % |s|]
  {
    var m := |s|;
    var q, r := i / (2 * m), i % (2 * m);
    assert i == (2 * q) * m + r;
    if r < m {
      DivModUnique(i, m, 2 * q, r);
    } else {
      assert i == (2 * q + 1) * m + (r - m);
      DivModUnique(i, m, 2 * q + 1, r - m);
    }
  }

  lemma ExtendExample(a: Ugen, b: Ugen)
    ensures Extend([a, b], 5) == [a, b, a, b, a]
  {
    var r := Extend([a, b], 5);
    assert r[0] == a && r[1] == b && r[2] == a && r[3] == b && r[4] == a;
  }

  // ---------------------------------------------------------------------
  // Bundles: degree, channels, spine
  // ---------------------------------------------------------------------

  /** The node reached by following the left sides of merges. */
  function SpineEnd(u: Ugen): (e: Ugen)
    ensures !e.Mrg?
    decreases u
  {
    match u
    case Mrg(l, _) => SpineEnd(l)
    case _ => u
  }

  /** `u` with the node at the end of its merge spine replaced by `c`. */
  function Rewrap(u: Ugen, c: Ugen): Ugen
    decreases u
  {
    match u
    case Mrg(l, rt) => Mrg(Rewrap(l, c), rt)
    case _ => c
  }

  /** mce_degree: the channel count of the bundle at the end of the merge
      spine; anything else panics. */
  function MceDegree(u: Ugen): (r: Option<int>)
    ensures r.Some? <==> SpineEnd(u).Mce?
    ensures r.Some? ==> r.value == |SpineEnd(u).channels|
    decreases u
  {
    match u
    case Mce(s) => Some(|s|)
    case Mrg(l, _) => MceDegree(l)
    case _ => None
  }

  /** mce_channel: channel `n` of a bundle; anything else, or an index out
      of range, panics. */
  function MceChannel(n: int, u: Ugen): (r: Option<Ugen>)
    ensures r.Some? <==> u.Mce? && 0 <= n < |u.channels|
    ensures r.Some? ==> r.value in u.channels
  {
    if u.Mce? && 0 <= n < |u.channels| then Some(u.channels[n]) else None
  }

  /** mce_channels: a bundle's channels; for a merge, the channels of its
      left side with the first one wrapped in the merge (it panics unless
      there are at least two); anything else is a single channel. */
  function MceChannels(u: Ugen): (r: Option<seq<Ugen>>)
    ensures r.Some? <==> !u.Mrg? || (SpineEnd(u).Mce? && |SpineEnd(u).channels| >= 2)
    ensures r.Some? && u.Mrg? ==>
      (&& |r.value| == |SpineEnd(u).channels|
       && r.value[0] == Rewrap(u, SpineEnd(u).channels[0])
       && forall i :: 1 <= i < |r.value| ==> r.value[i] == SpineEnd(u).channels[i])
    decreases u
  {
    match u
    case Mce(s) => Some(s)
    case Mrg(l, rt) =>
      var lst := MceChannels(l);
      if lst.None? || |lst.value| <= 1 then None
      else Some([Mrg(lst.value[0], rt)] + lst.value[1..])
    case _ => Some([u])
  }

  /** mce_degree and mce_channels agree on the width of a bundle, and
      mce_channel picks from the same list. */
  lemma ChannelsMatchDegree(u: Ugen, n: int)
    ensures MceChannels(u).Some? && MceDegree(u).Some? ==> |MceChannels(u).value| == MceDegree(u).value
    ensures MceChannel(n, u).Some? ==> MceChannel(n, u).value == MceChannels(u).value[n]
  {
  }

  /** The tests' merge of a two-channel bundle: its channels are the merge
      around the first channel, then the bare second channel. */
  lemma ChannelsOfMerge(a: Ugen, b: Ugen, right: Ugen)
    ensures MceChannels(Mrg(Mce([a, b]), right)) == Some([Mrg(a, right), b])
    ensures MceDegree(Mrg(Mce([a, b]), right)) == Some(2)
    ensures MceChannels(Mrg(a, right)).None? <==> !SpineEnd(a).Mce? || |SpineEnd(a).channels| < 2
  {
    var lst := MceChannels(Mce([a, b]));
    assert lst == Some([a, b]);
    assert [a, b][1..] == [b];
    assert MceChannels(Mrg(Mce([a, b]), right)) == Some([Mrg(lst.value[0], right)] + lst.value[1..]);
    assert [Mrg(a, right)] + [b] == [Mrg(a, right), b];
  }

  // ---------------------------------------------------------------------
  // mce_extend and the transform
  // ---------------------------------------------------------------------

  /** The inputs mce_extend finishes on: every bundle it meets, through
      bundles and the left sides of merges, is nonempty. */
  predicate InputOk(x: Ugen)
    decreases x
  {
    match x
    case Mce(s) => |s| > 0 && forall i :: 0 <= i < |s| ==> InputOk(s[i])
    case Mrg(l, _) => InputOk(l)
    case _ => true
  }

  predicate InputsOk(xs: seq<Ugen>)
  {
    forall i :: 0 <= i < |xs| ==> InputOk(xs[i])
  }

  /** The trees mce_expand finishes on: the inputs of every primitive it
      transforms satisfy InputOk. */
  predicate Expandable(u: Ugen)
    decreases u
  {
    match u
    case Mce(s) => forall i :: 0 <= i < |s| ==> Expandable(s[i])
    case Mrg(l, _) => Expandable(l)
    case Primitive(p) => InputsOk(p.inputs)
    case _ => true
  }

  /** Trees without empty bundles are expandable. */
  lemma {:induction false} WellFormedExpandable(u: Ugen)
    requires WellFormed(u)
    ensures Expandable(u) && InputOk(u)
    decreases u
  {
    match u
    case Mce(s) =>
      forall i | 0 <= i < |s| ensures Expandable(s[i]) && InputOk(s[i]) {
        WellFormedExpandable(s[i]);
      }
    case Mrg(l, _) => WellFormedExpandable(l);
    case Primitive(p) =>
      forall i | 0 <= i < |p.inputs| ensures InputOk(p.inputs[i]) {
        WellFormedExpandable(p.inputs[i]);
      }
    case _ =>
  }

  /** Channel `k` of an input after extension: the `k`-th channel of a
      bundle, cyclically; for a merge, the merge itself first and then the
      channels of its left side; any other input stands for every channel. */
  function ChannelAt(x: Ugen, k: nat): Ugen
    requires InputOk(x)
    decreases x
  {
    match x
    case Mce(s) => s[k % |s|]
    case Mrg(l, _) => if k == 0 then x else ChannelAt(l, k)
    case _ => x
  }

  /** mce_extend: the input as a list of `n` channels. A merge panics for
      `n` = 0; any other non-bundle gives at least one copy. */
  function MceExtend(n: nat, u: Ugen): (r: Option<seq<Ugen>>)
    requires InputOk(u)
    ensures r.None? <==> u.Mrg? && n == 0
    ensures r.Some? ==> |r.value| == (if u.Mce? || u.Mrg? || n > 0 then n else 1)
    ensures r.Some? ==> forall k :: 0 <= k < |r.value| ==> r.value[k] == ChannelAt(u, k)
    decreases u
  {
    if u.Mce? then Some(Extend(u.channels, n))
    else if u.Mrg? then
      var ex := MceExtend(n, u.left);
      if ex.None? || |ex.value| <= 0 then None
      else if n < 1 || n > |ex.value| then None
      else Some([u] + ex.value[1..n])
    else
      Some(seq(if n > 1 then n - 1 else 0, _ => u) + [u])
  }

  lemma MceExtendExample(p1: Ugen, p2: Ugen, right: Ugen)
    requires p1.Primitive? && p2.Primitive?
    ensures MceExtend(3, Mrg(Mce([p1, p2]), right)) == Some([Mrg(Mce([p1, p2]), right), p2, p1])
  {
    var u := Mrg(Mce([p1, p2]), right);
    assert InputOk(u) by {
      assert InputOk(p1) && InputOk(p2);
    }
    var r := MceExtend(3, u).value;
    assert r[0] == u && r[1] == ChannelAt(u, 1) && r[2] == ChannelAt(u, 2);
    assert r == [u, p2, p1];
  }

  /** transposer: rows become columns. A missing first row, or a row shorter
      than the first, panics; longer rows are cut to the first row's
      length. */
  function Transposer<T>(list: seq<seq<T>>): (r: Option<seq<seq<T>>>)
    ensures r.Some? <==> |list| > 0 && forall i :: 0 <= i < |list| ==> |list[i]| >= |list[0]|
    ensures r.Some? ==> |r.value| == |list[0]|
    ensures r.Some? ==> forall j :: 0 <= j < |r.value| ==> |r.value[j]| == |list|
    ensures r.Some? ==> forall j, i :: 0 <= j < |r.value| && 0 <= i < |list| ==> r.value[j][i] == list[i][j]
  {
    if |list| == 0 || exists i :: 0 <= i < |list| && |list[i]| < |list[0]| then None
    else Some(seq(|list[0]|, j requires 0 <= j < |list[0]| => seq(|list|, i requires 0 <= i < |list| => list[i][j])))
  }

  /** Every row has length `m`. */
  predicate Rectangular<T>(list: seq<seq<T>>, m: nat)
  {
    forall i :: 0 <= i < |list| ==> |list[i]| == m
  }

  /** Transposing a nonempty rectangular matrix twice gives it back. */
  lemma TransposeInvolution<T>(list: seq<seq<T>>, m: nat)
    requires |list| > 0 && m > 0 && Rectangular(list, m)
    ensures Transposer(list).Some?
    ensures Transposer(Transposer(list).value) == Some(list)
  {
    assert |list[0]| == m;
    var t := Transposer(list).value;
    assert |t| == m && |t[0]| == |list|;
    assert Transposer(t).Some?;
    var tt := Transposer(t).value;
    assert |tt| == |list|;
    forall i | 0 <= i < |list|
      ensures tt[i] == list[i]
    {
      assert |tt[i]| == m == |list[i]|;
      forall j | 0 <= j < m ensures tt[i][j] == list[i][j] {
        assert tt[i][j] == t[j][i];
      }
    }
    assert tt == list;
  }

  lemma TransposerExample(a: int, b: int, c: int, d: int, e: int, f: int)
    ensures Transposer([[a, b], [c, d], [e, f]]) == Some([[a, c, e], [b, d, f]])
  {
    var list := [[a, b], [c, d], [e, f]];
    assert forall i :: 0 <= i < |list| ==> |list[i]| >= |list[0]|;
    var r := Transposer(list).value;
    assert r[0][0] == a && r[0][1] == c && r[0][2] == e;
    assert r[1][0] == b && r[1][1] == d && r[1][2] == f;
    assert |r| == 2 && |r[0]| == 3 && |r[1]| == 3;
    assert r[0] == [a, c, e] && r[1] == [b, d, f];
    assert r == [[a, c, e], [b, d, f]];
  }

  /** is_mce over a primitive's inputs: does any input hold a bundle
      directly (a merge does not count)? */
  predicate HasMce(xs: seq<Ugen>)
  {
    exists i :: 0 <= i < |xs| && xs[i].Mce?
  }

  /** The degrees of the bundle inputs, in order. */
  function McDegrees(xs: seq<Ugen>): seq<int>
    decreases xs
  {
    if |xs| == 0 then []
    else if xs[0].Mce? then [|xs[0].channels|] + McDegrees(xs[1..])
    else McDegrees(xs[1..])
  }

  /** Every bundle input's degree is listed. */
  lemma {:induction false} McDegreesCover(xs: seq<Ugen>, i: int)
    requires 0 <= i < |xs| && xs[i].Mce?
    ensures |xs[i].channels| in McDegrees(xs)
    decreases xs
  {
    if i > 0 {
      assert xs[i] == xs[1..][i - 1];
      McDegreesCover(xs[1..], i - 1);
    }
  }

  /** Every listed degree is some bundle input's degree. */
  lemma {:induction false} McDegreesFrom(xs: seq<Ugen>, d: int)
    requires d in McDegrees(xs)
    ensures exists i :: 0 <= i < |xs| && xs[i].Mce? && |xs[i].channels| == d
    decreases xs
  {
    if !(xs[0].Mce? && d == |xs[0].channels|) {
      McDegreesFrom(xs[1..], d);
      var i :| 0 <= i < |xs[1..]| && xs[1..][i].Mce? && |xs[1..][i].channels| == d;
      assert xs[i + 1] == xs[1..][i];
    }
  }

  /** The width of the transform: the largest degree of a bundle input, 0
      when there is none. */
  function UpperDegree(xs: seq<Ugen>): (n: nat)
    ensures forall i :: 0 <= i < |xs| && xs[i].Mce? ==> |xs[i].channels| <= n
    ensures n == 0 || exists i :: 0 <= i < |xs| && xs[i].Mce? && |xs[i].channels| == n
  {
    var ds := McDegrees(xs);
    var m := MaxNum(ds, 0);
    assert forall i :: 0 <= i < |xs| && xs[i].Mce? ==> |xs[i].channels| <= m by {
      forall i | 0 <= i < |xs| && xs[i].Mce? ensures |xs[i].channels| <= m {
        McDegreesCover(xs, i);
      }
    }
    assert m == 0 || exists i :: 0 <= i < |xs| && xs[i].Mce? && |xs[i].channels| == m by {
      if m != 0 {
        McDegreesFrom(xs, m);
      }
    }
    m
  }

  /** The number of channels the transform produces. */
  function Width(xs: seq<Ugen>): nat
  {
    if UpperDegree(xs) >= 1 then UpperDegree(xs) else 1
  }

  /** When mce_transform does not panic: there is an input, and a merge
      input only appears when some bundle input makes the width positive. */
  predicate TransformDefined(xs: seq<Ugen>)
  {
    |xs| > 0 && (UpperDegree(xs) >= 1 || forall i :: 0 <= i < |xs| ==> !xs[i].Mrg?)
  }

  /** The inputs of channel `k` of the transform. */
  function Column(xs: seq<Ugen>, k: nat): (c: seq<Ugen>)
    requires InputsOk(xs)
    ensures |c| == |xs|
    ensures forall i :: 0 <= i < |xs| ==> c[i] == ChannelAt(xs[i], k)
  {
    seq(|xs|, i requires 0 <= i < |xs| => ChannelAt(xs[i], k))
  }

  /** The channels of the transform, column by column. */
  function Grid(xs: seq<Ugen>): (g: seq<seq<Ugen>>)
    requires InputsOk(xs)
    ensures |g| == Width(xs)
    ensures forall k :: 0 <= k < |g| ==> g[k] == Column(xs, k)
  {
    seq(Width(xs), k requires 0 <= k < Width(xs) => Column(xs, k))
  }

  /** One copy of `p` per row of `rows`, reading that row as its inputs. */
  function Copies(p: Prim, rows: seq<seq<Ugen>>): (r: seq<Ugen>)
    ensures |r| == |rows|
    ensures forall k :: 0 <= k < |rows| ==> r[k] == Primitive(p.(inputs := rows[k]))
  {
    seq(|rows|, k requires 0 <= k < |rows| => Primitive(p.(inputs := rows[k])))
  }

  /** The loop of mce_transform calling mce_extend on every input; a panic
      on any input is a panic of the loop. */
  function ExtendAll(n: nat, xs: seq<Ugen>): (r: Option<seq<seq<Ugen>>>)
    requires InputsOk(xs)
    ensures r.None? <==> n == 0 && exists i :: 0 <= i < |xs| && xs[i].Mrg?
    ensures r.Some? ==> |r.value| == |xs|
    ensures r.Some? ==> forall i :: 0 <= i < |xs| ==> MceExtend(n, xs[i]) == Some(r.value[i])
    decreases xs
  {
    if |xs| == 0 then Some([])
    else
      var head := MceExtend(n, xs[0]);
      var tail := ExtendAll(n, xs[1..]);
      assert forall i :: 1 <= i < |xs| ==> xs[i] == xs[1..][i - 1];
      if head.None? || tail.None? then None
      else Some([head.value] + tail.value)
  }

  /** The extended inputs form a grid with one row per input and `Width`
      columns, whose transpose is `Grid(xs)`. */
  lemma ExtensionGrid(xs: seq<Ugen>)
    requires InputsOk(xs) && ExtendAll(UpperDegree(xs), xs).Some?
    ensures Transposer(ExtendAll(UpperDegree(xs), xs).value).Some? <==> |xs| > 0
    ensures Transposer(ExtendAll(UpperDegree(xs), xs).value).Some? ==>
      Transposer(ExtendAll(UpperDegree(xs), xs).value).value == Grid(xs)
  {
    var ext := ExtendAll(UpperDegree(xs), xs).value;
    ExtensionRows(xs);
    if |xs| > 0 {
      GridTransposes(xs, ext);
    }
  }

  /** Rows holding the channels of each input transpose to the grid. */
  lemma GridTransposes(xs: seq<Ugen>, ext: seq<seq<Ugen>>)
    requires InputsOk(xs) && |xs| > 0 && |ext| == |xs|
    requires forall i :: 0 <= i < |xs| ==>
      |ext[i]| == Width(xs) && forall k :: 0 <= k < Width(xs) ==> ext[i][k] == ChannelAt(xs[i], k)
    ensures Transposer(ext) == Some(Grid(xs))
  {
    var g := Grid(xs);
    forall k, i | 0 <= k < |g| && 0 <= i < |ext| ensures |g[k]| == |ext| && g[k][i] == ext[i][k] {
    }
    TransposeOf(ext, Width(xs), g);
  }

  /** A matrix whose `k`-th row is the `k`-th column of a rectangular list
      is its transpose. */
  lemma TransposeOf<T>(list: seq<seq<T>>, m: nat, g: seq<seq<T>>)
    requires |list| > 0 && Rectangular(list, m) && |g| == m
    requires forall k, i :: 0 <= k < m && 0 <= i < |list| ==> |g[k]| == |list| && g[k][i] == list[i][k]
    ensures Transposer(list) == Some(g)
  {
    assert |list[0]| == m;
    assert forall i :: 0 <= i < |list| ==> |list[i]| >= |list[0]|;
    var t := Transposer(list).value;
    assert |t| == m;
    forall k | 0 <= k < m ensures t[k] == g[k] {
      assert |t[k]| == |list| == |g[k]|;
      forall i | 0 <= i < |list| ensures t[k][i] == g[k][i] {
        assert t[k][i] == list[i][k];
      }
    }
    assert t == g;
  }

  /** Row `i` of the extended inputs has `Width` entries, entry `k` being
      channel `k` of input `i`. */
  lemma ExtensionRows(xs: seq<Ugen>)
    requires InputsOk(xs) && ExtendAll(UpperDegree(xs), xs).Some?
    ensures var ext := ExtendAll(UpperDegree(xs), xs).value;
      forall i :: 0 <= i < |xs| ==>
        |ext[i]| == Width(xs) && forall k :: 0 <= k < Width(xs) ==> ext[i][k] == ChannelAt(xs[i], k)
  {
    var n := UpperDegree(xs);
    var ext := ExtendAll(n, xs).value;
    forall i | 0 <= i < |xs|
      ensures |ext[i]| == Width(xs) && forall k :: 0 <= k < Width(xs) ==> ext[i][k] == ChannelAt(xs[i], k)
    {
      assert MceExtend(n, xs[i]) == Some(ext[i]);
      assert xs[i].Mce? ==> 0 < |xs[i].channels| <= n;
    }
  }

  /** mce_transform: a primitive becomes a bundle of `Width` copies whose
      `k`-th copy reads channel `k` of every input (the narrower bundles
      repeated cyclically); anything but a primitive, and the panics of
      mce_extend and transposer, give None. */
  function MceTransform(u: Ugen): (r: Option<Ugen>)
    requires u.Primitive? ==> InputsOk(u.prim.inputs)
    ensures r.Some? <==> u.Primitive? && TransformDefined(u.prim.inputs)
    ensures r.Some? ==> r.value == Mce(Copies(u.prim, Grid(u.prim.inputs)))
  {
    match u
    case Primitive(p) =>
      var xs := p.inputs;
      (match ExtendAll(UpperDegree(xs), xs)
       case None => None
       case Some(ext) =>
         ExtensionGrid(xs);
         (match Transposer(ext)
          case None => None
          case Some(iet) => Some(Mce(Copies(p, iet)))))
    case _ => None
  }

  /** The tests' transform of "P3" over a two-channel and a three-channel
      bundle: three copies, the third reading the first channel of the
      narrower bundle again. */
  lemma TransformExample(p1: Ugen, p2: Ugen)
    requires p1.Primitive? && p2.Primitive?
    ensures var mc1 := Mce([p1, p2]);
            var mc3 := Mce([p1, p2, mc1]);
            var p3 := Prim([80, 51], [mc1, mc3], [Ir], 0, 0, Kr);
            InputsOk(p3.inputs)
            && var r := MceTransform(Primitive(p3));
            r.Some? && |r.value.channels| == 3
            && r.value.channels[2] == Primitive(p3.(inputs := [p1, mc1]))
  {
    var mc1 := Mce([p1, p2]);
    var mc3 := Mce([p1, p2, mc1]);
    var xs := [mc1, mc3];
    assert InputOk(p1) && InputOk(p2);
    assert InputOk(mc1);
    assert InputOk(mc3) by {
      assert forall i :: 0 <= i < 3 ==> InputOk(mc3.channels[i]);
    }
    assert InputsOk(xs);
    assert UpperDegree(xs) == 3 by {
      var n := UpperDegree(xs);
      assert |xs[1].channels| == 3;
      assert n == |xs[0].channels| || n == |xs[1].channels|;
    }
    assert Column(xs, 2) == [p1, mc1] by {
      assert ChannelAt(mc1, 2) == p1;
      assert ChannelAt(mc3, 2) == mc1;
    }
  }

  // ---------------------------------------------------------------------
  // mce_expand
  // ---------------------------------------------------------------------

  /** The height of a bundle or merge input; 0 for any other input. */
  function Contribution(x: Ugen): nat
  {
    if x.Mce? || x.Mrg? then Height(x) else 0
  }

  function SumContrib(xs: seq<Ugen>): nat
    decreases xs
  {
    if |xs| == 0 then 0 else Contribution(xs[0]) + SumContrib(xs[1..])
  }

  /** How much bundle structure is left among a primitive's inputs. */
  function Pot(u: Ugen): nat
  {
    if u.Primitive? then SumContrib(u.prim.inputs) else 0
  }

  lemma {:induction false} ChannelAtBounds(x: Ugen, k: nat)
    requires InputOk(x)
    ensures InputOk(ChannelAt(x, k))
    ensures Height(ChannelAt(x, k)) <= Height(x)
    ensures Contribution(ChannelAt(x, k)) <= Contribution(x)
    ensures x.Mce? ==> Contribution(ChannelAt(x, k)) < Contribution(x)
    decreases x
  {
    match x
    case Mce(s) =>
      assert Height(s[k % |s|]) <= MaxHeight(s);
    case Mrg(l, _) =>
      if k > 0 {
        ChannelAtBounds(l, k);
      }
    case _ =>
  }

  lemma {:induction false} SumContribDecreases(xs: seq<Ugen>, ys: seq<Ugen>, j: int)
    requires |xs| == |ys| && 0 <= j < |xs|
    requires forall i :: 0 <= i < |xs| ==> Contribution(ys[i]) <= Contribution(xs[i])
    requires Contribution(ys[j]) < Contribution(xs[j])
    ensures SumContrib(ys) < SumContrib(xs)
    decreases |xs|
  {
    if j == 0 {
      SumContribMonotone(xs[1..], ys[1..]);
    } else {
      SumContribDecreases(xs[1..], ys[1..], j - 1);
    }
  }

  lemma {:induction false} SumContribMonotone(xs: seq<Ugen>, ys: seq<Ugen>)
    requires |xs| == |ys|
    requires forall i :: 0 <= i < |xs| ==> Contribution(ys[i]) <= Contribution(xs[i])
    ensures SumContrib(ys) <= SumContrib(xs)
    decreases |xs|
  {
    if |xs| > 0 {
      SumContribMonotone(xs[1..], ys[1..]);
    }
  }

  /** Each copy made by the transform is an expandable primitive no taller
      than the original and with strictly less bundle structure among its
      inputs; this is why mce_expand finishes. */
  lemma TransformShrinks(p: Prim)
    requires InputsOk(p.inputs) && HasMce(p.inputs)
    ensures MceTransform(Primitive(p)).Some?
    ensures var t := MceTransform(Primitive(p)).value;
      t.Mce? && |t.channels| > 0 && ShrunkCopies(t.channels, p)
  {
    var xs := p.inputs;
    var j :| 0 <= j < |xs| && xs[j].Mce?;
    assert UpperDegree(xs) >= 1 by {
      assert |xs[j].channels| > 0;
    }
    var cs := Copies(p, Grid(xs));
    forall k | 0 <= k < |cs|
      ensures && cs[k].Primitive? && cs[k].prim.(inputs := []) == p.(inputs := [])
              && Expandable(cs[k]) && Height(cs[k]) <= Height(Primitive(p))
              && Pot(cs[k]) < Pot(Primitive(p))
    {
      TransformCopyShrinks(p, k, j);
    }
  }

  /** Copy `k` of the transform, one bundle input being `j`. */
  lemma TransformCopyShrinks(p: Prim, k: nat, j: int)
    requires InputsOk(p.inputs) && 0 <= j < |p.inputs| && p.inputs[j].Mce? && k < Width(p.inputs)
    ensures var c := Copies(p, Grid(p.inputs))[k];
      && c.Primitive? && c.prim.(inputs := []) == p.(inputs := [])
      && Expandable(c) && Height(c) <= Height(Primitive(p)) && Pot(c) < Pot(Primitive(p))
  {
    var g := Grid(p.inputs);
    assert Copies(p, g)[k] == Primitive(p.(inputs := Column(p.inputs, k)));
    CopyShrinks(p, k, j);
  }

  /** Each of `cs` is an expandable copy of `p` (same header, other
      inputs), no taller than `p` and with strictly less bundle structure
      among its inputs. */
  predicate ShrunkCopies(cs: seq<Ugen>, p: Prim)
  {
    forall k :: 0 <= k < |cs| ==>
      && cs[k].Primitive? && cs[k].prim.(inputs := []) == p.(inputs := [])
      && Expandable(cs[k]) && Height(cs[k]) <= Height(Primitive(p)) && Pot(cs[k]) < Pot(Primitive(p))
  }

  lemma CopyShrinks(p: Prim, k: nat, j: int)
    requires InputsOk(p.inputs) && 0 <= j < |p.inputs| && p.inputs[j].Mce?
    ensures var c := Primitive(p.(inputs := Column(p.inputs, k)));
      Expandable(c) && Height(c) <= Height(Primitive(p)) && Pot(c) < Pot(Primitive(p))
  {
    var ys := Column(p.inputs, k);
    var c := Primitive(p.(inputs := ys));
    assert Expandable(c) by {
      ColumnBounds(p.inputs, k);
    }
    assert Height(c) <= Height(Primitive(p)) by {
      ColumnNoTaller(p.inputs, k);
    }
    assert Pot(c) < Pot(Primitive(p)) by {
      ColumnLessPot(p.inputs, k, j);
    }
  }

  lemma ColumnNoTaller(xs: seq<Ugen>, k: nat)
    requires InputsOk(xs)
    ensures MaxHeight(Column(xs, k)) <= MaxHeight(xs)
  {
    ColumnBounds(xs, k);
    MaxHeightPointwise(Column(xs, k), xs);
  }

  lemma ColumnLessPot(xs: seq<Ugen>, k: nat, j: int)
    requires InputsOk(xs) && 0 <= j < |xs| && xs[j].Mce?
    ensures SumContrib(Column(xs, k)) < SumContrib(xs)
  {
    ColumnBounds(xs, k);
    ChannelAtBounds(xs[j], k);
    SumContribDecreases(xs, Column(xs, k), j);
  }

  lemma ColumnBounds(xs: seq<Ugen>, k: nat)
    requires InputsOk(xs)
    ensures InputsOk(Column(xs, k))
    ensures forall i :: 0 <= i < |xs| ==> Height(Column(xs, k)[i]) <= Height(xs[i])
    ensures forall i :: 0 <= i < |xs| ==> Contribution(Column(xs, k)[i]) <= Contribution(xs[i])
  {
    var ys := Column(xs, k);
    forall i | 0 <= i < |xs|
      ensures InputOk(ys[i]) && Height(ys[i]) <= Height(xs[i]) && Contribution(ys[i]) <= Contribution(xs[i])
    {
      ChannelAtBounds(xs[i], k);
    }
  }

  /** No primitive reachable through bundles and the left sides of merges
      has a bundle among its inputs. */
  predicate Expanded(u: Ugen)
    decreases u
  {
    match u
    case Mce(s) => forall i :: 0 <= i < |s| ==> Expanded(s[i])
    case Mrg(l, _) => Expanded(l)
    case Primitive(p) => !HasMce(p.inputs)
    case _ => true
  }

  /** A bundle tree of primitives that all share the name, outputs, special
      value, index and rate of `h` (whose inputs are empty) and have no
      bundle input. */
  predicate Family(u: Ugen, h: Prim)
    decreases u
  {
    match u
    case Mce(s) => |s| > 0 && forall i :: 0 <= i < |s| ==> Family(s[i], h)
    case Primitive(q) => q.(inputs := []) == h && !HasMce(q.inputs)
    case _ => false
  }

  /** mce_expand: bundles and the left sides of merges are expanded in
      place, a primitive with a bundle input is replaced by the expansion
      of its transform, and everything else is left alone. */
  function MceExpand(u: Ugen): (r: Ugen)
    requires Expandable(u)
    ensures Expandable(r) && Expanded(r)
    ensures u.Primitive? ==> Family(r, u.prim.(inputs := []))
    ensures u.Primitive? && !HasMce(u.prim.inputs) ==> r == u
    ensures u.Mrg? ==> r == Mrg(MceExpand(u.left), u.right)
    ensures u.Mce? ==>
      && r.Mce? && |r.channels| == |u.channels|
      && forall i :: 0 <= i < |u.channels| ==> r.channels[i] == MceExpand(u.channels[i])
    ensures !u.Mce? && !u.Mrg? && !u.Primitive? ==> r == u
    decreases Height(u), Pot(u), 1
  {
    if u.Mce? then
      var s := u.channels;
      Mce(seq(|s|, i requires 0 <= i < |s| => MceExpand(s[i])))
    else if u.Mrg? then Mrg(MceExpand(u.left), u.right)
    else if u.Primitive? && HasMce(u.prim.inputs) then
      TransformShrinks(u.prim);
      ExpandCopies(u.prim, MceTransform(u).value.channels)
    else u
  }

  /** The expansion of a primitive with a bundle input: the bundle of the
      expansions of the copies `cs` that mce_transform makes of it. */
  function ExpandCopies(p: Prim, cs: seq<Ugen>): (r: Ugen)
    requires |cs| > 0 && ShrunkCopies(cs, p)
    ensures Family(r, p.(inputs := []))
    decreases Height(Primitive(p)), Pot(Primitive(p)), 0
  {
    var es := seq(|cs|, k requires 0 <= k < |cs| => MceExpand(cs[k]));
    assert forall k :: 0 <= k < |es| ==> Family(es[k], cs[k].prim.(inputs := []));
    Mce(es)
  }

  /** mce_expand as the source writes it: a primitive with a bundle input
      expands to the expansion of its transform. */
  lemma ExpandIsExpandOfTransform(p: Prim)
    requires InputsOk(p.inputs) && HasMce(p.inputs)
    ensures MceTransform(Primitive(p)).Some?
    ensures Expandable(MceTransform(Primitive(p)).value)
    ensures MceExpand(Primitive(p)) == MceExpand(MceTransform(Primitive(p)).value)
  {
    TransformShrinks(p);
  }

  /** A tree with nothing left to expand is its own expansion. */
  lemma {:induction false} ExpandFixesExpanded(u: Ugen)
    requires Expandable(u) && Expanded(u)
    ensures MceExpand(u) == u
    decreases u
  {
    match u
    case Mce(s) =>
      forall i | 0 <= i < |s| ensures MceExpand(s[i]) == s[i] {
        ExpandFixesExpanded(s[i]);
      }
      assert MceExpand(u).channels == s;
    case Mrg(l, _) => ExpandFixesExpanded(l);
    case _ =>
  }

  /** Expanding twice is expanding once. */
  lemma MceExpandIdempotent(u: Ugen)
    requires Expandable(u)
    ensures MceExpand(MceExpand(u)) == MceExpand(u)
  {
    ExpandFixesExpanded(MceExpand(u));
  }

  // ---------------------------------------------------------------------
  // proxify and mk_ugen
  // ---------------------------------------------------------------------

  /** The trees proxify accepts: bundles and merges whose spine ends in
      primitives. */
  predicate Proxifiable(u: Ugen)
    decreases u
  {
    match u
    case Mce(s) => forall i :: 0 <= i < |s| ==> Proxifiable(s[i])
    case Mrg(l, _) => Proxifiable(l)
    case Primitive(_) => true
    case _ => false
  }

  /** proxify: a primitive with two or more outputs becomes a bundle with
      one proxy per output, the port being the output's position; bundles
      and the left sides of merges are proxified in place; anything else
      panics. */
  function Proxify(u: Ugen): (r: Option<Ugen>)
    ensures r.Some? <==> Proxifiable(u)
    ensures r.Some? ==> !r.value.Proxy?
    ensures r.Some? && u.Primitive? && |u.prim.outputs| >= 2 ==>
      r.value.Mce? && |r.value.channels| == |u.prim.outputs|
      && forall i :: 0 <= i < |r.value.channels| ==> r.value.channels[i] == Proxy(u.prim, i)
    ensures r.Some? && u.Primitive? && |u.prim.outputs| < 2 ==> r.value == u
    ensures r.Some? && u.Mrg? ==> r.value == Mrg(Proxify(u.left).value, u.right)
    ensures r.Some? && u.Mce? ==>
      && r.value.Mce? && |r.value.channels| == |u.channels|
      && forall i :: 0 <= i < |u.channels| ==> Proxify(u.channels[i]) == Some(r.value.channels[i])
    decreases u
  {
    match u
    case Mce(s) =>
      if forall i :: 0 <= i < |s| ==> Proxify(s[i]).Some? then
        Some(Mce(seq(|s|, i requires 0 <= i < |s| => Proxify(s[i]).value)))
      else None
    case Mrg(l, rt) =>
      (match Proxify(l)
       case Some(x) => Some(Mrg(x, rt))
       case None => None)
    case Primitive(p) =>
      if |p.outputs| < 2 then Some(u)
      else
        var ports := Iota(|p.outputs|, 0, 1);
        Some(Mce(seq(|ports|, i requires 0 <= i < |ports| => Proxy(p, ports[i]))))
    case _ => None
  }

  /** A bundle holding one proxy per output of a single primitive. */
  predicate IsProxyBundle(cs: seq<Ugen>)
  {
    && |cs| >= 2 && cs[0].Proxy? && |cs| == |cs[0].proxied.outputs|
    && forall i :: 0 <= i < |cs| ==> cs[i] == Proxy(cs[0].proxied, i)
  }

  /** The inverse of proxify: each proxy bundle collapses back to its
      primitive. */
  function Unproxify(u: Ugen): Ugen
    decreases u
  {
    match u
    case Mce(cs) =>
      if IsProxyBundle(cs) then Primitive(cs[0].proxied)
      else Mce(seq(|cs|, i requires 0 <= i < |cs| => Unproxify(cs[i])))
    case Mrg(l, rt) => Mrg(Unproxify(l), rt)
    case _ => u
  }

  /** proxify loses nothing: its result collapses back to its argument. */
  lemma {:induction false} ProxifyInverse(u: Ugen)
    requires Proxify(u).Some?
    ensures Unproxify(Proxify(u).value) == u
    decreases u
  {
    match u
    case Mce(s) =>
      var cs := Proxify(u).value.channels;
      assert !IsProxyBundle(cs) by {
        if |cs| >= 2 {
          assert !cs[0].Proxy?;
        }
      }
      forall i | 0 <= i < |s| ensures Unproxify(cs[i]) == s[i] {
        ProxifyInverse(s[i]);
      }
      assert Unproxify(Proxify(u).value).channels == s;
    case Mrg(l, _) => ProxifyInverse(l);
    case Primitive(p) =>
      if |p.outputs| >= 2 {
        assert IsProxyBundle(Proxify(u).value.channels);
      }
    case _ =>
  }

  /** What mk_ugen builds from a header `h`: bundles whose leaves are
      primitives with header `h` and fewer than two outputs, or proxies of
      such primitives with a port below the output count; no leaf has a
      bundle input. */
  predicate MadeOf(u: Ugen, h: Prim)
    decreases u
  {
    match u
    case Mce(s) => |s| > 0 && forall i :: 0 <= i < |s| ==> MadeOf(s[i], h)
    case Primitive(q) => q.(inputs := []) == h && |h.outputs| < 2 && !HasMce(q.inputs)
    case Proxy(q, port) => q.(inputs := []) == h && 0 <= port < |h.outputs| && !HasMce(q.inputs)
    case _ => false
  }

  lemma {:induction false} ProxifyFamily(u: Ugen, h: Prim)
    requires Family(u, h)
    ensures Proxify(u).Some? && MadeOf(Proxify(u).value, h)
    decreases u
  {
    match u
    case Mce(s) =>
      forall i | 0 <= i < |s| ensures Proxify(s[i]).Some? && MadeOf(Proxify(s[i]).value, h) {
        ProxifyFamily(s[i], h);
      }
    case Primitive(q) =>
    case _ =>
  }

  /** mk_ugen: build the primitive, expand it and proxify the result. */
  function MkUgen(rate: Rate, name: Name, inputs: seq<Ugen>, outputs: seq<Rate>, ind: int, sp: int): (r: Ugen)
    requires InputsOk(inputs)
    ensures MadeOf(r, Prim(name, [], outputs, sp, ind, rate))
    ensures Unproxify(r) == MceExpand(Primitive(Prim(name, inputs, outputs, sp, ind, rate)))
  {
    var e := MceExpand(Primitive(Prim(name, inputs, outputs, sp, ind, rate)));
    ProxifyFamily(e, Prim(name, [], outputs, sp, ind, rate));
    ProxifyInverse(e);
    Proxify(e).value
  }

  /** A single-output primitive without bundle inputs is built as is. */
  lemma MkUgenPlain(rate: Rate, name: Name, inputs: seq<Ugen>, outputs: seq<Rate>, ind: int, sp: int)
    requires InputsOk(inputs) && !HasMce(inputs) && |outputs| < 2
    ensures MkUgen(rate, name, inputs, outputs, ind, sp) == Primitive(Prim(name, inputs, outputs, sp, ind, rate))
  {
  }

  /** A two-output primitive becomes a bundle of its two proxies; the
      tests' proxify of a bundle holding one two-output and one
      output-less primitive. */
  lemma ProxifyExample(p1: Prim, p2: Prim)
    requires |p1.outputs| == 2 && |p2.outputs| == 0
    ensures Proxify(Mce([Primitive(p1), Primitive(p2)]))
      == Some(Mce([Mce([Proxy(p1, 0), Proxy(p1, 1)]), Primitive(p2)]))
  {
    var s := [Primitive(p1), Primitive(p2)];
    var a := Proxify(Primitive(p1)).value;
    assert a.channels[0] == Proxy(p1, 0) && a.channels[1] == Proxy(p1, 1);
    assert a == Mce([Proxy(p1, 0), Proxy(p1, 1)]);
    assert Proxify(s[0]) == Some(a) && Proxify(s[1]) == Some(Primitive(p2));
    var r := Proxify(Mce(s)).value;
    assert r.channels[0] == a && r.channels[1] == Primitive(p2);
    assert r.channels == [a, Primitive(p2)];
  }
}

=== FILE: float32.dfy ===
/** Single-precision floats as the compiler sees them: a value is its
    IEEE-754 binary32 bit pattern (what Rust's `to_bits` returns), `==`
    is IEEE equality, and an integer constant is promoted with Rust's
    `as f32`, which rounds to the nearest representable value, ties to
    even. */
module Float32 {
  import opened Arith

  type uint32 = x: int | 0 <= x < 0x1_0000_0000

  datatype F32 = F32(bits: uint32)

  const SIGN: int := 0x8000_0000
  const FRAC: int := 0x80_0000   // 2^23, the weight of the exponent field's low bit

  function ExponentField(f: F32): int { (f.bits / FRAC) % 256 }

  function Fraction(f: F32): int { f.bits % FRAC }

  predicate IsNaN(f: F32) { ExponentField(f) == 255 && Fraction(f) != 0 }

  /** +0.0 or -0.0. */
  predicate IsZero(f: F32) { f.bits % SIGN == 0 }

  /** Rust's `==` on f32: NaN equals nothing, +0.0 equals -0.0, and any
      other two values are equal exactly when their bit patterns are. */
  predicate FloatEq(a: F32, b: F32)
  {
    !IsNaN(a) && !IsNaN(b) && (a.bits == b.bits || (IsZero(a) && IsZero(b)))
  }

  lemma FloatEqReflexive(a: F32)
    ensures FloatEq(a, a) <==> !IsNaN(a)
  {
  }

  lemma FloatEqSymmetric(a: F32, b: F32)
    ensures FloatEq(a, b) == FloatEq(b, a)
  {
  }

  lemma FloatEqTransitive(a: F32, b: F32, c: F32)
    requires FloatEq(a, b) && FloatEq(b, c)
    ensures FloatEq(a, c)
  {
  }

  // ---------------------------------------------------------------------
  // Integer to float conversion (`i32 as f32`)
  // ---------------------------------------------------------------------

  function Pow2(e: nat): (r: nat)
    ensures r >= 1
  {
    if e == 0 then 1 else 2 * Pow2(e - 1)
  }

  lemma {:induction false} Pow2Add(a: nat, b: nat)
    ensures Pow2(a + b) == Pow2(a) * Pow2(b)
    decreases a
  {
    if a > 0 {
      Pow2Add(a - 1, b);
      assert Pow2(a + b) == 2 * Pow2(a - 1 + b);
    }
  }

  lemma {:induction false} Pow2Monotone(a: nat, b: nat)
    requires a <= b
    ensures Pow2(a) <= Pow2(b)
    decreases b
  {
    if a < b {
      Pow2Monotone(a, b - 1);
    }
  }

  /** The position of the highest set bit of `m`. */
  function Log2Floor(m: nat): (e: nat)
    requires m >= 1
    ensures Pow2(e) <= m < Pow2(e + 1)
  {
    if m == 1 then 0 else 1 + Log2Floor(m / 2)
  }

  /** `m / 2^s` rounded to the nearest integer, ties to the even one. */
  function RoundHalfEven(m: nat, s: nat): (r: nat)
    ensures m / Pow2(s) <= r <= m / Pow2(s) + 1
  {
    if s == 0 then m
    else
      var q := m / Pow2(s);
      var rem := m % Pow2(s);
      var half := Pow2(s - 1);
      if rem > half || (rem == half && q % 2 == 1) then q + 1 else q
  }

  lemma {:induction false} DivBounds(m: nat, a: nat, b: nat, hi: nat)
    requires b >= 1 && a * b <= m < hi * b
    ensures a <= m / b < hi
  {
    var q, r := m / b, m % b;
    assert m == q * b + r && 0 <= r < b;
    QuotientLower(m, a, b, q, r);
    if q >= hi {
      MulMono(hi, q, b);
    }
  }

  lemma {:induction false} QuotientLower(m: nat, a: nat, b: nat, q: nat, r: nat)
    requires m == q * b + r && r < b && a * b <= m
    ensures a <= q
  {
    if q < a {
      assert (q + 1) * b == q * b + b;
      MulMono(q + 1, a, b);
    }
  }

  lemma Pow2Constants()
    ensures Pow2(8) == 256 && Pow2(9) == 512 && Pow2(15) == 32768
    ensures Pow2(23) == FRAC && Pow2(24) == 2 * FRAC
  {
    assert Pow2(4) == 16 by {
      assert Pow2(1) == 2;
      assert Pow2(2) == 4;
      assert Pow2(3) == 8;
    }
    assert Pow2(8) == 256 by { Pow2Add(4, 4); }
    assert Pow2(9) == 512;
    assert Pow2(15) == 32768 by { Pow2Add(8, 7); assert Pow2(7) == 128 by { Pow2Add(4, 3); assert Pow2(3) == 8; } }
    assert Pow2(16) == 65536 by { Pow2Add(8, 8); }
    assert Pow2(23) == FRAC by { Pow2Add(16, 7); assert Pow2(7) == 128 by { Pow2Add(4, 3); assert Pow2(3) == 8; } }
    assert Pow2(24) == 2 * FRAC;
  }

  /** Significand (with its implicit leading one, in [2^23, 2^24)) and the
      unbiased exponent of the nearest binary32 value to the positive
      integer `m`, before the overflow check. */
  function Normalize(m: nat): (r: (nat, nat))
    requires m >= 1
    ensures FRAC <= r.0 < 2 * FRAC
  {
    var e := Log2Floor(m);
    if e <= 23 then
      ScaleUpBounds(m, e);
      (m * Pow2(23 - e), e)
    else
      ScaleDownBounds(m, e);
      var q := RoundHalfEven(m, e - 23);
      if q == 2 * FRAC then (FRAC, e + 1) else (q, e)
  }

  lemma ScaleUpBounds(m: nat, e: nat)
    requires e <= 23 && Pow2(e) <= m < Pow2(e + 1)
    ensures FRAC <= m * Pow2(23 - e) < 2 * FRAC
  {
    var p := Pow2(23 - e);
    var lo, hi := Pow2(e), Pow2(e + 1);
    assert lo * p == FRAC by {
      Pow2Constants();
      Pow2Add(e, 23 - e);
    }
    assert hi * p == 2 * FRAC by {
      Pow2Constants();
      Pow2Add(e + 1, 23 - e);
    }
    assert lo * p <= m * p by {
      MulMono(lo, m, p);
    }
    assert m * p + p <= hi * p by {
      MulMono(m + 1, hi, p);
      assert (m + 1) * p == m * p + p;
    }
  }

  lemma ScaleDownBounds(m: nat, e: nat)
    requires e > 23 && Pow2(e) <= m < Pow2(e + 1)
    ensures FRAC <= m / Pow2(e - 23) < 2 * FRAC
  {
    var s := e - 23;
    Pow2Constants();
    Pow2Add(23, s);
    Pow2Add(24, s);
    DivBounds(m, FRAC, Pow2(s), 2 * FRAC);
  }

  /** The fields of a bit pattern assembled from a sign bit, a biased
      exponent and a fraction. */
  lemma {:induction false} Assemble(sign: int, biased: int, frac: int)
    requires sign == 0 || sign == 1
    requires 0 <= biased < 256 && 0 <= frac < FRAC
    ensures 0 <= sign * SIGN + biased * FRAC + frac < 0x1_0000_0000
    ensures ExponentField(F32(sign * SIGN + biased * FRAC + frac)) == biased
    ensures Fraction(F32(sign * SIGN + biased * FRAC + frac)) == frac
    ensures IsZero(F32(sign * SIGN + biased * FRAC + frac)) <==> biased == 0 && frac == 0
    ensures sign * SIGN + biased * FRAC + frac >= SIGN <==> sign == 1
  {
    var w := sign * SIGN + biased * FRAC + frac;
    DivModUnique(w, FRAC, sign * 256 + biased, frac);
    DivModUnique(sign * 256 + biased, 256, sign, biased);
    DivModUnique(w, SIGN, sign, biased * FRAC + frac);
  }

  /** Rust's `v as f32` for an integer `v`: round to nearest, ties to even;
      magnitudes beyond the largest finite float become infinities. */
  function IntToF32(v: int): (f: F32)
    ensures !IsNaN(f)
    ensures IsZero(f) <==> v == 0
    ensures v != 0 ==> (f.bits >= SIGN <==> v < 0)
  {
    if v == 0 then F32(0)
    else
      var sign := if v < 0 then 1 else 0;
      var m: nat := if v < 0 then -v else v;
      var (sig, e) := Normalize(m);
      var biased := e + 127;
      if biased >= 255 then
        Assemble(sign, 255, 0);
        F32(sign * SIGN + 255 * FRAC + 0)
      else
        Assemble(sign, biased, sig - FRAC);
        F32(sign * SIGN + biased * FRAC + (sig - FRAC))
  }

  /** The promoted value of a small integer is exact: the constant 320
      becomes the float 320.0 (0x43A00000). */
  lemma IntToF32Of320()
    ensures IntToF32(320) == F32(0x43A0_0000)
  {
    Pow2Constants();
    Log2Unique(320, 8);
  }

  lemma {:induction false} Log2Unique(m: nat, e: nat)
    requires m >= 1 && Pow2(e) <= m < Pow2(e + 1)
    ensures Log2Floor(m) == e
  {
    var k := Log2Floor(m);
    if k < e {
      Pow2Monotone(k + 1, e);
    } else if k > e {
      Pow2Monotone(e + 1, k);
    }
  }
}

=== FILE: operators.dfy ===
/** The unit generator constructors of src/sc3.rs: oscillators, filters
    and the unary and binary operators, all built through mk_ugen.

    The operators take their operands as Rust `Any` values that are either
    an `f64`, a `Ugen` or something else (which panics). `f64` is kept
    abstract here: the type parameter `D` stands for it and a `Doubles<D>`
    value carries the three conversions the source uses. The operator's own
    function `fun` is an ordinary parameter. */
module Operators {
  import opened Osc
  import opened Float32
  import opened Ugens
  import opened Expansion

  /** `rate` repeated once per output; the source's loop `for _ in 0..ou`
      runs no times when `ou` is not positive. */
  function Replicate(rate: Rate, ou: int): (rs: seq<Rate>)
    ensures |rs| == if ou < 0 then 0 else ou
    ensures forall i :: 0 <= i < |rs| ==> rs[i] == rate
    decreases if ou < 0 then 0 else ou
  {
    if ou <= 0 then [] else Replicate(rate, ou - 1) + [rate]
  }

  /** mk_oscillator: a shared (index 0) generator at the given rate with
      `ou` outputs of that rate. */
  function MkOscillator(rate: Rate, name: Name, inputs: seq<Ugen>, ou: int): (r: Ugen)
    requires InputsOk(inputs)
    ensures MadeOf(r, Prim(name, [], Replicate(rate, ou), 0, 0, rate))
  {
    MkUgen(rate, name, inputs, Replicate(rate, ou), 0, 0)
  }

  /** The rates of a list of inputs, in order. */
  function Rates(inputs: seq<Ugen>): (rs: seq<Rate>)
    ensures |rs| == |inputs|
    ensures forall i :: 0 <= i < |inputs| ==> rs[i] == RateOf(inputs[i])
  {
    seq(|inputs|, i requires 0 <= i < |inputs| => RateOf(inputs[i]))
  }

  /** The rate mk_filter and mk_operator give their result: the fastest of
      the inputs' rates, and at least Kr. */
  function FilterRate(inputs: seq<Ugen>): (m: Rate)
    ensures RateId(Kr) <= RateId(m)
    ensures forall i :: 0 <= i < |inputs| ==> RateId(RateOf(inputs[i])) <= RateId(m)
    ensures m == Kr || exists i :: 0 <= i < |inputs| && RateOf(inputs[i]) == m
  {
    MaxRate(Rates(inputs), Kr)
  }

  /** mk_filter: a shared generator whose rate and output rates all follow
      the fastest input. */
  function MkFilter(name: Name, inputs: seq<Ugen>, ou: int): (r: Ugen)
    requires InputsOk(inputs)
    ensures var m := FilterRate(inputs); MadeOf(r, Prim(name, [], Replicate(m, ou), 0, 0, m))
  {
    var m := FilterRate(inputs);
    MkUgen(m, name, inputs, Replicate(m, ou), 0, 0)
  }

  /** mk_operator: like a filter with exactly one output, carrying the
      operator's code in the special field. */
  function MkOperator(name: Name, inputs: seq<Ugen>, sp: int): (r: Ugen)
    requires InputsOk(inputs)
    ensures var m := FilterRate(inputs); MadeOf(r, Prim(name, [], [m], sp, 0, m))
  {
    var m := FilterRate(inputs);
    MkUgen(m, name, inputs, [m], 0, sp)
  }

  /** "UnaryOpUgen", spelled as in the source. */
  const UNARY_OP: Name := [85, 110, 97, 114, 121, 79, 112, 85, 103, 101, 110]
  /** "BinaryOpUGen". */
  const BINARY_OP: Name := [66, 105, 110, 97, 114, 121, 79, 112, 85, 71, 101, 110]

  /** The conversions between the source's `f64` and the model: `f64 as
      f32`, `i32 as f64` and `f32 as f64`. */
  datatype Doubles<!D> = Doubles(narrow: D -> F32, ofInt: int -> D, widen: F32 -> D)

  /** An operand as the source's downcasts see it: an `f64`, a `Ugen`, or
      a value of any other type. */
  datatype Operand<D> = Lit(num: D) | Node(u: Ugen) | Foreign

  /** The operands an operator can be built from: a unit generator operand
      must satisfy what mk_ugen needs. */
  predicate OperandOk<D>(op: Operand<D>)
  {
    op.Node? ==> InputOk(op.u)
  }

  /** A constant: its value widened to `f64`, or None for anything else. */
  function ConstValue<D>(cv: Doubles<D>, u: Ugen): (v: Option<D>)
    ensures v.Some? <==> u.IConst? || u.FConst?
  {
    match u
    case IConst(i) => Some(cv.ofInt(i))
    case FConst(f) => Some(cv.widen(f))
    case _ => None
  }

  /** mk_unary_operator: a constant operand is folded by `fun`; a literal
      or any other unit generator becomes a UnaryOpUgen; an operand of a
      foreign type panics (None). */
  function MkUnaryOperator<D>(cv: Doubles<D>, sp: int, fun: D -> D, op: Operand<D>): (r: Option<Ugen>)
    requires OperandOk(op)
    ensures r.None? <==> op.Foreign?
  {
    match op
    case Lit(num) => Some(MkOperator(UNARY_OP, [FConst(cv.narrow(num))], sp))
    case Node(u) =>
      (match ConstValue(cv, u)
       case Some(v) => Some(FConst(cv.narrow(fun(v))))
       case None => Some(MkOperator(UNARY_OP, [u], sp)))
    case Foreign => None
  }

  /** mk_binary_operator: two constant unit generators are folded by
      `fun`; otherwise a BinaryOpUGen is built over the two operands, a
      literal becoming a float constant. When the first operand is a unit
      generator and the second a literal, the literal is placed first. An
      operand of a foreign type panics (None). */
  function MkBinaryOperator<D>(cv: Doubles<D>, sp: int, fun: (D, D) -> D, op1: Operand<D>, op2: Operand<D>): (r: Option<Ugen>)
    requires OperandOk(op1) && OperandOk(op2)
    ensures r.None? <==> op1.Foreign? || op2.Foreign?
  {
    match op1
    case Lit(n1) =>
      (match op2
       case Lit(n2) => Some(MkOperator(BINARY_OP, [FConst(cv.narrow(n1)), FConst(cv.narrow(n2))], sp))
       case Node(u2) => Some(MkOperator(BINARY_OP, [FConst(cv.narrow(n1)), u2], sp))
       case Foreign => None)
    case Node(u1) =>
      (match op2
       case Node(u2) =>
         var v1 := ConstValue(cv, u1);
         var v2 := ConstValue(cv, u2);
         if v1.Some? && v2.Some? then Some(FConst(cv.narrow(fun(v1.value, v2.value))))
         else Some(MkOperator(BINARY_OP, [u1, u2], sp))
       case Lit(n2) => Some(MkOperator(BINARY_OP, [FConst(cv.narrow(n2)), u1], sp))
       case Foreign => None)
    case Foreign => None
  }

  // ---------------------------------------------------------------------
  // Properties
  // ---------------------------------------------------------------------

  /** A filter is an oscillator running at the fastest input's rate. */
  lemma FilterIsOscillatorAtInputRate(name: Name, inputs: seq<Ugen>, ou: int)
    requires InputsOk(inputs)
    ensures MkFilter(name, inputs, ou) == MkOscillator(FilterRate(inputs), name, inputs, ou)
  {
  }

  /** Without bundle inputs and with at most one output, mk_oscillator
      builds the single primitive it describes. */
  lemma OscillatorPlain(rate: Rate, name: Name, inputs: seq<Ugen>, ou: int)
    requires InputsOk(inputs) && !HasMce(inputs) && ou <= 1
    ensures MkOscillator(rate, name, inputs, ou)
      == Primitive(Prim(name, inputs, if ou == 1 then [rate] else [], 0, 0, rate))
  {
    var rs := Replicate(rate, ou);
    assert rs == if ou == 1 then [rate] else [];
    MkUgenPlain(rate, name, inputs, rs, 0, 0);
  }

  /** Without bundle inputs, mk_operator builds one primitive whose rate
      and single output rate are the fastest input's, at least Kr. */
  lemma OperatorPlain(name: Name, inputs: seq<Ugen>, sp: int)
    requires InputsOk(inputs) && !HasMce(inputs)
    ensures var m := FilterRate(inputs);
      && MkOperator(name, inputs, sp) == Primitive(Prim(name, inputs, [m], sp, 0, m))
      && RateId(Kr) <= RateId(m)
      && forall i :: 0 <= i < |inputs| ==> RateId(RateOf(inputs[i])) <= RateId(m)
  {
    MkUgenPlain(FilterRate(inputs), name, inputs, [FilterRate(inputs)], 0, sp);
  }

  /** What mk_ugen builds is never a constant. */
  lemma MadeOfNotConstant(u: Ugen, h: Prim)
    requires MadeOf(u, h)
    ensures !u.FConst? && !u.IConst?
  {
  }

  /** A unary operator folds exactly the constant unit generators: its
      result is a float constant if and only if the operand is one. */
  lemma UnaryFoldsConstants<D>(cv: Doubles<D>, sp: int, fun: D -> D, op: Operand<D>)
    requires OperandOk(op) && !op.Foreign?
    ensures MkUnaryOperator(cv, sp, fun, op).value.FConst?
      <==> op.Node? && (op.u.IConst? || op.u.FConst?)
  {
    match op
    case Lit(n) =>
      MadeOfNotConstant(MkOperator(UNARY_OP, [FConst(cv.narrow(n))], sp), Prim(UNARY_OP, [], [Kr], sp, 0, Kr));
    case Node(u) =>
      if !(u.IConst? || u.FConst?) {
        var m := FilterRate([u]);
        MadeOfNotConstant(MkOperator(UNARY_OP, [u], sp), Prim(UNARY_OP, [], [m], sp, 0, m));
      }
  }

  /** A literal operand is never folded: it becomes a control rate
      UnaryOpUgen over the literal narrowed to a float constant. */
  lemma UnaryOfLiteral<D>(cv: Doubles<D>, sp: int, fun: D -> D, n: D)
    ensures MkUnaryOperator(cv, sp, fun, Lit(n))
      == Some(Primitive(Prim(UNARY_OP, [FConst(cv.narrow(n))], [Kr], sp, 0, Kr)))
  {
    var ins := [FConst(cv.narrow(n))];
    assert Rates(ins) == [Kr];
    OperatorPlain(UNARY_OP, ins, sp);
  }

  /** A binary operator folds exactly when both operands are constant unit
      generators. */
  lemma BinaryFoldsConstants<D>(cv: Doubles<D>, sp: int, fun: (D, D) -> D, op1: Operand<D>, op2: Operand<D>)
    requires OperandOk(op1) && OperandOk(op2) && !op1.Foreign? && !op2.Foreign?
    ensures MkBinaryOperator(cv, sp, fun, op1, op2).value.FConst?
      <==> op1.Node? && op2.Node? && ConstValue(cv, op1.u).Some? && ConstValue(cv, op2.u).Some?
  {
    var r := MkBinaryOperator(cv, sp, fun, op1, op2).value;
    if !(op1.Node? && op2.Node? && ConstValue(cv, op1.u).Some? && ConstValue(cv, op2.u).Some?) {
      var ins: seq<Ugen>;
      if op1.Lit? {
        ins := [FConst(cv.narrow(op1.num)), if op2.Lit? then FConst(cv.narrow(op2.num)) else op2.u];
      } else if op2.Lit? {
        ins := [FConst(cv.narrow(op2.num)), op1.u];
      } else {
        ins := [op1.u, op2.u];
      }
      assert r == MkOperator(BINARY_OP, ins, sp);
      var m := FilterRate(ins);
      MadeOfNotConstant(r, Prim(BINARY_OP, [], [m], sp, 0, m));
    }
  }

  /** A unit generator and a literal give the same operator in either
      order: the literal always comes first among the inputs. */
  lemma BinaryLiteralFirst<D>(cv: Doubles<D>, sp: int, fun: (D, D) -> D, u: Ugen, n: D)
    requires InputOk(u)
    ensures MkBinaryOperator(cv, sp, fun, Node(u), Lit(n)) == MkBinaryOperator(cv, sp, fun, Lit(n), Node(u))
    ensures MkBinaryOperator(cv, sp, fun, Node(u), Lit(n)) == Some(MkOperator(BINARY_OP, [FConst(cv.narrow(n)), u], sp))
  {
  }

  /** Two unit generators that are not both constant keep their order. */
  lemma BinaryKeepsOrder<D>(cv: Doubles<D>, sp: int, fun: (D, D) -> D, u1: Ugen, u2: Ugen)
    requires InputOk(u1) && InputOk(u2) && !u1.Mce? && !u2.Mce?
    requires !(u1.IConst? || u1.FConst?) || !(u2.IConst? || u2.FConst?)
    ensures var m := FilterRate([u1, u2]);
      MkBinaryOperator(cv, sp, fun, Node(u1), Node(u2))
        == Some(Primitive(Prim(BINARY_OP, [u1, u2], [m], sp, 0, m)))
  {
    OperatorPlain(BINARY_OP, [u1, u2], sp);
  }
}

=== FILE: osc.dfy ===
/** Big-endian byte encoders and decoders used by the SynthDef writer
    (src/osc.rs). Integers are unbounded here; the source's `i32` inputs
    and its `& 0xff` masks become explicit reductions modulo 2^8, 2^16 and
    2^32. A decoder that would index past the end of its buffer (a Rust
    panic) returns None. */
module Osc {
  import opened Arith

  datatype Option<+T> = None | Some(value: T)

  /** One byte of an encoded buffer. */
  type uint8 = x: int | 0 <= x < 256

  type Bytes = seq<uint8>

  const TWO8: int := 0x100
  const TWO16: int := 0x1_0000
  const TWO24: int := 0x100_0000
  const TWO31: int := 0x8000_0000
  const TWO32: int := 0x1_0000_0000

  /** The byte `k` (0 = least significant) of the two's-complement form of `x`. */
  function ByteOf(x: int, k: nat): (b: uint8)
    requires k < 4
  {
    if k == 0 then x % TWO8
    else if k == 1 then (x / TWO8) % TWO8
    else if k == 2 then (x / TWO16) % TWO8
    else (x / TWO24) % TWO8
  }

  /** Reinterprets an unsigned 32-bit word as an `i32` (Rust's `u32 as i32`). */
  function ToI32(w: int): (r: int)
    requires 0 <= w < TWO32
    ensures -TWO31 <= r < TWO31
    ensures (r - w) % TWO32 == 0
  {
    if w >= TWO31 then w - TWO32 else w
  }

  /** Reinterprets the low 16 bits of `w` as a signed 16-bit value. */
  function ToI16(w: int): (r: int)
    requires 0 <= w < TWO16
    ensures -0x8000 <= r < 0x8000
    ensures (r - w) % TWO16 == 0
  {
    if w >= 0x8000 then w - TWO16 else w
  }

  /** encode_i8: the single byte `num & 0xff`. */
  function EncodeI8(num: int): (r: Bytes)
    ensures |r| == 1
    ensures (r[0] - num) % TWO8 == 0
  {
    [ByteOf(num, 0)]
  }

  lemma {:induction false} LowTwoBytes(x: int)
    ensures (ByteOf(x, 1) * TWO8 + ByteOf(x, 0) - x) % TWO16 == 0
  {
    var q := x / TWO8;
    assert x == q * TWO8 + ByteOf(x, 0);
    var q2 := q / TWO8;
    assert q == q2 * TWO8 + ByteOf(x, 1);
    assert x == q2 * TWO16 + ByteOf(x, 1) * TWO8 + ByteOf(x, 0);
  }

  lemma {:induction false} FourBytes(x: int)
    ensures (ByteOf(x, 3) * TWO24 + ByteOf(x, 2) * TWO16 + ByteOf(x, 1) * TWO8 + ByteOf(x, 0) - x) % TWO32 == 0
  {
    var q1 := x / TWO8;
    assert x == q1 * TWO8 + ByteOf(x, 0);
    var q2 := q1 / TWO8;
    assert q1 == q2 * TWO8 + ByteOf(x, 1);
    assert q2 == x / TWO16 by {
      assert x == q2 * TWO16 + ByteOf(x, 1) * TWO8 + ByteOf(x, 0);
      assert 0 <= ByteOf(x, 1) * TWO8 + ByteOf(x, 0) < TWO16;
    }
    var q3 := q2 / TWO8;
    assert q2 == q3 * TWO8 + ByteOf(x, 2);
    assert q3 == x / TWO24 by {
      assert x == q3 * TWO24 + ByteOf(x, 2) * TWO16 + ByteOf(x, 1) * TWO8 + ByteOf(x, 0);
      assert 0 <= ByteOf(x, 2) * TWO16 + ByteOf(x, 1) * TWO8 + ByteOf(x, 0) < TWO24;
    }
    var q4 := q3 / TWO8;
    assert q3 == q4 * TWO8 + ByteOf(x, 3);
    assert x == q4 * TWO32 + ByteOf(x, 3) * TWO24 + ByteOf(x, 2) * TWO16 + ByteOf(x, 1) * TWO8 + ByteOf(x, 0);
  }

  /** encode_i16: the low 16 bits of `num`, most significant byte first. */
  function EncodeI16(num: int): (r: Bytes)
    ensures |r| == 2
    ensures (r[0] * TWO8 + r[1] - num) % TWO16 == 0
  {
    LowTwoBytes(num);
    [ByteOf(num, 1), ByteOf(num, 0)]
  }

  /** encode_i32: the low 32 bits of `num`, most significant byte first. */
  function EncodeI32(num: int): (r: Bytes)
    ensures |r| == 4
    ensures (r[0] * TWO24 + r[1] * TWO16 + r[2] * TWO8 + r[3] - num) % TWO32 == 0
  {
    FourBytes(num);
    [ByteOf(num, 3), ByteOf(num, 2), ByteOf(num, 1), ByteOf(num, 0)]
  }

  /** encode_f32 applied to the bit pattern `bits` (what `to_bits` returns):
      the pattern's four bytes, most significant first. */
  function EncodeWord(bits: int): (r: Bytes)
    requires 0 <= bits < TWO32
    ensures |r| == 4
    ensures r[0] * TWO24 + r[1] * TWO16 + r[2] * TWO8 + r[3] == bits
  {
    WordBytes(bits);
    [ByteOf(bits, 3), ByteOf(bits, 2), ByteOf(bits, 1), ByteOf(bits, 0)]
  }

  /** encode_f32 writes the same bytes encode_i32 writes for the word
      read as an i32. */
  lemma EncodeWordIsEncodeI32(bits: int)
    requires 0 <= bits < TWO32
    ensures EncodeWord(bits) == EncodeI32(ToI32(bits))
  {
    WordBytes(bits);
  }

  lemma WordBytes(bits: int)
    requires 0 <= bits < TWO32
    ensures ByteOf(bits, 3) * TWO24 + ByteOf(bits, 2) * TWO16 + ByteOf(bits, 1) * TWO8 + ByteOf(bits, 0) == bits
    ensures [ByteOf(bits, 3), ByteOf(bits, 2), ByteOf(bits, 1), ByteOf(bits, 0)] == EncodeI32(ToI32(bits))
  {
    FourBytes(bits);
    if bits >= TWO31 {
      ByteOfShift(bits, 0);
      ByteOfShift(bits, 1);
      ByteOfShift(bits, 2);
      ByteOfShift(bits, 3);
    }
    assert bits % TWO32 == bits;
    ModUnique32(ByteOf(bits, 3) * TWO24 + ByteOf(bits, 2) * TWO16 + ByteOf(bits, 1) * TWO8 + ByteOf(bits, 0), bits);
  }

  /** decode_i16: the first two bytes read as an unsigned big-endian number;
      a buffer shorter than two bytes panics (None). */
  function DecodeI16(buf: Bytes): (r: Option<int>)
    ensures r.Some? <==> |buf| >= 2
    ensures r.Some? ==> 0 <= r.value < TWO16
  {
    if |buf| < 2 then None else Some(buf[0] * TWO8 + buf[1])
  }

  /** decode_i32 AS WRITTEN: buf[0] lands in bits 8-15, buf[1] in bits
      16-23, buf[2] in bits 24-31 and buf[3] in bits 0-7, then the word is
      reinterpreted as an i32. A buffer shorter than four bytes panics. */
  function DecodeI32(buf: Bytes): (r: Option<int>)
    ensures r.Some? <==> |buf| >= 4
    ensures r.Some? ==> -TWO31 <= r.value < TWO31
  {
    if |buf| < 4 then None
    else Some(ToI32(buf[2] * TWO24 + buf[1] * TWO16 + buf[0] * TWO8 + buf[3]))
  }

  /** The big-endian reading decode_i32 was evidently meant to perform; it
      is the decoder the SynthDef reader of this model uses. */
  function DecodeI32BigEndian(buf: Bytes): (r: Option<int>)
    ensures r.Some? <==> |buf| >= 4
    ensures r.Some? ==> -TWO31 <= r.value < TWO31
  {
    if |buf| < 4 then None
    else Some(ToI32(buf[0] * TWO24 + buf[1] * TWO16 + buf[2] * TWO8 + buf[3]))
  }

  /** encode_str: the string's bytes, unchanged, with no terminator. */
  function EncodeStr(s: Bytes): (r: Bytes)
    ensures |r| == |s|
    ensures forall i :: 0 <= i < |s| ==> r[i] == s[i]
  {
    s
  }

  /** str_pstr: a one-byte length prefix followed by the bytes; the length
      is cast with `as u8`, so it silently wraps modulo 256. */
  function StrPstr(s: Bytes): (r: Bytes)
    ensures |r| == |s| + 1
    ensures (r[0] - |s|) % TWO8 == 0
    ensures r[1..] == s
  {
    [|s| % TWO8] + s
  }

  // ---------------------------------------------------------------------
  // Properties
  // ---------------------------------------------------------------------

  /** The decoders only look at the first two or four bytes. */
  lemma DecodersReadPrefixOnly(buf: Bytes)
    ensures |buf| >= 2 ==> DecodeI16(buf) == DecodeI16(buf[..2])
    ensures |buf| >= 4 ==> DecodeI32(buf) == DecodeI32(buf[..4])
    ensures |buf| >= 4 ==> DecodeI32BigEndian(buf) == DecodeI32BigEndian(buf[..4])
  {
  }

  /** decode_i16 after encode_i16 gives back `x` reduced modulo 2^16. */
  lemma {:induction false} DecodeEncodeI16(x: int)
    ensures DecodeI16(EncodeI16(x)) == Some(x % TWO16)
  {
    var b := EncodeI16(x);
    var v := b[0] * TWO8 + b[1];
    assert 0 <= v < TWO16;
    assert (v - x) % TWO16 == 0;
    ModUnique16(v, x);
  }

  lemma ModUnique16(v: int, x: int)
    requires 0 <= v < TWO16 && (v - x) % TWO16 == 0
    ensures v == x % TWO16
  {
    var k := (v - x) / TWO16;
    assert x == (-k) * TWO16 + v;
  }

  lemma ModUnique32(v: int, x: int)
    requires 0 <= v < TWO32 && (v - x) % TWO32 == 0
    ensures v == x % TWO32
  {
    var k := (v - x) / TWO32;
    assert x == (-k) * TWO32 + v;
  }

  /** Shifting by 2^32 does not change any of the four low bytes. */
  lemma ByteOfShift(x: int, k: nat)
    requires k < 4
    ensures ByteOf(x - TWO32, k) == ByteOf(x, k)
  {
    var d := if k == 0 then 1 else if k == 1 then TWO8 else if k == 2 then TWO16 else TWO24;
    var q, r := x / d, x % d;
    assert x == q * d + r;
    var c := TWO32 / d;
    assert c * d == TWO32;
    assert x - TWO32 == (q - c) * d + r;
    DivModUnique(x - TWO32, d, q - c, r);
    var b := (q - c) % TWO8;
    assert q - c == ((q - c) / TWO8) * TWO8 + b;
    assert c % TWO8 == 0;
    DivModUnique(q, TWO8, (q - c) / TWO8 + c / TWO8, b);
  }

  /** The corrected decoder inverts encode_i32 on every i32. */
  lemma {:induction false} DecodeI32BigEndianRoundTrip(x: int)
    requires -TWO31 <= x < TWO31
    ensures DecodeI32BigEndian(EncodeI32(x)) == Some(x)
  {
    FourBytes(x);
    var w := ByteOf(x, 3) * TWO24 + ByteOf(x, 2) * TWO16 + ByteOf(x, 1) * TWO8 + ByteOf(x, 0);
    ModUnique32(w, x);
    ToI32Inverse(x);
  }

  /** An i32 survives the trip through its unsigned 32-bit word. */
  lemma ToI32Inverse(x: int)
    requires -TWO31 <= x < TWO31
    ensures ToI32(x % TWO32) == x
  {
    if x < 0 {
      assert x % TWO32 == x + TWO32;
    }
  }

  /** decode_i32 as written inverts encode_i32 exactly on the i32 values
      whose second and fourth most significant bytes agree. */
  lemma {:induction false} DecodeI32RoundTripIff(x: int)
    requires -TWO31 <= x < TWO31
    ensures DecodeI32(EncodeI32(x)) == Some(x) <==> ByteOf(x, 1) == ByteOf(x, 3)
  {
    FourBytes(x);
    var w := ByteOf(x, 3) * TWO24 + ByteOf(x, 2) * TWO16 + ByteOf(x, 1) * TWO8 + ByteOf(x, 0);
    var w' := ByteOf(x, 1) * TWO24 + ByteOf(x, 2) * TWO16 + ByteOf(x, 3) * TWO8 + ByteOf(x, 0);
    ModUnique32(w, x);
    ToI32Inverse(x);
    assert DecodeI32(EncodeI32(x)) == Some(ToI32(w'));
    assert w - w' == (ByteOf(x, 3) - ByteOf(x, 1)) * (TWO24 - TWO8);
    if ToI32(w') == x {
      assert w' == w;
    }
  }

  /** The smallest witness: 256 encodes as [0, 0, 1, 0] and decodes as 2^24. */
  lemma DecodeI32Of256()
    ensures EncodeI32(256) == [0, 0, 1, 0]
    ensures DecodeI32(EncodeI32(256)) == Some(0x100_0000)
    ensures DecodeI32BigEndian(EncodeI32(256)) == Some(256)
  {
    DecodeI32BigEndianRoundTrip(256);
  }
}

=== FILE: reader.dfy ===
/** A SynthDef file as the data it describes, with a writer and a reader
    for it. The reader is this model's own: the source only writes files.
    It reads counts the way decode_i16 does (unsigned), signed 16-bit
    fields through the same two bytes, and the version word with the
    corrected big-endian decoder. The encoder of src/sc3.rs is shown to
    write exactly what the writer writes for the graph's view, and the
    reader to give that view back. */
module Reader {
  import opened Arith
  import opened Osc
  import opened Float32
  import opened Ugens
  import opened Compiler
  import opened Encoder

  /** A unit generator entry: the rate and output rates are their codes. */
  datatype UgenSpec = UgenSpec(name: Name, rate: int, inputs: seq<Input>, outputs: seq<int>, special: int)

  /** A control's name and the position of the control it names. */
  datatype ParamName = ParamName(name: Name, index: int)

  datatype GraphDef = GraphDef(name: Name, constants: seq<F32>, defaults: seq<F32>, params: seq<ParamName>, ugens: seq<UgenSpec>)

  lemma Assoc(a: Bytes, b: Bytes, c: Bytes)
    ensures (a + b) + c == a + (b + c)
  {
  }

  // ---------------------------------------------------------------------
  // Fields
  // ---------------------------------------------------------------------

  lemma {:induction false} Digits2(a0: int, a1: int, b0: int, b1: int)
    requires 0 <= a0 < TWO8 && 0 <= a1 < TWO8 && 0 <= b0 < TWO8 && 0 <= b1 < TWO8
    requires a0 * TWO8 + a1 == b0 * TWO8 + b1
    ensures a0 == b0 && a1 == b1
  {
    DivModUnique(a0 * TWO8 + a1, TWO8, a0, a1);
    DivModUnique(b0 * TWO8 + b1, TWO8, b0, b1);
  }

  lemma {:induction false} Digits4(a: seq<int>, b: seq<int>)
    requires |a| == 4 && |b| == 4
    requires forall i :: 0 <= i < 4 ==> 0 <= a[i] < TWO8 && 0 <= b[i] < TWO8
    requires a[0] * TWO24 + a[1] * TWO16 + a[2] * TWO8 + a[3] == b[0] * TWO24 + b[1] * TWO16 + b[2] * TWO8 + b[3]
    ensures a == b
  {
    var x := a[0] * TWO24 + a[1] * TWO16 + a[2] * TWO8 + a[3];
    DivModUnique(x, TWO8, a[0] * TWO16 + a[1] * TWO8 + a[2], a[3]);
    DivModUnique(x, TWO8, b[0] * TWO16 + b[1] * TWO8 + b[2], b[3]);
    var y := x / TWO8;
    DivModUnique(y, TWO8, a[0] * TWO8 + a[1], a[2]);
    DivModUnique(y, TWO8, b[0] * TWO8 + b[1], b[2]);
    Digits2(a[0], a[1], b[0], b[1]);
  }

  /** encode_i16 writes the same two bytes for numbers that agree modulo
      2^16. */
  lemma {:induction false} EncodeI16Congruent(x: int, y: int)
    requires (x - y) % TWO16 == 0
    ensures EncodeI16(x) == EncodeI16(y)
  {
    var r, s := EncodeI16(x), EncodeI16(y);
    ModUnique16(r[0] * TWO8 + r[1], x);
    ModUnique16(s[0] * TWO8 + s[1], y);
    assert x % TWO16 == y % TWO16 by {
      DivModUnique(x, TWO16, y / TWO16 + (x - y) / TWO16, y % TWO16);
    }
    Digits2(r[0], r[1], s[0], s[1]);
  }

  lemma {:induction false} EncodeI16Of(b0: uint8, b1: uint8)
    ensures EncodeI16(b0 * TWO8 + b1) == [b0, b1]
  {
    var r := EncodeI16(b0 * TWO8 + b1);
    ModUnique16(r[0] * TWO8 + r[1], b0 * TWO8 + b1);
    Digits2(r[0], r[1], b0, b1);
  }

  lemma {:induction false} EncodeWordOf(b: Bytes)
    requires |b| == 4
    ensures 0 <= b[0] * TWO24 + b[1] * TWO16 + b[2] * TWO8 + b[3] < TWO32
    ensures EncodeWord(b[0] * TWO24 + b[1] * TWO16 + b[2] * TWO8 + b[3]) == b
  {
    var r := EncodeWord(b[0] * TWO24 + b[1] * TWO16 + b[2] * TWO8 + b[3]);
    Digits4(r, b);
  }

  /** One byte, as encode_i8 writes a code below 256. */
  function ReadByte(buf: Bytes): (r: Option<(int, Bytes)>)
    ensures r.Some? <==> |buf| >= 1
    ensures r.Some? ==> 0 <= r.value.0 < TWO8 && EncodeI8(r.value.0) + r.value.1 == buf
  {
    if |buf| < 1 then None else Some((buf[0] as int, buf[1..]))
  }

  /** An unsigned 16-bit number, read by decode_i16. */
  function ReadU16(buf: Bytes): (r: Option<(int, Bytes)>)
    ensures r.Some? <==> |buf| >= 2
    ensures r.Some? ==> 0 <= r.value.0 < TWO16 && EncodeI16(r.value.0) + r.value.1 == buf
  {
    match DecodeI16(buf)
    case None => None
    case Some(v) =>
      EncodeI16Of(buf[0], buf[1]);
      Some((v, buf[2..]))
  }

  /** A signed 16-bit number: the same two bytes, read in two's
      complement. */
  function ReadI16(buf: Bytes): (r: Option<(int, Bytes)>)
    ensures r.Some? <==> |buf| >= 2
    ensures r.Some? ==> -0x8000 <= r.value.0 < 0x8000 && EncodeI16(r.value.0) + r.value.1 == buf
  {
    match ReadU16(buf)
    case None => None
    case Some((v, rest)) =>
      EncodeI16Congruent(ToI16(v), v);
      Some((ToI16(v), rest))
  }

  /** A signed 32-bit number, read big-endian. */
  function ReadI32(buf: Bytes): (r: Option<(int, Bytes)>)
    ensures r.Some? <==> |buf| >= 4
    ensures r.Some? ==> EncodeI32(r.value.0) + r.value.1 == buf
  {
    match DecodeI32BigEndian(buf)
    case None => None
    case Some(v) =>
      EncodeWordOf(buf[..4]);
      EncodeWordIsEncodeI32(buf[0] * TWO24 + buf[1] * TWO16 + buf[2] * TWO8 + buf[3]);
      assert buf == buf[..4] + buf[4..];
      Some((v, buf[4..]))
  }

  /** A float as encode_f32 writes it. */
  function WriteWord(f: F32): (r: Bytes)
    ensures |r| == 4
  {
    EncodeWord(f.bits)
  }

  /** A float, as its bit pattern. */
  function ReadWord(buf: Bytes): (r: Option<(F32, Bytes)>)
    ensures r.Some? <==> |buf| >= 4
    ensures r.Some? ==> WriteWord(r.value.0) + r.value.1 == buf
  {
    if |buf| < 4 then None
    else
      EncodeWordOf(buf[..4]);
      Some((F32(buf[0] * TWO24 + buf[1] * TWO16 + buf[2] * TWO8 + buf[3]), buf[4..]))
  }

  /** A string with a one-byte length prefix. */
  function ReadPstr(buf: Bytes): (r: Option<(Name, Bytes)>)
    ensures r.Some? <==> |buf| >= 1 && |buf| >= 1 + buf[0] as int
    ensures r.Some? ==> |r.value.0| < TWO8 && StrPstr(r.value.0) + r.value.1 == buf
  {
    if |buf| < 1 || |buf| < 1 + buf[0] as int then None
    else
      var n := buf[0] as int;
      assert buf == [buf[0]] + buf[1..1 + n] + buf[1 + n..];
      Some((buf[1..1 + n], buf[1 + n..]))
  }

  predicate I16(x: int)
  {
    -0x8000 <= x < 0x8000
  }

  /** The entries the file format can hold: names below 256 bytes, codes
      below 256, counts below 2^16 and signed fields within 16 bits. */
  predicate InputFits(i: Input)
  {
    I16(i.u) && I16(i.p)
  }

  predicate ParamFits(p: ParamName)
  {
    |p.name| < TWO8 && I16(p.index)
  }

  predicate UgenFits(s: UgenSpec)
  {
    && |s.name| < TWO8 && 0 <= s.rate < TWO8 && |s.inputs| < TWO16 && |s.outputs| < TWO16 && I16(s.special)
    && (forall k :: 0 <= k < |s.inputs| ==> InputFits(s.inputs[k]))
    && (forall k :: 0 <= k < |s.outputs| ==> 0 <= s.outputs[k] < TWO8)
  }

  predicate DefFits(d: GraphDef)
  {
    && |d.name| < TWO8
    && |d.constants| < TWO16 && |d.defaults| < TWO16 && |d.params| < TWO16 && |d.ugens| < TWO16
    && (forall i :: 0 <= i < |d.params| ==> ParamFits(d.params[i]))
    && (forall j :: 0 <= j < |d.ugens| ==> UgenFits(d.ugens[j]))
  }

  lemma ReadByteWrite(x: int, rest: Bytes)
    requires 0 <= x < TWO8
    ensures ReadByte(EncodeI8(x) + rest) == Some((x, rest))
  {
    assert EncodeI8(x) == [x];
  }

  lemma ReadU16Write(x: int, rest: Bytes)
    requires 0 <= x < TWO16
    ensures ReadU16(EncodeI16(x) + rest) == Some((x, rest))
  {
    var buf := EncodeI16(x) + rest;
    DecodeEncodeI16(x);
    DecodersReadPrefixOnly(buf);
    assert buf[..2] == EncodeI16(x);
  }

  lemma ReadI16Write(x: int, rest: Bytes)
    requires I16(x)
    ensures ReadI16(EncodeI16(x) + rest) == Some((x, rest))
  {
    var w := x % TWO16;
    EncodeI16Congruent(x, w);
    ReadU16Write(w, rest);
    if x < 0 {
      assert w == x + TWO16;
    }
  }

  lemma ReadI32Write(x: int, rest: Bytes)
    requires -TWO31 <= x < TWO31
    ensures ReadI32(EncodeI32(x) + rest) == Some((x, rest))
  {
    var buf := EncodeI32(x) + rest;
    DecodeI32BigEndianRoundTrip(x);
    DecodersReadPrefixOnly(buf);
    assert buf[..4] == EncodeI32(x);
  }

  lemma ReadWordWrite(f: F32, rest: Bytes)
    ensures ReadWord(WriteWord(f) + rest) == Some((f, rest))
  {
    var b := WriteWord(f);
    assert (b + rest)[..4] == b;
  }

  lemma ReadPstrWrite(s: Name, rest: Bytes)
    requires |s| < TWO8
    ensures ReadPstr(StrPstr(s) + rest) == Some((s, rest))
  {
    var buf := StrPstr(s) + rest;
    assert buf[0] == |s|;
    assert buf[1..1 + |s|] == s;
    assert buf[1 + |s|..] == rest;
  }

  // ---------------------------------------------------------------------
  // Tables
  // ---------------------------------------------------------------------

  function WriteWords(ws: seq<F32>): (r: Bytes)
    ensures |r| == 4 * |ws|
  {
    if |ws| == 0 then [] else WriteWord(ws[0]) + WriteWords(ws[1..])
  }

  function WriteParam(p: ParamName): (r: Bytes)
    ensures |r| == |p.name| + 3
  {
    StrPstr(p.name) + EncodeI16(p.index)
  }

  function WriteParams(ps: seq<ParamName>): (r: Bytes)
    ensures |r| >= 3 * |ps|
  {
    if |ps| == 0 then [] else WriteParam(ps[0]) + WriteParams(ps[1..])
  }

  function WriteInputs(ins: seq<Input>): (r: Bytes)
    ensures |r| == 4 * |ins|
  {
    if |ins| == 0 then [] else EncodeInput(ins[0]) + WriteInputs(ins[1..])
  }

  function WriteCodes(cs: seq<int>): (r: Bytes)
    ensures |r| == |cs|
  {
    if |cs| == 0 then [] else EncodeI8(cs[0]) + WriteCodes(cs[1..])
  }

  function WriteUgen(s: UgenSpec): (r: Bytes)
    ensures |r| == |s.name| + 8 + 4 * |s.inputs| + |s.outputs|
  {
    StrPstr(s.name) + (EncodeI8(s.rate) + (EncodeI16(|s.inputs|) + (EncodeI16(|s.outputs|)
      + (EncodeI16(s.special) + (WriteInputs(s.inputs) + WriteCodes(s.outputs))))))
  }

  function WriteUgens(ss: seq<UgenSpec>): (r: Bytes)
    ensures |r| >= 8 * |ss|
  {
    if |ss| == 0 then [] else WriteUgen(ss[0]) + WriteUgens(ss[1..])
  }

  function ReadWords(n: nat, buf: Bytes): (r: Option<(seq<F32>, Bytes)>)
    ensures r.Some? ==> |r.value.0| == n && WriteWords(r.value.0) + r.value.1 == buf
  {
    if n == 0 then Some(([], buf))
    else
      match ReadWord(buf)
      case None => None
      case Some((w, b1)) =>
        match ReadWords(n - 1, b1)
        case None => None
        case Some((ws, b2)) =>
          Assoc(WriteWord(w), WriteWords(ws), b2);
          assert ([w] + ws)[1..] == ws;
          Some(([w] + ws, b2))
  }

  function ReadParam(buf: Bytes): (r: Option<(ParamName, Bytes)>)
    ensures r.Some? ==> ParamFits(r.value.0)
    ensures r.Some? ==> WriteParam(r.value.0) + r.value.1 == buf
  {
    match ReadPstr(buf)
    case None => None
    case Some((name, b1)) =>
      match ReadI16(b1)
      case None => None
      case Some((i, b2)) =>
        Assoc(StrPstr(name), EncodeI16(i), b2);
        Some((ParamName(name, i), b2))
  }

  function ReadParams(n: nat, buf: Bytes): (r: Option<(seq<ParamName>, Bytes)>)
    ensures r.Some? ==> |r.value.0| == n && WriteParams(r.value.0) + r.value.1 == buf
    ensures r.Some? ==> forall i :: 0 <= i < n ==> ParamFits(r.value.0[i])
  {
    if n == 0 then Some(([], buf))
    else
      match ReadParam(buf)
      case None => None
      case Some((p, b1)) =>
        match ReadParams(n - 1, b1)
        case None => None
        case Some((ps, b2)) =>
          Assoc(WriteParam(p), WriteParams(ps), b2);
          assert ([p] + ps)[1..] == ps;
          Some(([p] + ps, b2))
  }

  function ReadInput(buf: Bytes): (r: Option<(Input, Bytes)>)
    ensures r.Some? <==> |buf| >= 4
    ensures r.Some? ==> InputFits(r.value.0) && EncodeInput(r.value.0) + r.value.1 == buf
  {
    match ReadI16(buf)
    case None => None
    case Some((u, b1)) =>
      match ReadI16(b1)
      case None => None
      case Some((p, b2)) =>
        Assoc(EncodeI16(u), EncodeI16(p), b2);
        Some((Input(u, p), b2))
  }

  function ReadInputs(n: nat, buf: Bytes): (r: Option<(seq<Input>, Bytes)>)
    ensures r.Some? <==> |buf| >= 4 * n
    ensures r.Some? ==> |r.value.0| == n && WriteInputs(r.value.0) + r.value.1 == buf
    ensures r.Some? ==> forall k :: 0 <= k < n ==> InputFits(r.value.0[k])
  {
    if n == 0 then Some(([], buf))
    else
      match ReadInput(buf)
      case None => None
      case Some((i, b1)) =>
        match ReadInputs(n - 1, b1)
        case None => None
        case Some((ins, b2)) =>
          Assoc(EncodeInput(i), WriteInputs(ins), b2);
          assert ([i] + ins)[1..] == ins;
          Some(([i] + ins, b2))
  }

  function ReadCodes(n: nat, buf: Bytes): (r: Option<(seq<int>, Bytes)>)
    ensures r.Some? <==> |buf| >= n
    ensures r.Some? ==> |r.value.0| == n && WriteCodes(r.value.0) + r.value.1 == buf
    ensures r.Some? ==> forall k :: 0 <= k < n ==> 0 <= r.value.0[k] < TWO8
  {
    if n == 0 then Some(([], buf))
    else
      match ReadByte(buf)
      case None => None
      case Some((c, b1)) =>
        match ReadCodes(n - 1, b1)
        case None => None
        case Some((cs, b2)) =>
          Assoc(EncodeI8(c), WriteCodes(cs), b2);
          assert ([c] + cs)[1..] == cs;
          Some(([c] + cs, b2))
  }

  /** The fixed part of a unit generator entry: name, rate, the two counts
      and the special index. */
  function ReadUgenHead(buf: Bytes): (r: Option<(Name, int, int, int, int, Bytes)>)
    ensures r.Some? ==> var (name, rate, nin, nout, sp, rest) := r.value;
      StrPstr(name) + (EncodeI8(rate) + (EncodeI16(nin) + (EncodeI16(nout) + (EncodeI16(sp) + rest)))) == buf
      && |name| < TWO8 && 0 <= rate < TWO8 && 0 <= nin < TWO16 && 0 <= nout < TWO16 && I16(sp)
  {
    match ReadPstr(buf)
    case None => None
    case Some((name, b1)) =>
      match ReadByte(b1)
      case None => None
      case Some((rate, b2)) =>
        match ReadU16(b2)
        case None => None
        case Some((nin, b3)) =>
          match ReadU16(b3)
          case None => None
          case Some((nout, b4)) =>
            match ReadI16(b4)
            case None => None
            case Some((sp, b5)) =>
              Some((name, rate, nin, nout, sp, b5))
  }

  function ReadUgen(buf: Bytes): (r: Option<(UgenSpec, Bytes)>)
    ensures r.Some? ==> UgenFits(r.value.0) && WriteUgen(r.value.0) + r.value.1 == buf
  {
    match ReadUgenHead(buf)
    case None => None
    case Some((name, rate, nin, nout, sp, b5)) =>
      match ReadInputs(nin, b5)
      case None => None
      case Some((ins, b6)) =>
        match ReadCodes(nout, b6)
        case None => None
        case Some((outs, b7)) =>
          var s := UgenSpec(name, rate, ins, outs, sp);
          UgenLayout(s, b7);
          Some((s, b7))
  }

  /** The entry followed by more bytes, field by field. */
  lemma UgenLayout(s: UgenSpec, rest: Bytes)
    ensures WriteUgen(s) + rest ==
      StrPstr(s.name) + (EncodeI8(s.rate) + (EncodeI16(|s.inputs|) + (EncodeI16(|s.outputs|)
        + (EncodeI16(s.special) + (WriteInputs(s.inputs) + (WriteCodes(s.outputs) + rest))))))
  {
  }

  function ReadUgens(n: nat, buf: Bytes): (r: Option<(seq<UgenSpec>, Bytes)>)
    ensures r.Some? ==> |r.value.0| == n && WriteUgens(r.value.0) + r.value.1 == buf
    ensures r.Some? ==> forall j :: 0 <= j < n ==> UgenFits(r.value.0[j])
  {
    if n == 0 then Some(([], buf))
    else
      match ReadUgen(buf)
      case None => None
      case Some((s, b1)) =>
        match ReadUgens(n - 1, b1)
        case None => None
        case Some((ss, b2)) =>
          Assoc(WriteUgen(s), WriteUgens(ss), b2);
          assert ([s] + ss)[1..] == ss;
          Some(([s] + ss, b2))
  }

  // ---------------------------------------------------------------------
  // The file
  // ---------------------------------------------------------------------

  /** The four tables, each preceded by its length. */
  function WriteTables(d: GraphDef): (r: Bytes)
    ensures |r| >= 8 + 4 * |d.constants| + 4 * |d.defaults|
  {
    EncodeI16(|d.constants|) + (WriteWords(d.constants)
      + (EncodeI16(|d.defaults|) + (WriteWords(d.defaults)
      + (EncodeI16(|d.params|) + (WriteParams(d.params)
      + (EncodeI16(|d.ugens|) + WriteUgens(d.ugens)))))))
  }

  /** A file holding one definition: magic, version 0, count 1, the name
      and the tables. */
  function WriteDef(d: GraphDef): (r: Bytes)
    ensures |r| >= 19 + |d.name|
  {
    MAGIC + (EncodeI32(0) + (EncodeI16(1) + (StrPstr(d.name) + WriteTables(d))))
  }

  /** Magic, version 0 and count 1; then the name. */
  function ReadHeader(buf: Bytes): (r: Option<(Name, Bytes)>)
    ensures r.Some? ==> |r.value.0| < TWO8
    ensures r.Some? ==> MAGIC + (EncodeI32(0) + (EncodeI16(1) + (StrPstr(r.value.0) + r.value.1))) == buf
  {
    if |buf| < 4 || buf[..4] != MAGIC then None
    else
      match ReadI32(buf[4..])
      case None => None
      case Some((v, b1)) =>
        if v != 0 then None
        else
          match ReadI16(b1)
          case None => None
          case Some((c, b2)) =>
            if c != 1 then None
            else
              match ReadPstr(b2)
              case None => None
              case Some((name, b3)) =>
                assert buf == buf[..4] + buf[4..];
                Some((name, b3))
  }

  function ReadTables(name: Name, buf: Bytes): (r: Option<(GraphDef, Bytes)>)
    ensures r.Some? ==> r.value.0.name == name && WriteTables(r.value.0) + r.value.1 == buf
    ensures r.Some? ==> |name| < TWO8 ==> DefFits(r.value.0)
  {
    match ReadU16(buf)
    case None => None
    case Some((nc, b1)) =>
      match ReadWords(nc, b1)
      case None => None
      case Some((cs, b2)) =>
        match ReadU16(b2)
        case None => None
        case Some((nk, b3)) =>
          match ReadWords(nk, b3)
          case None => None
          case Some((ds, b4)) =>
            match ReadUnits(b4)
            case None => None
            case Some((ps, us, b8)) =>
              var d := GraphDef(name, cs, ds, ps, us);
              TablesLayout(d, b8);
              Some((d, b8))
  }

  /** The second half of the tables: the parameter names and the unit
      generators, each preceded by its count. */
  function ReadUnits(buf: Bytes): (r: Option<(seq<ParamName>, seq<UgenSpec>, Bytes)>)
    ensures r.Some? ==> var (ps, us, rest) := r.value;
      && EncodeI16(|ps|) + (WriteParams(ps) + (EncodeI16(|us|) + (WriteUgens(us) + rest))) == buf
      && |ps| < TWO16 && |us| < TWO16
      && (forall i :: 0 <= i < |ps| ==> ParamFits(ps[i]))
      && (forall j :: 0 <= j < |us| ==> UgenFits(us[j]))
  {
    match ReadU16(buf)
    case None => None
    case Some((np, b5)) =>
      match ReadParams(np, b5)
      case None => None
      case Some((ps, b6)) =>
        match ReadU16(b6)
        case None => None
        case Some((nu, b7)) =>
          match ReadUgens(nu, b7)
          case None => None
          case Some((us, b8)) =>
            Some((ps, us, b8))
  }

  lemma TablesLayout(d: GraphDef, rest: Bytes)
    ensures WriteTables(d) + rest ==
      EncodeI16(|d.constants|) + (WriteWords(d.constants)
        + (EncodeI16(|d.defaults|) + (WriteWords(d.defaults)
        + (EncodeI16(|d.params|) + (WriteParams(d.params)
        + (EncodeI16(|d.ugens|) + (WriteUgens(d.ugens) + rest)))))))
  {
  }

  /** The reader: a file holding exactly one definition and nothing after
      it. */
  function ReadDef(buf: Bytes): (r: Option<GraphDef>)
    ensures r.Some? ==> DefFits(r.value) && WriteDef(r.value) == buf
  {
    match ReadHeader(buf)
    case None => None
    case Some((name, b)) =>
      match ReadTables(name, b)
      case None => None
      case Some((d, rest)) =>
        if rest != [] then None
        else
          assert WriteTables(d) + rest == WriteTables(d);
          Some(d)
  }

  // ---------------------------------------------------------------------
  // Writing then reading
  // ---------------------------------------------------------------------

  lemma {:induction false} ReadWordsWrite(ws: seq<F32>, rest: Bytes)
    ensures ReadWords(|ws|, WriteWords(ws) + rest) == Some((ws, rest))
    decreases |ws|
  {
    if |ws| > 0 {
      var tl := ws[1..];
      ReadWordsWrite(tl, rest);
      ReadWordsCons(ws[0], tl, rest);
      assert [ws[0]] + tl == ws;
    } else {
      assert WriteWords(ws) + rest == rest;
    }
  }

  /** One more word in front of a list that reads back. */
  lemma ReadWordsCons(w: F32, tl: seq<F32>, rest: Bytes)
    requires ReadWords(|tl|, WriteWords(tl) + rest) == Some((tl, rest))
    ensures ReadWords(|tl| + 1, WriteWords([w] + tl) + rest) == Some(([w] + tl, rest))
  {
    var tail := WriteWords(tl) + rest;
    var buf := WriteWords([w] + tl) + rest;
    assert ([w] + tl)[1..] == tl;
    assert ReadWord(buf) == Some((w, tail)) by {
      Assoc(WriteWord(w), WriteWords(tl), rest);
      ReadWordWrite(w, tail);
    }
    ReadWordsStep(|tl| + 1, buf, w, tail, tl, rest);
  }

  lemma ReadWordsStep(n: nat, buf: Bytes, w: F32, b1: Bytes, ws: seq<F32>, b2: Bytes)
    requires n > 0 && ReadWord(buf) == Some((w, b1)) && ReadWords(n - 1, b1) == Some((ws, b2))
    ensures ReadWords(n, buf) == Some(([w] + ws, b2))
  {
  }

  lemma ReadParamWrite(p: ParamName, rest: Bytes)
    requires ParamFits(p)
    ensures ReadParam(WriteParam(p) + rest) == Some((p, rest))
  {
    Assoc(StrPstr(p.name), EncodeI16(p.index), rest);
    ReadPstrWrite(p.name, EncodeI16(p.index) + rest);
    ReadI16Write(p.index, rest);
  }

  lemma {:induction false} ReadParamsWrite(ps: seq<ParamName>, rest: Bytes)
    requires forall k :: 0 <= k < |ps| ==> ParamFits(ps[k])
    ensures ReadParams(|ps|, WriteParams(ps) + rest) == Some((ps, rest))
    decreases |ps|
  {
    if |ps| > 0 {
      var tl := ps[1..];
      forall k | 0 <= k < |tl| ensures ParamFits(tl[k]) {
        assert tl[k] == ps[k + 1];
      }
      ReadParamsWrite(tl, rest);
      ReadParamsCons(ps[0], tl, rest);
      assert [ps[0]] + tl == ps;
    } else {
      assert WriteParams(ps) + rest == rest;
    }
  }

  /** One more entry in front of a list that reads back. */
  lemma ReadParamsCons(x: ParamName, tl: seq<ParamName>, rest: Bytes)
    requires ParamFits(x)
    requires ReadParams(|tl|, WriteParams(tl) + rest) == Some((tl, rest))
    ensures ReadParams(|tl| + 1, WriteParams([x] + tl) + rest) == Some(([x] + tl, rest))
  {
    var tail := WriteParams(tl) + rest;
    var buf := WriteParams([x] + tl) + rest;
    assert ([x] + tl)[1..] == tl;
    assert ReadParam(buf) == Some((x, tail)) by {
      Assoc(WriteParam(x), WriteParams(tl), rest);
      ReadParamWrite(x, tail);
    }
  }

  lemma ReadInputWrite(i: Input, rest: Bytes)
    requires InputFits(i)
    ensures ReadInput(EncodeInput(i) + rest) == Some((i, rest))
  {
    Assoc(EncodeI16(i.u), EncodeI16(i.p), rest);
    ReadI16Write(i.u, EncodeI16(i.p) + rest);
    ReadI16Write(i.p, rest);
  }

  lemma {:induction false} ReadInputsWrite(ins: seq<Input>, rest: Bytes)
    requires forall k :: 0 <= k < |ins| ==> InputFits(ins[k])
    ensures ReadInputs(|ins|, WriteInputs(ins) + rest) == Some((ins, rest))
    decreases |ins|
  {
    if |ins| > 0 {
      var tl := ins[1..];
      forall k | 0 <= k < |tl| ensures InputFits(tl[k]) {
        assert tl[k] == ins[k + 1];
      }
      ReadInputsWrite(tl, rest);
      ReadInputsCons(ins[0], tl, rest);
      assert [ins[0]] + tl == ins;
    } else {
      assert WriteInputs(ins) + rest == rest;
    }
  }

  /** One more entry in front of a list that reads back. */
  lemma ReadInputsCons(x: Input, tl: seq<Input>, rest: Bytes)
    requires InputFits(x)
    requires ReadInputs(|tl|, WriteInputs(tl) + rest) == Some((tl, rest))
    ensures ReadInputs(|tl| + 1, WriteInputs([x] + tl) + rest) == Some(([x] + tl, rest))
  {
    var tail := WriteInputs(tl) + rest;
    var buf := WriteInputs([x] + tl) + rest;
    assert ([x] + tl)[1..] == tl;
    assert ReadInput(buf) == Some((x, tail)) by {
      Assoc(EncodeInput(x), WriteInputs(tl), rest);
      ReadInputWrite(x, tail);
    }
  }

  lemma {:induction false} ReadCodesWrite(cs: seq<int>, rest: Bytes)
    requires forall k :: 0 <= k < |cs| ==> 0 <= cs[k] < TWO8
    ensures ReadCodes(|cs|, WriteCodes(cs) + rest) == Some((cs, rest))
    decreases |cs|
  {
    if |cs| > 0 {
      var tl := cs[1..];
      assert forall k :: 0 <= k < |tl| ==> tl[k] == cs[k + 1];
      ReadCodesWrite(tl, rest);
      ReadCodesCons(cs[0], tl, rest);
      assert [cs[0]] + tl == cs;
    } else {
      assert WriteCodes(cs) + rest == rest;
    }
  }

  /** One more code in front of a list that reads back. */
  lemma ReadCodesCons(c: int, tl: seq<int>, rest: Bytes)
    requires 0 <= c < TWO8
    requires ReadCodes(|tl|, WriteCodes(tl) + rest) == Some((tl, rest))
    ensures ReadCodes(|tl| + 1, WriteCodes([c] + tl) + rest) == Some(([c] + tl, rest))
  {
    var tail := WriteCodes(tl) + rest;
    var buf := WriteCodes([c] + tl) + rest;
    assert ([c] + tl)[1..] == tl;
    assert ReadByte(buf) == Some((c, tail)) by {
      Assoc(EncodeI8(c), WriteCodes(tl), rest);
      ReadByteWrite(c, tail);
    }
  }

  lemma ReadUgenWrite(s: UgenSpec, rest: Bytes)
    requires UgenFits(s)
    ensures ReadUgen(WriteUgen(s) + rest) == Some((s, rest))
  {
    UgenLayout(s, rest);
    var tail := WriteInputs(s.inputs) + (WriteCodes(s.outputs) + rest);
    var t4 := EncodeI16(s.special) + tail;
    var t3 := EncodeI16(|s.outputs|) + t4;
    var t2 := EncodeI16(|s.inputs|) + t3;
    var t1 := EncodeI8(s.rate) + t2;
    ReadPstrWrite(s.name, t1);
    ReadByteWrite(s.rate, t2);
    ReadU16Write(|s.inputs|, t3);
    ReadU16Write(|s.outputs|, t4);
    ReadI16Write(s.special, tail);
    assert ReadUgenHead(WriteUgen(s) + rest) == Some((s.name, s.rate, |s.inputs|, |s.outputs|, s.special, tail));
    ReadInputsWrite(s.inputs, WriteCodes(s.outputs) + rest);
    ReadCodesWrite(s.outputs, rest);
  }

  lemma {:induction false} ReadUgensWrite(ss: seq<UgenSpec>, rest: Bytes)
    requires forall j :: 0 <= j < |ss| ==> UgenFits(ss[j])
    ensures ReadUgens(|ss|, WriteUgens(ss) + rest) == Some((ss, rest))
    decreases |ss|
  {
    if |ss| > 0 {
      var tl := ss[1..];
      forall j | 0 <= j < |tl| ensures UgenFits(tl[j]) {
        assert tl[j] == ss[j + 1];
      }
      ReadUgensWrite(tl, rest);
      ReadUgensCons(ss[0], tl, rest);
      assert [ss[0]] + tl == ss;
    } else {
      assert WriteUgens(ss) + rest == rest;
    }
  }

  /** One more entry in front of a list that reads back. */
  lemma ReadUgensCons(s: UgenSpec, tl: seq<UgenSpec>, rest: Bytes)
    requires UgenFits(s)
    requires ReadUgens(|tl|, WriteUgens(tl) + rest) == Some((tl, rest))
    ensures ReadUgens(|tl| + 1, WriteUgens([s] + tl) + rest) == Some(([s] + tl, rest))
  {
    var tail := WriteUgens(tl) + rest;
    var buf := WriteUgens([s] + tl) + rest;
    assert ([s] + tl)[1..] == tl;
    assert ReadUgen(buf) == Some((s, tail)) by {
      Assoc(WriteUgen(s), WriteUgens(tl), rest);
      ReadUgenWrite(s, tail);
    }
    ReadUgensStep(|tl| + 1, buf, s, tail, tl, rest);
  }

  lemma ReadUgensStep(n: nat, buf: Bytes, s: UgenSpec, b1: Bytes, ss: seq<UgenSpec>, b2: Bytes)
    requires n > 0 && ReadUgen(buf) == Some((s, b1)) && ReadUgens(n - 1, b1) == Some((ss, b2))
    ensures ReadUgens(n, buf) == Some(([s] + ss, b2))
  {
  }

  lemma ReadHeaderWrite(name: Name, rest: Bytes)
    requires |name| < TWO8
    ensures ReadHeader(MAGIC + (EncodeI32(0) + (EncodeI16(1) + (StrPstr(name) + rest)))) == Some((name, rest))
  {
    var b2 := StrPstr(name) + rest;
    var b1 := EncodeI16(1) + b2;
    var buf := MAGIC + (EncodeI32(0) + b1);
    assert buf[..4] == MAGIC && buf[4..] == EncodeI32(0) + b1;
    ReadI32Write(0, b1);
    ReadI16Write(1, b2);
    ReadPstrWrite(name, rest);
  }

  lemma ReadTablesWrite(d: GraphDef, rest: Bytes)
    requires DefFits(d)
    ensures ReadTables(d.name, WriteTables(d) + rest) == Some((d, rest))
  {
    TablesLayout(d, rest);
    var b4 := EncodeI16(|d.params|) + (WriteParams(d.params) + (EncodeI16(|d.ugens|) + (WriteUgens(d.ugens) + rest)));
    var b3 := WriteWords(d.defaults) + b4;
    var b2 := EncodeI16(|d.defaults|) + b3;
    var b1 := WriteWords(d.constants) + b2;
    assert ReadU16(WriteTables(d) + rest) == Some((|d.constants|, b1)) by {
      ReadU16Write(|d.constants|, b1);
    }
    assert ReadWords(|d.constants|, b1) == Some((d.constants, b2)) by {
      ReadWordsWrite(d.constants, b2);
    }
    assert ReadU16(b2) == Some((|d.defaults|, b3)) by {
      ReadU16Write(|d.defaults|, b3);
    }
    assert ReadWords(|d.defaults|, b3) == Some((d.defaults, b4)) by {
      ReadWordsWrite(d.defaults, b4);
    }
    ReadUnitsWrite(d.params, d.ugens, rest);
  }

  lemma ReadUnitsWrite(ps: seq<ParamName>, us: seq<UgenSpec>, rest: Bytes)
    requires |ps| < TWO16 && |us| < TWO16
    requires forall i :: 0 <= i < |ps| ==> ParamFits(ps[i])
    requires forall j :: 0 <= j < |us| ==> UgenFits(us[j])
    ensures ReadUnits(EncodeI16(|ps|) + (WriteParams(ps) + (EncodeI16(|us|) + (WriteUgens(us) + rest))))
      == Some((ps, us, rest))
  {
    var b7 := WriteUgens(us) + rest;
    var b6 := EncodeI16(|us|) + b7;
    var b5 := WriteParams(ps) + b6;
    ReadU16Write(|ps|, b5);
    ReadParamsWrite(ps, b6);
    ReadU16Write(|us|, b7);
    ReadUgensWrite(us, rest);
  }

  /** Reading gives back every definition the format can hold. */
  lemma ReadDefWrite(d: GraphDef)
    requires DefFits(d)
    ensures ReadDef(WriteDef(d)) == Some(d)
  {
    var b := WriteTables(d);
    ReadHeaderWrite(d.name, b);
    assert b + [] == b;
    ReadTablesWrite(d, []);
    ReadDefSteps(WriteDef(d), b, d);
  }

  lemma ReadDefSteps(buf: Bytes, b: Bytes, d: GraphDef)
    requires ReadHeader(buf) == Some((d.name, b)) && ReadTables(d.name, b) == Some((d, []))
    ensures ReadDef(buf) == Some(d)
  {
  }

  /** The reader accepts a file exactly when it is the written form of a
      definition the format can hold, and then returns that definition. */
  lemma ReadDefIff(buf: Bytes, d: GraphDef)
    ensures ReadDef(buf) == Some(d) <==> DefFits(d) && WriteDef(d) == buf
  {
    if DefFits(d) && WriteDef(d) == buf {
      ReadDefWrite(d);
    }
  }

  // ---------------------------------------------------------------------
  // What encode_graphdef writes
  // ---------------------------------------------------------------------

  /** A unit generator as the file describes it, its inputs translated by
      mk_input. */
  function SpecOf(mp: MMap, n: NodeU): UgenSpec
    requires forall k :: 0 <= k < |n.inputs| ==> IsPort(n.inputs[k])
  {
    UgenSpec(n.name, RateId(n.rate),
      seq(|n.inputs|, k requires 0 <= k < |n.inputs| => MkInput(mp, n.inputs[k]).value),
      seq(|n.outputs|, k requires 0 <= k < |n.outputs| => RateId(n.outputs[k])),
      n.special)
  }

  /** The definition a graph describes: constant values, control defaults
      (`def` promoted to a float), control names with the control's
      position, and the unit generators. */
  function View(name: Name, g: Graph): GraphDef
    requires Encodable(g)
  {
    var mp := MkMap(g);
    GraphDef(name,
      seq(|g.constants|, i requires 0 <= i < |g.constants| => g.constants[i].value),
      seq(|g.controls|, i requires 0 <= i < |g.controls| => IntToF32(g.controls[i].def)),
      seq(|g.controls|, i requires 0 <= i < |g.controls| => ParamName(g.controls[i].name, Fetch(g.controls[i].id, mp.ks))),
      seq(|g.ugens|, j requires 0 <= j < |g.ugens| => SpecOf(mp, g.ugens[j])))
  }

  lemma {:induction false} ConstantsWritten(cs: seq<NodeC>, ws: seq<F32>)
    requires |ws| == |cs| && forall i :: 0 <= i < |cs| ==> ws[i] == cs[i].value
    ensures EncodeConstants(cs) == WriteWords(ws)
    decreases |cs|
  {
    if |cs| > 0 {
      ConstantsWritten(cs[1..], ws[1..]);
    }
  }

  lemma {:induction false} DefaultsWritten(ks: seq<NodeK>, ws: seq<F32>)
    requires |ws| == |ks| && forall i :: 0 <= i < |ks| ==> ws[i] == IntToF32(ks[i].def)
    ensures EncodeDefaults(ks) == WriteWords(ws)
    decreases |ks|
  {
    if |ks| > 0 {
      DefaultsWritten(ks[1..], ws[1..]);
    }
  }

  lemma {:induction false} ParamsWritten(mp: MMap, ks: seq<NodeK>, ps: seq<ParamName>)
    requires |ps| == |ks| && forall i :: 0 <= i < |ks| ==> ps[i] == ParamName(ks[i].name, Fetch(ks[i].id, mp.ks))
    ensures EncodeParams(mp, ks) == WriteParams(ps)
    decreases |ks|
  {
    if |ks| > 0 {
      ParamsWritten(mp, ks[1..], ps[1..]);
    }
  }

  lemma {:induction false} InputsWritten(mp: MMap, xs: seq<Ugen>, ins: seq<Input>)
    requires forall k :: 0 <= k < |xs| ==> IsPort(xs[k])
    requires |ins| == |xs| && forall k :: 0 <= k < |xs| ==> ins[k] == MkInput(mp, xs[k]).value
    ensures EncodeInputs(mp, xs) == Some(WriteInputs(ins))
    decreases |xs|
  {
    if |xs| > 0 {
      InputsWritten(mp, xs[1..], ins[1..]);
    }
  }

  lemma {:induction false} RatesWritten(rs: seq<Rate>, cs: seq<int>)
    requires |cs| == |rs| && forall k :: 0 <= k < |rs| ==> cs[k] == RateId(rs[k])
    ensures EncodeRates(rs) == WriteCodes(cs)
    decreases |rs|
  {
    if |rs| > 0 {
      RatesWritten(rs[1..], cs[1..]);
    }
  }

  lemma NodeUWritten(mp: MMap, n: NodeU)
    requires forall k :: 0 <= k < |n.inputs| ==> IsPort(n.inputs[k])
    ensures EncodeNodeU(mp, n) == Some(WriteUgen(SpecOf(mp, n)))
  {
    var s := SpecOf(mp, n);
    InputsWritten(mp, n.inputs, s.inputs);
    RatesWritten(n.outputs, s.outputs);
  }

  lemma {:induction false} UgensWritten(mp: MMap, us: seq<NodeU>, ss: seq<UgenSpec>)
    requires forall j, k :: 0 <= j < |us| && 0 <= k < |us[j].inputs| ==> IsPort(us[j].inputs[k])
    requires |ss| == |us| && forall j :: 0 <= j < |us| ==> ss[j] == SpecOf(mp, us[j])
    ensures EncodeUgens(mp, us) == Some(WriteUgens(ss))
    decreases |us|
  {
    if |us| > 0 {
      NodeUWritten(mp, us[0]);
      UgensWritten(mp, us[1..], ss[1..]);
    }
  }

  /** encode_graphdef writes the graph's view in the file format. */
  lemma EncodeGraphdefWritesView(name: Name, g: Graph)
    requires Encodable(g)
    ensures EncodeGraphdef(name, g) == Some(WriteDef(View(name, g)))
  {
    var d, mp := View(name, g), MkMap(g);
    ConstantsWritten(g.constants, d.constants);
    DefaultsWritten(g.controls, d.defaults);
    ParamsWritten(mp, g.controls, d.params);
    UgensWritten(mp, g.ugens, d.ugens);
    assert EncodeStr(MAGIC) == MAGIC;
  }

  /** The graphs whose view the file format can hold: names below 256
      bytes, fewer than 2^15 entries per table (so positions fit in 16
      bits), fewer than 2^16 inputs and outputs per unit generator, and
      special indices and output ports within 16 bits. */
  predicate GraphFits(name: Name, g: Graph)
  {
    && |name| < TWO8
    && |g.constants| < 0x8000 && |g.controls| < 0x8000 && |g.ugens| < 0x8000
    && (forall i :: 0 <= i < |g.controls| ==> |g.controls[i].name| < TWO8)
    && (forall j :: 0 <= j < |g.ugens| ==>
          |g.ugens[j].name| < TWO8 && |g.ugens[j].inputs| < TWO16 && |g.ugens[j].outputs| < TWO16
          && I16(g.ugens[j].special))
    && (forall j, k :: 0 <= j < |g.ugens| && 0 <= k < |g.ugens[j].inputs| && g.ugens[j].inputs[k].FromPortU? ==>
          I16(g.ugens[j].inputs[k].portIdx))
  }

  lemma ViewFits(name: Name, g: Graph)
    requires Encodable(g) && GraphFits(name, g)
    ensures DefFits(View(name, g))
  {
    var d, mp := View(name, g), MkMap(g);
    forall j | 0 <= j < |d.ugens|
      ensures UgenFits(d.ugens[j])
    {
      var n := g.ugens[j];
      assert d.ugens[j] == SpecOf(mp, n);
      forall k | 0 <= k < |n.inputs|
        ensures InputFits(MkInput(mp, n.inputs[k]).value)
      {
        assert IsPort(n.inputs[k]);
      }
    }
  }

  /** The file encode_graphdef writes reads back as the graph's view. */
  lemma EncodeGraphdefRoundTrip(name: Name, g: Graph)
    requires Encodable(g) && GraphFits(name, g)
    ensures ReadDef(EncodeGraphdef(name, g).value) == Some(View(name, g))
  {
    EncodeGraphdefWritesView(name, g);
    ViewFits(name, g);
    ReadDefWrite(View(name, g));
  }

  /** End to end: the bytes synthdef produces read back as the view of
      synth's graph, whenever the tables fit the format. */
  lemma SynthdefRoundTrip(name: Name, u: Ugen)
    requires Synth(u).Some? && GraphFits(name, Synth(u).value)
    ensures Synthdef(name, u).Some?
    ensures ReadDef(Synthdef(name, u).value) == Some(View(name, Synth(u).value))
  {
    SynthdefDefined(name, u);
    SynthSorted(u);
    SortedEncodable(Synth(u).value);
    EncodeGraphdefRoundTrip(name, Synth(u).value);
  }
}

=== FILE: synthdef.dfy ===
/** The SynthDef encoder of src/sc3.rs: a compiled graph is written as a
    SynthDef file, with every reference to a node replaced by the node's
    position in its table. A reference the encoder cannot translate (an
    input that is not a port reference) panics in the source and gives
    None here. */
module Encoder {
  import opened Osc
  import opened Float32
  import opened Ugens
  import opened Compiler

  /** mk_map: the ids of each table, in table order. */
  datatype MMap = MMap(cs: seq<int>, ks: seq<int>, us: seq<int>)

  /** An input as the file stores it: for a constant `u` is -1 and `p` the
      constant's position; for a control `u` is 0 and `p` the control's
      position; otherwise `u` is the unit generator's position and `p` the
      output port. */
  datatype Input = Input(u: int, p: int)

  function MkMap(g: Graph): (m: MMap)
    ensures |m.cs| == |g.constants| && |m.ks| == |g.controls| && |m.us| == |g.ugens|
  {
    MMap(CIds(g), KIds(g), UIds(g))
  }

  /** fetch: the position of the first occurrence of `val`, or -1 when it
      does not occur. */
  function Fetch(val: int, lst: seq<int>): (r: int)
    ensures -1 <= r < |lst|
    ensures r == -1 <==> val !in lst
    ensures r >= 0 ==> lst[r] == val && forall j :: 0 <= j < r ==> lst[j] != val
  {
    if |lst| == 0 then -1
    else if lst[0] == val then 0
    else
      var t := Fetch(val, lst[1..]);
      if t == -1 then -1 else t + 1
  }

  /** The references mk_input translates; anything else panics. */
  predicate IsPort(x: Ugen)
  {
    x.FromPortC? || x.FromPortK? || x.FromPortU?
  }

  /** mk_input. */
  function MkInput(mp: MMap, x: Ugen): (r: Option<Input>)
    ensures r.Some? <==> IsPort(x)
  {
    match x
    case FromPortC(id) => Some(Input(-1, Fetch(id, mp.cs)))
    case FromPortK(id) => Some(Input(0, Fetch(id, mp.ks)))
    case FromPortU(id, idx) => Some(Input(Fetch(id, mp.us), idx))
    case _ => None
  }

  /** encode_input: `u` then `p`, two bytes each. */
  function EncodeInput(i: Input): (r: Bytes)
    ensures |r| == 4
  {
    EncodeI16(i.u) + EncodeI16(i.p)
  }

  /** encode_node_k: the control's name and its position among the
      controls. */
  function EncodeNodeK(mp: MMap, k: NodeK): (r: Bytes)
    ensures |r| == |k.name| + 3
    ensures r[0] == |k.name| % TWO8 && r[1..|k.name| + 1] == k.name
    ensures DecodeI16(r[|k.name| + 1..]) == Some(Fetch(k.id, mp.ks) % TWO16)
    ensures k.id in mp.ks && |mp.ks| <= TWO16 ==> mp.ks[DecodeI16(r[|k.name| + 1..]).value] == k.id
  {
    var b := StrPstr(k.name) + EncodeI16(Fetch(k.id, mp.ks));
    assert b[|k.name| + 1..] == EncodeI16(Fetch(k.id, mp.ks));
    DecodeEncodeI16(Fetch(k.id, mp.ks));
    b
  }

  /** The inputs of a unit generator, four bytes each, in order. */
  function EncodeInputs(mp: MMap, xs: seq<Ugen>): (r: Option<Bytes>)
    ensures r.Some? <==> forall i :: 0 <= i < |xs| ==> IsPort(xs[i])
    ensures r.Some? ==> |r.value| == 4 * |xs|
    ensures r.Some? ==> forall k :: 0 <= k < |xs| ==>
      r.value[4 * k..4 * k + 4] == EncodeInput(MkInput(mp, xs[k]).value)
  {
    if |xs| == 0 then Some([])
    else
      match MkInput(mp, xs[0])
      case None => None
      case Some(i) =>
        match EncodeInputs(mp, xs[1..])
        case None => None
        case Some(b) =>
          assert forall k :: 1 <= k < |xs| ==> (EncodeInput(i) + b)[4 * k..4 * k + 4] == b[4 * (k - 1)..4 * (k - 1) + 4] by {
            forall k | 1 <= k < |xs| {
              SliceAfter(EncodeInput(i), b, 4 * k, 4 * k + 4);
            }
          }
          assert forall k :: 1 <= k < |xs| ==> xs[k] == xs[1..][k - 1];
          Some(EncodeInput(i) + b)
  }

  /** A slice that lies past the first part of a concatenation is a slice
      of the second part. */
  lemma SliceAfter(a: Bytes, b: Bytes, i: int, j: int)
    requires |a| <= i <= j <= |a| + |b|
    ensures (a + b)[i..j] == b[i - |a|..j - |a|]
  {
  }

  /** One byte per output: its rate's code. */
  function EncodeRates(rs: seq<Rate>): (r: Bytes)
    ensures |r| == |rs|
    ensures forall i :: 0 <= i < |rs| ==> r[i] == RateId(rs[i])
  {
    if |rs| == 0 then []
    else EncodeI8(RateId(rs[0])) + EncodeRates(rs[1..])
  }

  /** encode_node_u: name, rate, input count, output count, special
      index, the inputs, then the output rates. */
  function EncodeNodeU(mp: MMap, n: NodeU): (r: Option<Bytes>)
    ensures r.Some? <==> forall i :: 0 <= i < |n.inputs| ==> IsPort(n.inputs[i])
    ensures r.Some? ==> |r.value| == |n.name| + 8 + 4 * |n.inputs| + |n.outputs|
  {
    match EncodeInputs(mp, n.inputs)
    case None => None
    case Some(ins) =>
      Some(StrPstr(n.name) + (EncodeI8(RateId(n.rate)) + (EncodeI16(|n.inputs|) + (EncodeI16(|n.outputs|)
        + (EncodeI16(n.special) + (ins + EncodeRates(n.outputs)))))))
  }

  /** Each constant's value as four bytes. */
  function EncodeConstants(cs: seq<NodeC>): (r: Bytes)
    ensures |r| == 4 * |cs|
    ensures forall k :: 0 <= k < |cs| ==> r[4 * k..4 * k + 4] == EncodeWord(cs[k].value.bits)
  {
    if |cs| == 0 then []
    else
      var w, b := EncodeWord(cs[0].value.bits), EncodeConstants(cs[1..]);
      assert forall k :: 1 <= k < |cs| ==> (w + b)[4 * k..4 * k + 4] == b[4 * (k - 1)..4 * (k - 1) + 4] by {
        forall k | 1 <= k < |cs| {
          SliceAfter(w, b, 4 * k, 4 * k + 4);
        }
      }
      assert forall k :: 1 <= k < |cs| ==> cs[k] == cs[1..][k - 1];
      w + b
  }

  /** Each control's default, which is its `def` promoted to a float. */
  function EncodeDefaults(ks: seq<NodeK>): (r: Bytes)
    ensures |r| == 4 * |ks|
    ensures forall k :: 0 <= k < |ks| ==> r[4 * k..4 * k + 4] == EncodeWord(IntToF32(ks[k].def).bits)
  {
    if |ks| == 0 then []
    else
      var w, b := EncodeWord(IntToF32(ks[0].def).bits), EncodeDefaults(ks[1..]);
      assert forall k :: 1 <= k < |ks| ==> (w + b)[4 * k..4 * k + 4] == b[4 * (k - 1)..4 * (k - 1) + 4] by {
        forall k | 1 <= k < |ks| {
          SliceAfter(w, b, 4 * k, 4 * k + 4);
        }
      }
      assert forall k :: 1 <= k < |ks| ==> ks[k] == ks[1..][k - 1];
      w + b
  }

  function EncodeParams(mp: MMap, ks: seq<NodeK>): (r: Bytes)
    ensures |r| >= 3 * |ks|
  {
    if |ks| == 0 then [] else EncodeNodeK(mp, ks[0]) + EncodeParams(mp, ks[1..])
  }

  function EncodeUgens(mp: MMap, us: seq<NodeU>): (r: Option<Bytes>)
    ensures r.Some? <==> forall j, k :: 0 <= j < |us| && 0 <= k < |us[j].inputs| ==> IsPort(us[j].inputs[k])
    ensures r.Some? ==> |r.value| >= 8 * |us|
  {
    if |us| == 0 then Some([])
    else
      match EncodeNodeU(mp, us[0])
      case None => None
      case Some(b) =>
        match EncodeUgens(mp, us[1..])
        case None => None
        case Some(rest) => Some(b + rest)
  }

  const MAGIC: Bytes := [83, 67, 103, 102]  // "SCgf"

  /** The graphs the encoder can write: every input is a port reference. */
  predicate Encodable(g: Graph)
  {
    forall j, k :: 0 <= j < |g.ugens| && 0 <= k < |g.ugens[j].inputs| ==> IsPort(g.ugens[j].inputs[k])
  }

  /** encode_graphdef: the magic, file version 0 and one definition,
      followed by the name and the four tables, each preceded by its
      length (the controls' length is written twice: once before the
      defaults, once before the names). */
  function EncodeGraphdef(name: Name, g: Graph): (r: Option<Bytes>)
    ensures r.Some? <==> Encodable(g)
    ensures r.Some? ==> |r.value| >= 19 + |name|
  {
    var mm := MkMap(g);
    match EncodeUgens(mm, g.ugens)
    case None => None
    case Some(ub) =>
      Some(EncodeStr(MAGIC) + (EncodeI32(0) + (EncodeI16(1) + (StrPstr(name)
        + (EncodeI16(|g.constants|) + (EncodeConstants(g.constants)
        + (EncodeI16(|g.controls|) + (EncodeDefaults(g.controls)
        + (EncodeI16(|g.controls|) + (EncodeParams(mm, g.controls)
        + (EncodeI16(|g.ugens|) + ub)))))))))))
  }

  /** synthdef: compile the tree and encode the graph. */
  function Synthdef(name: Name, u: Ugen): (r: Option<Bytes>)
    ensures r.Some? ==> Synth(u).Some?
  {
    match Synth(u)
    case None => None
    case Some(g) => EncodeGraphdef(name, g)
  }

  // ---------------------------------------------------------------------
  // Properties
  // ---------------------------------------------------------------------

  /** In a list without repeats, fetch finds each element at its own
      position. */
  lemma FetchDistinct(lst: seq<int>, i: int)
    requires forall a, b :: 0 <= a < b < |lst| ==> lst[a] != lst[b]
    requires 0 <= i < |lst|
    ensures Fetch(lst[i], lst) == i
  {
  }

  /** mk_map on the sample graph lists each table's ids in table order, and
      fetch finds the second control at position 1. */
  lemma SampleMap()
    ensures MkMap(SAMPLE_GRAPH) == MMap([20, 21], [30, 31], [40, 41])
    ensures Fetch(31, MkMap(SAMPLE_GRAPH).ks) == 1
  {
  }

  /** On a graph in evaluation order every input translates: a constant or
      a control to its position in its table, a unit generator input to
      the position of an earlier unit generator; fetch never gives -1. */
  lemma SortedInputResolves(g: Graph, j: int, k: int)
    requires Sorted(g) && 0 <= j < |g.ugens| && 0 <= k < |g.ugens[j].inputs|
    ensures var x := g.ugens[j].inputs[k];
      var r := MkInput(MkMap(g), x);
      && r.Some?
      && (x.FromPortC? ==> r.value.u == -1 && 0 <= r.value.p < |g.constants| && g.constants[r.value.p].id == x.cNid)
      && (x.FromPortK? ==> r.value.u == 0 && 0 <= r.value.p < |g.controls| && g.controls[r.value.p].id == x.kNid)
      && (x.FromPortU? ==> 0 <= r.value.u < j && g.ugens[r.value.u].id == x.uNid && r.value.p == x.portIdx)
  {
    var x := g.ugens[j].inputs[k];
    assert InputBefore(x, g, j);
    match x
    case FromPortC(id) =>
    case FromPortK(id) =>
    case FromPortU(id, _) =>
      var m :| 0 <= m < j && m < |g.ugens| && g.ugens[m].id == id;
      assert UIds(g)[m] == id;
  }

  lemma SortedEncodable(g: Graph)
    requires Sorted(g)
    ensures Encodable(g)
  {
    forall j, k | 0 <= j < |g.ugens| && 0 <= k < |g.ugens[j].inputs|
      ensures IsPort(g.ugens[j].inputs[k])
    {
      SortedInputResolves(g, j, k);
    }
  }

  /** synthdef panics exactly when synth does: every graph synth produces
      can be encoded. */
  lemma SynthdefDefined(name: Name, u: Ugen)
    ensures Synthdef(name, u).Some? <==> Synth(u).Some?
  {
    if Synth(u).Some? {
      SynthSorted(u);
      SortedEncodable(Synth(u).value);
    }
  }

  /** On a graph synth produces, the position written after each control's
      name is the control's own position. */
  lemma SynthParamPositions(u: Ugen, i: int)
    requires Synth(u).Some? && 0 <= i < |Synth(u).value.controls|
    ensures var g := Synth(u).value;
      Fetch(g.controls[i].id, MkMap(g).ks) == i
  {
    var g := Synth(u).value;
    SynthTablesNewestFirst(u);
    var ks := MkMap(g).ks;
    forall a, b | 0 <= a < b < |ks|
      ensures ks[a] != ks[b]
    {
      assert ks[a] == g.controls[a].id && ks[b] == g.controls[b].id;
    }
    FetchDistinct(ks, i);
  }

  /** In the file synthdef writes every input refers backwards: a constant
      (-1), or a unit generator at an earlier position. A control input
      refers to position 0, which holds the implicit control node, and
      its port is within that node's outputs. */
  lemma SynthInputPositions(u: Ugen, j: int, k: int)
    requires Synth(u).Some?
    requires 0 <= j < |Synth(u).value.ugens| && 0 <= k < |Synth(u).value.ugens[j].inputs|
    ensures var g := Synth(u).value;
      var x := g.ugens[j].inputs[k];
      MkInput(MkMap(g), x).Some? &&
      var i := MkInput(MkMap(g), x).value;
      && -1 <= i.u < j
      && (i.u == -1 <==> x.FromPortC?)
      && (i.u == -1 ==> 0 <= i.p < |g.constants|)
      && (x.FromPortK? ==> i.u == 0 && g.ugens[0] == Implicit(|g.controls|) && 0 <= i.p < |g.ugens[0].outputs|)
  {
    var g := Synth(u).value;
    SynthSorted(u);
    SynthImplicit(u);
    SortedInputResolves(g, j, k);
    var x := g.ugens[j].inputs[k];
    if x.FromPortK? {
      assert |g.controls| > 0;
      assert g.ugens[0].inputs == [];
      assert j != 0;
    }
  }
}

=== FILE: ugens.dfy ===
/** The unit-generator tree of src/sc3.rs: rates, the `Ugen` union, the
    hand-written structural comparison `compare_ugen`, and the rate
    helpers `max_num`, `max_rate`, `rate_of` and `is_sink`. Names are byte
    strings (a Rust `String` is its UTF-8 bytes) and `i32` fields are
    unbounded integers. */
module Ugens {
  import opened Osc
  import opened Float32

  type Name = Bytes

  /** Signal rates; `RateId` is the integer the enum is cast to. */
  datatype Rate = Ir | Kr | Ar | Dr

  function RateId(r: Rate): (id: int)
    ensures 0 <= id < 4
  {
    match r
    case Ir => 0
    case Kr => 1
    case Ar => 2
    case Dr => 3
  }

  /** The rate whose code is `id`; the inverse of `RateId`. */
  function RateOfId(id: int): (r: Option<Rate>)
    ensures r.Some? <==> 0 <= id < 4
  {
    if id == 0 then Some(Ir)
    else if id == 1 then Some(Kr)
    else if id == 2 then Some(Ar)
    else if id == 3 then Some(Dr)
    else None
  }

  /** Comparing rates by their codes is the same as comparing the rates. */
  lemma RateIdInjective(a: Rate, b: Rate)
    ensures RateId(a) == RateId(b) <==> a == b
    ensures RateOfId(RateId(a)) == Some(a)
  {
  }

  datatype Ugen =
    | IntNum(intValue: int)
    | FloatNum(floatValue: F32)
    | IConst(ivalue: int)
    | FConst(fvalue: F32)
    | Control(cname: Name, cindex: int, crate: Rate)
    | Primitive(prim: Prim)
    | Mce(channels: seq<Ugen>)
    | Mrg(left: Ugen, right: Ugen)
    | Proxy(proxied: Prim, port: int)
    | FromPortC(cNid: int)
    | FromPortK(kNid: int)
    | FromPortU(uNid: int, portIdx: int)

  /** A generic operation: `index` is 0 for nodes that may be shared and a
      unique id for nodes that must never be merged. */
  datatype Prim = Prim(name: Name, inputs: seq<Ugen>, outputs: seq<Rate>, special: int, index: int, rate: Rate)

  // ---------------------------------------------------------------------
  // compare_ugen
  // ---------------------------------------------------------------------

  /** compare_ugen: IConst, FConst, Control, Primitive, Mce, Mrg, the
      FromPort references and Proxy compare field by field (rates by their
      codes, floats with IEEE `==`, lists length first and then pairwise in
      order); every other pair, including IntNum and FloatNum, is unequal. */
  predicate CompareUgen(a: Ugen, b: Ugen): (r: bool)
    ensures r && (a.IConst? || a.Control? || a.FromPortC? || a.FromPortK? || a.FromPortU?) ==> a == b
    ensures r && a.Primitive? ==> b.Primitive? && a.prim.(inputs := []) == b.prim.(inputs := [])
    ensures r && a.Proxy? ==> b.Proxy? && a.port == b.port && a.proxied.(inputs := []) == b.proxied.(inputs := [])
    ensures r && a.Mce? ==> b.Mce? && |a.channels| == |b.channels|
    decreases a
  {
    match a
    case IConst(x) => b.IConst? && x == b.ivalue
    case FConst(x) => b.FConst? && FloatEq(x, b.fvalue)
    case Control(n, i, r) => b.Control? && n == b.cname && i == b.cindex && RateId(r) == RateId(b.crate)
    case Primitive(p) => b.Primitive? && ComparePrim(p, b.prim)
    case Mce(s) =>
      b.Mce? && |s| == |b.channels| && forall i :: 0 <= i < |s| ==> CompareUgen(s[i], b.channels[i])
    case Mrg(l, r) => b.Mrg? && CompareUgen(l, b.left) && CompareUgen(r, b.right)
    case FromPortC(x) => b.FromPortC? && x == b.cNid
    case FromPortK(x) => b.FromPortK? && x == b.kNid
    case FromPortU(x, i) => b.FromPortU? && x == b.uNid && i == b.portIdx
    case Proxy(p, i) => b.Proxy? && i == b.port && ComparePrim(p, b.proxied)
    case _ => false
  }

  /** The Primitive arm of compare_ugen. */
  predicate ComparePrim(p: Prim, q: Prim): (r: bool)
    ensures r ==> |p.inputs| == |q.inputs| && p.(inputs := []) == q.(inputs := [])
    decreases p
  {
    && |p.inputs| == |q.inputs|
    && |p.outputs| == |q.outputs|
    && (forall i :: 0 <= i < |p.outputs| ==> RateId(p.outputs[i]) == RateId(q.outputs[i]))
    && (forall i :: 0 <= i < |p.inputs| ==> CompareUgen(p.inputs[i], q.inputs[i]))
    && p.name == q.name && p.index == q.index && p.special == q.special
    && RateId(p.rate) == RateId(q.rate)
  }

  /** The trees compare_ugen relates to themselves: no IntNum, no FloatNum
      and no NaN constant anywhere inside. */
  predicate Comparable(u: Ugen)
    decreases u
  {
    match u
    case IntNum(_) => false
    case FloatNum(_) => false
    case FConst(f) => !IsNaN(f)
    case Primitive(p) => PrimComparable(p)
    case Proxy(p, _) => PrimComparable(p)
    case Mce(s) => forall i :: 0 <= i < |s| ==> Comparable(s[i])
    case Mrg(l, r) => Comparable(l) && Comparable(r)
    case _ => true
  }

  predicate PrimComparable(p: Prim)
    decreases p
  {
    forall i :: 0 <= i < |p.inputs| ==> Comparable(p.inputs[i])
  }

  /** compare_ugen is reflexive exactly on the comparable trees. */
  lemma {:induction false} CompareReflexive(u: Ugen)
    ensures CompareUgen(u, u) <==> Comparable(u)
    decreases u
  {
    match u
    case Primitive(p) => ComparePrimReflexive(p);
    case Proxy(p, _) => ComparePrimReflexive(p);
    case Mce(s) =>
      forall i | 0 <= i < |s| ensures CompareUgen(s[i], s[i]) <==> Comparable(s[i]) {
        CompareReflexive(s[i]);
      }
    case Mrg(l, r) => CompareReflexive(l); CompareReflexive(r);
    case _ =>
  }

  lemma {:induction false} ComparePrimReflexive(p: Prim)
    ensures ComparePrim(p, p) <==> PrimComparable(p)
    decreases p
  {
    forall i | 0 <= i < |p.inputs| ensures CompareUgen(p.inputs[i], p.inputs[i]) <==> Comparable(p.inputs[i]) {
      CompareReflexive(p.inputs[i]);
    }
  }

  lemma {:induction false} CompareSymmetric(a: Ugen, b: Ugen)
    ensures CompareUgen(a, b) == CompareUgen(b, a)
    decreases a
  {
    match a
    case Primitive(p) => if b.Primitive? { ComparePrimSymmetric(p, b.prim); }
    case Proxy(p, _) => if b.Proxy? { ComparePrimSymmetric(p, b.proxied); }
    case Mce(s) =>
      if b.Mce? && |s| == |b.channels| {
        forall i | 0 <= i < |s| ensures CompareUgen(s[i], b.channels[i]) == CompareUgen(b.channels[i], s[i]) {
          CompareSymmetric(s[i], b.channels[i]);
        }
      }
    case Mrg(l, r) => if b.Mrg? { CompareSymmetric(l, b.left); CompareSymmetric(r, b.right); }
    case FConst(x) => if b.FConst? { FloatEqSymmetric(x, b.fvalue); }
    case _ =>
  }

  lemma {:induction false} ComparePrimSymmetric(p: Prim, q: Prim)
    ensures ComparePrim(p, q) == ComparePrim(q, p)
    decreases p
  {
    if |p.inputs| == |q.inputs| {
      forall i | 0 <= i < |p.inputs| ensures CompareUgen(p.inputs[i], q.inputs[i]) == CompareUgen(q.inputs[i], p.inputs[i]) {
        CompareSymmetric(p.inputs[i], q.inputs[i]);
      }
    }
  }

  lemma {:induction false} CompareTransitive(a: Ugen, b: Ugen, c: Ugen)
    requires CompareUgen(a, b) && CompareUgen(b, c)
    ensures CompareUgen(a, c)
    decreases a
  {
    match a
    case Primitive(p) => ComparePrimTransitive(p, b.prim, c.prim);
    case Proxy(p, _) => ComparePrimTransitive(p, b.proxied, c.proxied);
    case Mce(s) =>
      forall i | 0 <= i < |s| ensures CompareUgen(s[i], c.channels[i]) {
        CompareTransitive(s[i], b.channels[i], c.channels[i]);
      }
    case Mrg(l, r) => CompareTransitive(l, b.left, c.left); CompareTransitive(r, b.right, c.right);
    case FConst(x) => FloatEqTransitive(x, b.fvalue, c.fvalue);
    case _ =>
  }

  lemma {:induction false} ComparePrimTransitive(p: Prim, q: Prim, s: Prim)
    requires ComparePrim(p, q) && ComparePrim(q, s)
    ensures ComparePrim(p, s)
    decreases p
  {
    forall i | 0 <= i < |p.inputs| ensures CompareUgen(p.inputs[i], s.inputs[i]) {
      CompareTransitive(p.inputs[i], q.inputs[i], s.inputs[i]);
    }
  }

  /** Trees of different variants never compare equal. */
  lemma CompareSameVariant(a: Ugen, b: Ugen)
    requires CompareUgen(a, b)
    ensures a.IConst? == b.IConst? && a.FConst? == b.FConst? && a.Control? == b.Control?
    ensures a.Primitive? == b.Primitive? && a.Mce? == b.Mce? && a.Mrg? == b.Mrg? && a.Proxy? == b.Proxy?
    ensures a.FromPortC? == b.FromPortC? && a.FromPortK? == b.FromPortK? && a.FromPortU? == b.FromPortU?
    ensures !a.IntNum? && !a.FloatNum? && !b.IntNum? && !b.FloatNum?
  {
  }

  /** The comparison of bundles is order-sensitive: swapping two channels
      that do not compare equal breaks equality. */
  lemma CompareOrderSensitive(x: Ugen, y: Ugen)
    requires !CompareUgen(x, y)
    ensures !CompareUgen(Mce([x, y]), Mce([y, x]))
  {
    assert [x, y][0] == x && [y, x][0] == y;
  }

  // ---------------------------------------------------------------------
  // Well-formedness and sizes
  // ---------------------------------------------------------------------

  /** Every bundle in the tree has at least one channel (the expansion
      functions loop forever on an empty one). */
  predicate WellFormed(u: Ugen)
    decreases u
  {
    match u
    case Mce(s) => |s| > 0 && forall i :: 0 <= i < |s| ==> WellFormed(s[i])
    case Mrg(l, r) => WellFormed(l) && WellFormed(r)
    case Primitive(p) => PrimWellFormed(p)
    case Proxy(p, _) => PrimWellFormed(p)
    case _ => true
  }

  predicate PrimWellFormed(p: Prim)
    decreases p
  {
    forall i :: 0 <= i < |p.inputs| ==> WellFormed(p.inputs[i])
  }

  /** The height of a tree: leaves have height 1. */
  function Height(u: Ugen): (h: nat)
    ensures h >= 1
    decreases u
  {
    match u
    case Mce(s) => 1 + MaxHeight(s)
    case Mrg(l, r) => 1 + (if Height(l) >= Height(r) then Height(l) else Height(r))
    case Primitive(p) => 1 + MaxHeight(p.inputs)
    case Proxy(p, _) => 1 + MaxHeight(p.inputs)
    case _ => 1
  }

  /** The largest height in a list (0 for an empty list). */
  function MaxHeight(s: seq<Ugen>): (h: nat)
    ensures forall i :: 0 <= i < |s| ==> Height(s[i]) <= h
    ensures |s| > 0 ==> exists i :: 0 <= i < |s| && Height(s[i]) == h
    decreases s
  {
    if |s| == 0 then 0
    else
      var rest := MaxHeight(s[1..]);
      assert forall i :: 1 <= i < |s| ==> s[i] == s[1..][i - 1];
      if Height(s[0]) >= rest then Height(s[0]) else rest
  }

  /** Lists compared position by position: a list whose every height is at
      most the other's has a maximum height at most the other's. */
  lemma MaxHeightPointwise(s: seq<Ugen>, t: seq<Ugen>)
    requires |s| == |t|
    requires forall i :: 0 <= i < |s| ==> Height(s[i]) <= Height(t[i])
    ensures MaxHeight(s) <= MaxHeight(t)
  {
    if |s| > 0 {
      var i :| 0 <= i < |s| && Height(s[i]) == MaxHeight(s);
      assert Height(t[i]) <= MaxHeight(t);
    }
  }

  // ---------------------------------------------------------------------
  // Rate helpers
  // ---------------------------------------------------------------------

  /** max_num: the largest of `start` and the elements of `nums`. */
  function MaxNum(nums: seq<int>, start: int): (m: int)
    ensures start <= m
    ensures forall i :: 0 <= i < |nums| ==> nums[i] <= m
    ensures m == start || exists i :: 0 <= i < |nums| && nums[i] == m
    decreases |nums|
  {
    if |nums| == 0 then start
    else
      var next := if nums[0] > start then nums[0] else start;
      var m := MaxNum(nums[1..], next);
      assert forall i :: 1 <= i < |nums| ==> nums[i] == nums[1..][i - 1];
      assert m != next ==> exists i :: 1 <= i < |nums| && nums[i] == m by {
        if m != next {
          var j :| 0 <= j < |nums[1..]| && nums[1..][j] == m;
          assert nums[j + 1] == m;
        }
      }
      m
  }

  /** max_rate: the fastest of `start` and `rates`, by rate code; the
      earliest of equally fast rates wins. */
  function MaxRate(rates: seq<Rate>, start: Rate): (m: Rate)
    ensures RateId(start) <= RateId(m)
    ensures forall i :: 0 <= i < |rates| ==> RateId(rates[i]) <= RateId(m)
    ensures m == start || m in rates
    decreases |rates|
  {
    if |rates| == 0 then start
    else
      var next := if RateId(rates[0]) > RateId(start) then rates[0] else start;
      var m := MaxRate(rates[1..], next);
      assert forall i :: 1 <= i < |rates| ==> rates[i] == rates[1..][i - 1];
      m
  }

  /** rate_of: a control's or primitive's own rate, the fastest channel rate
      of a bundle (at least Kr), the left side's rate for a merge, and Kr for
      anything else. */
  function RateOf(u: Ugen): (r: Rate)
    ensures u.Mce? ==> RateId(Kr) <= RateId(r)
    ensures u.Mce? ==> forall i :: 0 <= i < |u.channels| ==> RateId(RateOf(u.channels[i])) <= RateId(r)
    ensures u.Mce? ==> r == Kr || exists i :: 0 <= i < |u.channels| && RateOf(u.channels[i]) == r
    decreases u
  {
    match u
    case Control(_, _, rt) => rt
    case Mce(s) =>
      var rates := seq(|s|, i requires 0 <= i < |s| => RateOf(s[i]));
      var m := MaxRate(rates, Kr);
      assert forall i :: 0 <= i < |s| ==> rates[i] == RateOf(s[i]);
      assert m != Kr ==> exists i :: 0 <= i < |s| && RateOf(s[i]) == m by {
        if m != Kr {
          var i :| 0 <= i < |rates| && rates[i] == m;
        }
      }
      m
    case Mrg(l, _) => RateOf(l)
    case Primitive(p) => p.rate
    case Proxy(p, _) => p.rate
    case _ => Kr
  }

  /** is_sink: a primitive without inputs, a merge whose left side is a
      sink, or a bundle with at least one sink channel. */
  function IsSink(u: Ugen): (b: bool)
    ensures u.Mce? ==> (b <==> exists i :: 0 <= i < |u.channels| && IsSink(u.channels[i]))
    decreases u
  {
    match u
    case Mce(s) => AnySink(s)
    case Mrg(l, _) => IsSink(l)
    case Primitive(p) => |p.inputs| == 0
    case _ => false
  }

  /** The loop of is_sink over a bundle's channels, stopping at the first
      sink. */
  function AnySink(s: seq<Ugen>): (b: bool)
    ensures b <==> exists i :: 0 <= i < |s| && IsSink(s[i])
    decreases s
  {
    if |s| == 0 then false
    else if IsSink(s[0]) then true
    else
      assert forall i :: 1 <= i < |s| ==> s[i] == s[1..][i - 1];
      AnySink(s[1..])
  }

  /** The tests' "P2": an audio-rate primitive without inputs is a sink and
      has audio rate. */
  lemma SinkWithoutInputs(name: Name)
    ensures IsSink(Primitive(Prim(name, [], [], 0, 0, Ar)))
    ensures RateOf(Primitive(Prim(name, [], [], 0, 0, Ar))) == Ar
    ensures MaxNum([13, 23, 38, 11], 21) == 38
  {
  }
}
